=== FILE: README.md ===
# pygtkChart chart geometry in Dafny

pygtkChart is a set of PyGTK chart widgets: a line chart, a bar chart, a grouped bar chart and a pie chart, all drawn with cairo. This project models the arithmetic and bookkeeping each widget does before it calls cairo, and proves properties of it:

- where things go on the widget;
- which bar or sector lies under the mouse;
- what state the setters and the event handlers leave behind.

One Dafny module per source file:

| module | source |
|---|---|
| `Wrappers` | `Option`, `Result` and the Python exceptions the code can raise (`TypeError`, `ValueError`, `ZeroDivisionError`, `IndexError`, `AttributeError`) |
| `Basics` | `basics.py`: intervals, the rectangle centre, colour conversions, the `show_text` reference point |
| `Labels` | `label.py`: the anchor offsets, the wrapping width, the rotated bounding box, the `Label` object and its setters |
| `Charts` | `chart.py`: the `Background` source state machine and the `Title` placement |
| `LineMapping` | `line_chart.py`, the pure part of `RangeCalculator`: ranges, the data-to-pixel map, the ticks |
| `LineGraphs` | `line_chart.py`: `Graph` (sorting, polyline, fill polygon) and the `RangeCalculator` object |
| `LineFiles` | `line_chart.py`: the line tokeniser of `graph_new_from_file`, on the file's text |
| `LineCharts` | `line_chart.py`: `LineChart`, axis placement and the zero tick label |
| `BarCharts` | `bar_chart.py`: `BarChart`, `MultiBar` and its `MultiBarChart` |
| `MultiBarCharts` | `multi_bar_chart.py`: `BarGroup` and the grouped `MultiBarChart` with its registry of sensitive areas |
| `PieCharts` | `pie_chart.py`: `PieChart`: the visible total, the sector sweep, the hit test, scrolling and the labels |

How the model represents the program:

- **Objects and values.** Objects whose fields the code updates in place are classes; queued redraws are a `redrawRequested` flag. Bars, pie areas and graph samples are values held in `seq` fields. Object identity, as in "the highlighted bar", is an index into that sequence (see "Left out" for what this changes when one object is added twice).
- **Numbers and exceptions.** Python numbers are exact reals, so the model does not tell an int from a float (see `LineMapping.TicLayoutOf` under "Left out"). Where the code divides values that are always Python ints, such as widget sizes, the floor division is written out, and so is `int()` truncation (`Basics.Trunc`). `int(s, 16)` follows Python 2's base-16 grammar, with a 64-bit C long deciding when a value overflows. The exceptions the code can raise on some inputs are `Failure` results: `max()` of an empty list, a division by a zero sum, unpacking `COLOR_AUTO` as a colour, a missing attribute.
- **Inputs.** The widget allocation is a parameter. So are `atan2`, `log10`, text extents (among them the height of a graph's title, which `Graph.Draw` takes as a number), the result of loading a png, and the float parser.

## Model

| member | source | states |
|---|---|---|
| Basics.Trunc | src/pygtk_chart/line_chart.py:140 | `int()` of a float truncates toward zero: the result is within one unit of the input, on the side of 0 |
| Basics.RealMod | src/pygtk_chart/pie_chart.py:294 | float `%` by a positive divisor lands in [0, m) |
| Basics.InvertedRangeIsEmpty | src/pygtk_chart/basics.py:36-44 | a pair with hi < lo contains no value |
| Basics.IntersectRanges | src/pygtk_chart/basics.py:46-49 | a value lies in the intersection exactly when it lies in both inputs |
| Basics.IntersectRangesCommutes | src/pygtk_chart/basics.py:46-49 | intersection does not depend on the order of its arguments |
| Basics.GetCenter | src/pygtk_chart/basics.py:51-59 | the centre is half the width and half the height, rounded down |
| Basics.GetCenterIgnoresOrigin | src/pygtk_chart/basics.py:51-59 | the rectangle's x and y do not change the centre |
| Basics.ColorRgbToCairo | src/pygtk_chart/basics.py:61-69 | each channel of the result times 255 is the input channel |
| Basics.ColorRgbToCairoInUnitRange | src/pygtk_chart/basics.py:61-69 | bytes map into [0, 1], 0 to 0 and 255 to 1 |
| Basics.ParseHex | src/pygtk_chart/basics.py:81-83 | `int(s, 16)` raises nothing but ValueError |
| Basics.ScanHex | src/pygtk_chart/basics.py:81-83 | what `int(s, 16)` accepts is a literal of Python 2's base-16 grammar (blanks, an optional sign, blanks, an optional "0x", at least one digit, blanks; no blank after the sign when the value overflows a C long), and its parts spell the string |
| Basics.ScanHexReadsLiteral | src/pygtk_chart/basics.py:81-83 | every such literal is accepted, and the scan recovers exactly its parts |
| Basics.ParseHexReadsLiteral | src/pygtk_chart/basics.py:81-83 | every such literal parses to its signed value |
| Basics.ParseHexDigits | src/pygtk_chart/basics.py:81-83 | a bare run of hexadecimal digits parses to its value |
| Basics.ParseHexSignedPrefixed | src/pygtk_chart/basics.py:81-83 | " -0x1f " parses to -31 |
| Basics.ParseHexBlankAfterSign | src/pygtk_chart/basics.py:81-83 | "- 1" parses to -1 |
| Basics.ParseHexBarePrefix | src/pygtk_chart/basics.py:81-83 | "0x" with no digit raises ValueError |
| Basics.ColorHtmlToCairo | src/pygtk_chart/basics.py:71-84 | the empty string raises IndexError (the `color[0]` test); any other failure is the ValueError of `int(s, 16)` on a field |
| Basics.ColorHtmlReadsSignedFields | src/pygtk_chart/basics.py:71-84 | the fields go through `int(s, 16)`, so "#-1-1-1" is accepted and gives negative channels |
| Basics.HashPrefixIsOptional | src/pygtk_chart/basics.py:79-80 | "#rrggbb" and "rrggbb" give the same result |
| Basics.HexByteValue | src/pygtk_chart/basics.py:81-83 | the two hexadecimal digits written for a byte have that byte as their value |
| Basics.ParseHexByte | src/pygtk_chart/basics.py:81-83 | the two hexadecimal digits written for a byte parse back to that byte |
| Basics.HtmlColorRoundTrip | src/pygtk_chart/basics.py:61-84 | writing a byte triple as "#rrggbb" and converting it gives the same colour as `color_rgb_to_cairo` of the triple |
| Basics.ShowTextOffset | src/pygtk_chart/basics.py:107-115 | right-hand references move left by the text width, top references move down by the text height, and the shift stays inside the text box |
| Basics.ShowTextFontSize | src/pygtk_chart/basics.py:100 | the font size is the requested size, raised to 8 when smaller |
| Basics.ShowTextOrigin | src/pygtk_chart/basics.py:107-117 | the text is moved so that the corner the reference point names (bottom-left, top-left, top-right or bottom-right of the text's extents) lands on the requested point |
| Labels.GetTextPos | src/pygtk_chart/label.py:477-505 | the corner is the anchor point shifted by the column and row offsets of the anchor |
| Labels.TextCornerInBox | src/pygtk_chart/label.py:477-505 | for a non-negative size the corner lies in [x - w, x] x [y - h, y] |
| Labels.CentreAnchorsHalveTheBox | src/pygtk_chart/label.py:493-494 | ANCHOR_CENTER puts the anchor point on the middle of the box, up to half a pixel |
| Labels.UnknownAnchorIsBottomLeft | src/pygtk_chart/label.py:486 | BOTTOM_LEFT and every unrecognised anchor give (x, y - h) |
| Labels.AvailableWidth | src/pygtk_chart/label.py:202-212 | the wrapping width is at most max_width and at most the base width times the cosine, and equals one of the two |
| Labels.AvailableWidthKeepsLabelInside | src/pygtk_chart/label.py:202-212 | for an anchor inside the area and a cosine in [0, 1], a left-anchored label ends before the right edge, a right-anchored one starts after the left edge |
| Labels.RealDimensions | src/pygtk_chart/label.py:229-232 | the rotated bounding box has non-negative sides |
| Labels.RealDimensionsUnrotated | src/pygtk_chart/label.py:229-232 | at rotation 0 the box is (w, h) |
| Labels.RealDimensionsQuarterTurn | src/pygtk_chart/label.py:229-232 | a quarter turn gives (h, w) |
| Labels.RealDimensionsTranspose | src/pygtk_chart/label.py:229-232 | swapping w and h swaps the two sides of the box |
| Labels.Label.constructor | src/pygtk_chart/label.py:105-122 | the settings are the arguments, rotation 0, black; `get_real_dimensions` raises AttributeError until the first draw |
| Labels.Label.GetRealDimensions | src/pygtk_chart/label.py:467-475 | succeeds exactly when the label has been drawn, and raises AttributeError otherwise |
| Labels.Label.SetText | src/pygtk_chart/label.py:234-243 | only the text changes, and a redraw is requested |
| Labels.Label.SetColor | src/pygtk_chart/label.py:253-261 | only the colour changes, and a redraw is requested |
| Labels.Label.SetPosition | src/pygtk_chart/label.py:271-282 | only the position changes, and a redraw is requested |
| Labels.Label.SetAnchor | src/pygtk_chart/label.py:292-328 | only the anchor changes, and a redraw is requested |
| Labels.Label.SetUnderline | src/pygtk_chart/label.py:339-354 | only the underline changes, and a redraw is requested |
| Labels.Label.SetMaxWidth | src/pygtk_chart/label.py:365-373 | only the maximum width changes, and a redraw is requested |
| Labels.Label.SetRotation | src/pygtk_chart/label.py:383-391 | only the rotation changes, and a redraw is requested |
| Labels.Label.SetSize | src/pygtk_chart/label.py:401-409 | only the size changes, and a redraw is requested |
| Labels.Label.SetSlant | src/pygtk_chart/label.py:419-431 | only the slant changes, and a redraw is requested |
| Labels.Label.SetWeight | src/pygtk_chart/label.py:442-457 | only the weight changes, and a redraw is requested |
| Labels.Label.DrawLabel | src/pygtk_chart/label.py:183-232 | the wrapping width is `int(1000 * AvailableWidth)`; the layout goes to `get_text_pos` moved up by `text_width * sin`; the real dimensions are cached; no setting changes |
| Charts.Background.constructor | src/pygtk_chart/chart.py:162-167 | white, no gradient, no image, at most one source set, and drawing fills with white |
| Charts.Background.Draw | src/pygtk_chart/chart.py:197-223 | the fill always covers (0, 0, w, h); the source is solid exactly when a colour is set or neither a gradient nor a loaded image is; a gradient spans the widget height; an image is used only when neither colour nor gradient is set |
| Charts.Background.SetColor | src/pygtk_chart/chart.py:225-236 | the colour is set, gradient and image cleared, at most one source set, and every drawing uses the colour |
| Charts.Background.SetGradient | src/pygtk_chart/chart.py:241-253 | the gradient is set, colour and image cleared, and every drawing uses the gradient over the widget height |
| Charts.Background.SetImage | src/pygtk_chart/chart.py:258-275 | the filename is recorded, colour and gradient cleared; a surface exists only when loading succeeded; drawing uses the image or falls back to white |
| Charts.PlaceTitle | src/pygtk_chart/chart.py:290-292 | the size is int(h / 50.0) and the position (w / 2, h / 80) in integer division |
| Charts.NewTitle | src/pygtk_chart/chart.py:287-288 | a bold label at (0, 0), anchored at its top centre |
| Charts.DrawTitle | src/pygtk_chart/chart.py:290-293 | only the size and position are replaced by the placement before the label is drawn there, and the text is placed at the label's anchored position for that placement, lifted by the unwrapped width times the sine of the rotation |
| Charts.TitleIsCentred | src/pygtk_chart/chart.py:288-292 | a title no wider than the widget lies within it horizontally, up to one pixel |
| LineMapping.AutoRange | src/pygtk_chart/line_chart.py:85-88 | an automatic range is the data extent, widened by 0.1 when both ends coincide, and then never degenerate |
| LineMapping.EffectiveRange | src/pygtk_chart/line_chart.py:84-94 | a fixed range is returned unchanged; an automatic one raises TypeError exactly when no data extent was computed |
| LineMapping.GetRanges | src/pygtk_chart/line_chart.py:83-96 | succeeds exactly when both axes do, with each axis's range from its own setting |
| LineMapping.AutoRangesAreProper | src/pygtk_chart/line_chart.py:83-96 | with data extents, automatic ranges have lo < hi |
| LineMapping.Band | src/pygtk_chart/line_chart.py:149-150 | the padded band is (1 - 2/15) of the size long |
| LineMapping.AbsolutePointIsAffine | src/pygtk_chart/line_chart.py:104-123 | x is scaled from the left band edge, y from the bottom band edge upwards |
| LineMapping.ScaleEndpoints | src/pygtk_chart/line_chart.py:104-123 | the ends of a range land on the ends of the band |
| LineMapping.ScaleIncreasing | src/pygtk_chart/line_chart.py:104-123 | on a proper range the map is strictly increasing |
| LineMapping.ScaleInBandIff | src/pygtk_chart/line_chart.py:104-123 | a value maps into the band exactly when it lies in the range |
| LineMapping.AbsolutePointCorners | src/pygtk_chart/line_chart.py:104-123 | (xmin, ymin) goes to (w P, h (1 - P)) and (xmax, ymax) to (w (1 - P), h P) |
| LineMapping.AbsolutePointMonotone | src/pygtk_chart/line_chart.py:104-123 | larger x moves right, larger y moves up |
| LineMapping.AbsolutePointInBandIff | src/pygtk_chart/line_chart.py:104-123 | a point maps into the padded plot area exactly when it lies inside both ranges |
| LineMapping.Pow10 | src/pygtk_chart/line_chart.py:142-143 | `10 ** exp` is positive, and at least 1 for exp >= 0 |
| LineMapping.TicLayoutOf | src/pygtk_chart/line_chart.py:135-150 | ZeroDivisionError for a degenerate range, ValueError for an inverted one, ZeroDivisionError for a zero size; on success divide_by >= 1 and first/last are the truncated quotients |
| LineMapping.MakeTicks | src/pygtk_chart/line_chart.py:152-156 | one tick per multiplier |
| LineMapping.MakeTicksIndexing | src/pygtk_chart/line_chart.py:152-156 | tick j is the tick of multiplier j: the value i * 10 ** exp at its pixel, in the multipliers' order |
| LineMapping.MultipliersSpec | src/pygtk_chart/line_chart.py:152-156 | the kept multipliers are strictly increasing, lie in range, each yields a tick, and every multiplier that yields one is kept |
| LineMapping.TickNumIncreasing | src/pygtk_chart/line_chart.py:153 | larger multipliers mark larger values |
| LineMapping.TicksAscend | src/pygtk_chart/line_chart.py:152-156 | ticks from increasing multipliers have increasing values |
| LineMapping.BandSymmetric | src/pygtk_chart/line_chart.py:174-175 | the band is the same seen from either edge |
| LineMapping.EmitsIff | src/pygtk_chart/line_chart.py:155 | a multiplier yields a tick exactly when divide_by divides it and its value lies in the axis's range |
| LineMapping.TicsOfSpec | src/pygtk_chart/line_chart.py:135-183 | every tick lies in the padded band, marks a value in range that is i * 10 ** exp with divide_by dividing i, and values strictly increase |
| LineMapping.MakeTicksStep | src/pygtk_chart/line_chart.py:152-156 | one more multiplier appends its tick exactly when it yields one |
| LineMapping.TicsOf | src/pygtk_chart/line_chart.py:135-183 | a layout error is the result's error; success needs a layout |
| LineMapping.KeepTick | src/pygtk_chart/line_chart.py:153-156 | one turn of the loop: the ticks kept so far grow by multiplier i's tick exactly when i yields one |
| LineMapping.CollectTicks | src/pygtk_chart/line_chart.py:152-158 | the walk over first..last returns exactly the ticks of the multipliers that yield one, in increasing order of multiplier |
| LineMapping.ComputeTics | src/pygtk_chart/line_chart.py:135-183 | the loop returns the ticks of the specification |
| LineGraphs.Insert | src/pygtk_chart/line_chart.py:1053 | inserting into a sorted list keeps it sorted and adds exactly that sample |
| LineGraphs.SortBy | src/pygtk_chart/line_chart.py:1053 | the result is sorted by the key and is a permutation of the input |
| LineGraphs.SortByIsStable | src/pygtk_chart/line_chart.py:1053 | the sort is stable, as `list.sort` is: the samples that share a key keep their relative order |
| LineGraphs.SortByYThenX | src/pygtk_chart/line_chart.py:66-69 | sorting by y and then stably by x, as `add_graph` does through `get_y_range` and `get_x_range`, orders the samples by x and by y among equal x |
| LineGraphs.ExtentIsUnique | src/pygtk_chart/line_chart.py:1046-1068 | a list has at most one (least, greatest) key pair |
| LineGraphs.KeyExtent | src/pygtk_chart/line_chart.py:1046-1068 | None exactly for no samples; otherwise a pair whose low end is at most its high end |
| LineGraphs.KeyExtentIsExtent | src/pygtk_chart/line_chart.py:1046-1068 | for samples, the extent holds every key and both its ends are keys: the least and the greatest key |
| LineGraphs.KeyExtentIgnoresOrder | src/pygtk_chart/line_chart.py:1046-1068 | the extent depends only on the samples, not their order |
| LineGraphs.ExtentCovers | src/pygtk_chart/line_chart.py:66-81 | intervals containing the extents cover every sample |
| LineGraphs.Hull | src/pygtk_chart/line_chart.py:75-81 | the widened extent contains both inputs and each end is one of theirs |
| LineGraphs.LineUpTo | src/pygtk_chart/line_chart.py:1016-1038 | never more segments than samples |
| LineGraphs.SegmentsJoinConsecutiveSamples | src/pygtk_chart/line_chart.py:1030-1038 | every segment joins the pixels of two consecutive samples that are both inside the ranges |
| LineGraphs.ConsecutiveSamplesAreJoined | src/pygtk_chart/line_chart.py:1030-1038 | when lines are shown, every two consecutive inside samples are joined |
| LineGraphs.LastIsLastSampleInside | src/pygtk_chart/line_chart.py:1017-1036 | `last` is the pixel of the last inside sample, and None exactly when no sample is inside |
| LineGraphs.BaselineOf | src/pygtk_chart/line_chart.py:954-965 | at most two points, none exactly for no samples, all at y == fill_to and at the x of a sample |
| LineGraphs.Baseline | src/pygtk_chart/line_chart.py:954-965 | the loop with its break builds the specified baseline |
| LineGraphs.FillPolygonOf | src/pygtk_chart/line_chart.py:978-1001 | one vertex per forward and backward vertex plus the closing point, which is the first vertex, or (0, 0) when no forward vertex exists |
| LineGraphs.Forward | src/pygtk_chart/line_chart.py:983-991 | the forward loop never yields more vertices than samples |
| LineGraphs.Backward | src/pygtk_chart/line_chart.py:993-999 | the backward loop never yields more vertices than samples |
| LineGraphs.ForwardVertices | src/pygtk_chart/line_chart.py:983-991 | every forward vertex is the pixel of an inside sample of this graph |
| LineGraphs.BackwardVertices | src/pygtk_chart/line_chart.py:993-999 | every backward vertex is the pixel of an inside sample of the other graph |
| LineGraphs.TracePolygon | src/pygtk_chart/line_chart.py:978-1001 | ZeroDivisionError exactly when the ranges cannot be divided by and the other graph has samples or this one has one inside the x range; otherwise the specified polygon |
| LineGraphs.Graph.constructor | src/pygtk_chart/line_chart.py:844-871 | automatic colours, points and lines, point size 2, no fill, opacity 0.3, values hidden, title shown, no range calculator |
| LineGraphs.Graph.GetXRange | src/pygtk_chart/line_chart.py:1046-1056 | returns the x extent of the samples and leaves them as the stable sort by x of the old samples (sorted, a permutation), nothing else changed |
| LineGraphs.Graph.GetYRange | src/pygtk_chart/line_chart.py:1058-1068 | returns the y extent and leaves the samples as the stable sort by y of the old samples (sorted, a permutation), nothing else changed |
| LineGraphs.Graph.SetRangeCalc | src/pygtk_chart/line_chart.py:1096-1097 | only the range calculator changes, with no redraw |
| LineGraphs.Graph.SetTitle | src/pygtk_chart/line_chart.py:1086-1094 | only the title changes, and a redraw is requested |
| LineGraphs.Graph.SetColor | src/pygtk_chart/line_chart.py:1107-1117 | only the colour changes, and a redraw is requested |
| LineGraphs.Graph.SetType | src/pygtk_chart/line_chart.py:1127-1137 | only the type changes, and a redraw is requested |
| LineGraphs.Graph.SetPointSize | src/pygtk_chart/line_chart.py:1147-1155 | only the point size changes, and a redraw is requested |
| LineGraphs.Graph.SetFillTo | src/pygtk_chart/line_chart.py:1164-1180 | only the fill target changes, and a redraw is requested |
| LineGraphs.Graph.SetFillColor | src/pygtk_chart/line_chart.py:1189-1198 | only the fill colour changes, and a redraw is requested |
| LineGraphs.Graph.SetFillOpacity | src/pygtk_chart/line_chart.py:1206-1214 | only the fill opacity changes, and a redraw is requested |
| LineGraphs.Graph.SetShowValues | src/pygtk_chart/line_chart.py:1224-1232 | only the show-values flag changes, and a redraw is requested |
| LineGraphs.Graph.SetShowTitle | src/pygtk_chart/line_chart.py:1242-1249 | only the show-title flag changes, and a redraw is requested |
| LineGraphs.Graph.DrawLine | src/pygtk_chart/line_chart.py:1013-1038 | ZeroDivisionError exactly when a sample is inside ranges that cannot be divided by; otherwise the specified polyline |
| LineGraphs.Graph.FillSpec | src/pygtk_chart/line_chart.py:953-1001 | IndexError for an empty other graph, nothing for a hidden one; the set opacity and the fill colour, or the graph colour for an automatic fill colour; TypeError only when both colours are automatic |
| LineGraphs.Graph.DrawFill | src/pygtk_chart/line_chart.py:953-1001 | the method computes the specified fill |
| LineGraphs.Graph.DrawSpec | src/pygtk_chart/line_chart.py:1003-1044 | AttributeError without a range calculator, its error when the ranges fail, TypeError for COLOR_AUTO, ZeroDivisionError when a sample lies in ranges that cannot be divided by; on success the graph's colour, the specified polyline, the specified fill (none without a fill target) and the title 5 pixels right of the last point and a third of the title height below it, only when the title is shown and a point was drawn |
| LineGraphs.Graph.Draw | src/pygtk_chart/line_chart.py:1003-1044 | the method computes `DrawSpec`: line, fill and title in order, the first error met being the result |
| LineGraphs.TicsError | src/pygtk_chart/line_chart.py:125-127 | no error exactly when the ranges and both tick lists succeed, and then the ranges can be divided by |
| LineGraphs.RangeCalculator.constructor | src/pygtk_chart/line_chart.py:58-64 | no data extent, both axes automatic, no cached ticks |
| LineGraphs.RangeCalculator.Ranges | src/pygtk_chart/line_chart.py:83-96 | TypeError exactly when an automatic axis has no data extent yet; a range set by `set_xrange`/`set_yrange` comes back unchanged; an automatic range starts at the extent's low end, covers the extent and is never empty |
| LineGraphs.AbsorbKeepsExtents | src/pygtk_chart/line_chart.py:66-81 | whichever branch `add_graph` takes, the resulting extent is a pair of proper intervals that covers every sample of the new graph and keeps both ends of the old extent inside it |
| LineGraphs.RangeCalculator.AddGraph | src/pygtk_chart/line_chart.py:66-81 | the first graph seeds the extent; later graphs with samples widen it by min/max; an empty graph leaves it; the extent covers the graph's samples, which end up stably sorted by y and then by x, so ordered by x and by y among equal x; settings and ticks unchanged |
| LineGraphs.RangeCalculator.SetXRange | src/pygtk_chart/line_chart.py:98-99 | only the x setting changes |
| LineGraphs.RangeCalculator.SetYRange | src/pygtk_chart/line_chart.py:101-102 | only the y setting changes |
| LineGraphs.RangeCalculator.PrepareTics | src/pygtk_chart/line_chart.py:125-127 | the error is the first of ranges, x ticks and y ticks; the ticks computed before it are stored, the others keep their old values |
| LineFiles.Strip | src/pygtk_chart/line_chart.py:1363 | a middle slice with only whitespace cut from either end and none left at either end |
| LineFiles.BeforeFirst | src/pygtk_chart/line_chart.py:1366-1368 | the prefix before the first '#', holding none, or the whole text |
| LineFiles.Split | src/pygtk_chart/line_chart.py:1372 | at least one piece, and no piece holds the separator |
| LineFiles.JoinSplit | src/pygtk_chart/line_chart.py:1372 | joining the pieces with the separator gives the text back |
| LineFiles.SplitJoin | src/pygtk_chart/line_chart.py:1372 | splitting a join of separator-free pieces gives the pieces back |
| LineFiles.SplitNoSeparator | src/pygtk_chart/line_chart.py:1372 | a text without the separator is one piece |
| LineFiles.SplitAppend | src/pygtk_chart/line_chart.py:1372 | a separator after a separator-free piece starts a new piece |
| LineFiles.NonEmpty | src/pygtk_chart/line_chart.py:1379 | only non-empty pieces of the input are kept |
| LineFiles.Replace2 | src/pygtk_chart/line_chart.py:1377 | never longer, and strictly shorter when the text holds two adjacent spaces |
| LineFiles.Replace2KeepsPieces | src/pygtk_chart/line_chart.py:1377-1378 | the first piece and the non-empty later pieces are unchanged |
| LineFiles.Replace2KeepsTokens | src/pygtk_chart/line_chart.py:1377-1379 | one replacement changes no field |
| LineFiles.CollapseSpaces | src/pygtk_chart/line_chart.py:1376-1377 | the loop ends with no two adjacent spaces and the same fields |
| LineFiles.LineFields | src/pygtk_chart/line_chart.py:1363-1379 | a line is skipped exactly when nothing is left once stripped and cut at '#' |
| LineFiles.FieldsAreClean | src/pygtk_chart/line_chart.py:1363-1379 | no field is empty or holds a '#' or a tab; when the content holds no tab, no field holds a space |
| LineFiles.PieceOfText | src/pygtk_chart/line_chart.py:1372-1378 | every piece is made of characters of the text |
| LineFiles.TokeniseLine | src/pygtk_chart/line_chart.py:1363-1379 | the method computes the fields of the specification |
| LineFiles.ParseAll | src/pygtk_chart/line_chart.py:1380 | succeeds exactly when every field parses, one number per field |
| LineFiles.PyIndex | src/pygtk_chart/line_chart.py:1382 | Python indexing: negative indices count from the end, anything else raises IndexError |
| LineFiles.LinePoint | src/pygtk_chart/line_chart.py:1363-1382 | skipped lines give nothing; a point needs both columns present |
| LineFiles.PointsOf | src/pygtk_chart/line_chart.py:1362-1382 | at most one point per line |
| LineFiles.PointsOfStep | src/pygtk_chart/line_chart.py:1362-1382 | one more line extends the points of the lines before it |
| LineFiles.FailureIsFinal | src/pygtk_chart/line_chart.py:1362-1382 | once a line raises, the later lines do not matter |
| LineFiles.ReadLine | src/pygtk_chart/line_chart.py:1363-1382 | the loop body computes the outcome of the specification for one line |
| LineFiles.ReadPoints | src/pygtk_chart/line_chart.py:1356-1382 | the loop computes the points, or the first line's error |
| LineFiles.GraphNewFromText | src/pygtk_chart/line_chart.py:1356-1383 | fails exactly when reading the points fails, else a new graph with that name, an empty title and those points |
| LineCharts.AxisOffset | src/pygtk_chart/line_chart.py:557-566 | ZeroDivisionError exactly for undividable ranges; a drawn axis lies in the band; a pinned position draws at a band edge |
| LineCharts.OriginIsZeroPoint | src/pygtk_chart/line_chart.py:104-123 | the data origin is the pixel of (0, 0) |
| LineCharts.AutoAxisDrawnIff | src/pygtk_chart/line_chart.py:557-566 | an automatic axis is drawn exactly when 0 lies in the other axis's range, and then through the origin |
| LineCharts.TicLabelText | src/pygtk_chart/line_chart.py:528-532 | the label is the formatted value or a blank, and a blank replaces a value only for a 0 tick with both axes automatic |
| LineCharts.ZeroTickSitsAtOrigin | src/pygtk_chart/line_chart.py:529-532 | a tick marking 0 sits on the data origin, where the two automatic axes cross |
| LineCharts.TicLabels | src/pygtk_chart/line_chart.py:528-538 | IndexError exactly when the format function gives some tick an empty text (the `label[0]` test); otherwise one label per tick, in tick order |
| LineCharts.PlotAxis.constructor | src/pygtk_chart/line_chart.py:333-344 | label shown, automatic position, tics and tic labels shown, `str` as format |
| LineCharts.PlotAxis.SetPosition | src/pygtk_chart/line_chart.py:421-428 | only the position changes |
| LineCharts.DrawAxis | src/pygtk_chart/line_chart.py:498-581 | IndexError exactly when the axis is drawn with tick labels and one of them is empty; otherwise the drawing follows the axis's offset, its tick positions and its labels |
| LineCharts.CoversWiden | src/pygtk_chart/line_chart.py:75-81 | widening an extent keeps every sample covered |
| LineCharts.LineChart.constructor | src/pygtk_chart/line_chart.py:196-206 | no graphs, a new range calculator with automatic ranges, axes "x" and "y" in automatic position |
| LineCharts.LineChart.AbsorbSamples | src/pygtk_chart/line_chart.py:272 | once the calculator has taken in the new graph's samples, every graph held, the new one included, lies inside the extent; the new extent is exactly the old one merged with the graph's x and y extents (`Absorb`), so the old extent's ends stay inside it; the graph's settings, visibility and redraw flag, the range settings and the cached ticks are unchanged; the samples are stably sorted by y and then by x, so ordered by x and by y among equal x |
| LineCharts.LineChart.AddGraph | src/pygtk_chart/line_chart.py:261-274 | palette colour for COLOR_AUTO by graph count, filed by name, linked to the calculator, samples stably sorted by y then by x (ordered by x and by y among equal x); the new extent is exactly the old one merged with the graph's extents (`Absorb`), so it only widens; every other setting of the graph and its visibility unchanged, a redraw requested only when the colour was set; range settings and cached ticks unchanged |
| LineCharts.LineChart.SetXRange | src/pygtk_chart/line_chart.py:286-295 | only the x setting changes |
| LineCharts.LineChart.SetYRange | src/pygtk_chart/line_chart.py:297-306 | only the y setting changes |
| LineCharts.LineChart.FindData | src/pygtk_chart/line_chart.py:250-254 | true exactly when some graph has samples |
| LineCharts.LineChart.DrawsGraphsFailsExactly | src/pygtk_chart/line_chart.py:208-218 | drawing the graphs fails exactly when some shown graph fails to draw itself |
| LineCharts.LineChart.DrawGraphs | src/pygtk_chart/line_chart.py:208-218 | a failure is the error of some shown graph; a success draws every shown graph, and only those, as `Graph.DrawSpec` says |
| LineCharts.LineChart.Draw | src/pygtk_chart/line_chart.py:232-259 | the tick error comes first; on success the ticks are cached and the plot drawn exactly when data is available; a shown graph that fails makes the chart fail with that graph's error; otherwise an axis with an empty tick label makes it fail with IndexError; a successful plot holds the graphs' drawings as `DrawGraphs` states and the axes as `DrawAxis` states |
| BarCharts.TotalHeight | src/pygtk_chart/bar_chart.py:198 | the height left for the tallest bar is not negative |
| BarCharts.BarLeftIsFloor | src/pygtk_chart/bar_chart.py:203 | the left edge of bar i is floor(width * i / n) + rect.x + 8 |
| BarCharts.BarWidthIsColumnLessPadding | src/pygtk_chart/bar_chart.py:201 | the bar width is width div n less the padding |
| BarCharts.BarsDoNotOverlap | src/pygtk_chart/bar_chart.py:201-208 | a later bar starts at least 16 pixels right of an earlier bar's end |
| BarCharts.BarsInsideWidget | src/pygtk_chart/bar_chart.py:201-203 | every bar lies 8 pixels in from either side |
| BarCharts.PaddingAndBarFit | src/pygtk_chart/bar_chart.py:198-206 | the top padding plus the tallest bar fit above the bottom line |
| BarCharts.ScaledTrunc | src/pygtk_chart/bar_chart.py:205 | int(total_height * percent) grows with the percent and, for a percent in [0, 1], stays in [0, total_height] |
| BarCharts.PercentHeightBounds | src/pygtk_chart/bar_chart.py:204-205 | for percents 0 <= a <= b <= 1, the heights int(total_height * percent) are ordered the same way and lie in [0, total_height] |
| BarCharts.BarHeightBounds | src/pygtk_chart/bar_chart.py:204-205 | a bar's height grows with its value and stays in [0, total_height] |
| BarCharts.TallestBarHeight | src/pygtk_chart/bar_chart.py:204-205 | the bar of the maximum is total_height tall |
| BarCharts.BarTopBounds | src/pygtk_chart/bar_chart.py:196-206 | the top lies between the padding and the bottom line; the tallest bar's top is the padding |
| BarCharts.MaxValue | src/pygtk_chart/bar_chart.py:194 | the maximum bounds every bar and is one of them |
| BarCharts.FirstHitIsUnique | src/pygtk_chart/bar_chart.py:202-211 | at most one answer is the first hit |
| BarCharts.PointInBarHitsThatBar | src/pygtk_chart/bar_chart.py:202-211 | a point in bar i's rectangle answers i |
| BarCharts.DrawnBarsSpec | src/pygtk_chart/bar_chart.py:222-259 | a successful drawing paints exactly the visible bars, in order, in the hit-test rectangles |
| BarCharts.BarInsideWidget | src/pygtk_chart/bar_chart.py:196-208 | with non-negative values every bar stays inside the widget, and the tallest reaches the top padding |
| BarCharts.TopPadding | src/pygtk_chart/bar_chart.py:197-206 | the padding above the tallest bar is at most a tenth of the height |
| BarCharts.TopPaddingIsTruncOfDouble | src/pygtk_chart/bar_chart.py:196-206 | the padding is `int()` of the height times the double `(1.0 - .8) / 2.0`, which is (1 - 2^-52) / 10, for every height below 2^52; a height that is a multiple of 10 gets one pixel less than a tenth |
| BarCharts.InvisibleBarIsHit | src/pygtk_chart/bar_chart.py:202-209 | the hit test does not skip an invisible bar (100-pixel widget: the bar's top is at 9) |
| BarCharts.BarChart.constructor | src/pygtk_chart/bar_chart.py:142-148 | no bars, mouseover on, labels and values shown, nothing highlighted |
| BarCharts.BarChart.AddBar | src/pygtk_chart/bar_chart.py:299-302 | appends the bar, coloured `COLORS[len % len(COLORS)]` when automatic |
| BarCharts.FindBar | src/pygtk_chart/bar_chart.py:305-318 | the first bar of that name, or None exactly when no bar has it |
| BarCharts.BarChart.GetBar | src/pygtk_chart/bar_chart.py:305-318 | the first bar of that name, or None when there is none |
| BarCharts.BarChart.BarAtPos | src/pygtk_chart/bar_chart.py:189-211 | None without bars; ZeroDivisionError exactly when the maximum is 0; otherwise the first bar holding the point |
| BarCharts.BarChart.MotionNotify | src/pygtk_chart/bar_chart.py:177-182 | with mouseover off nothing changes; else the hit bar is highlighted, with a redraw only when it changed |
| BarCharts.BarChart.ButtonPressed | src/pygtk_chart/bar_chart.py:184-187 | the clicked bar is the first hit, or None |
| BarCharts.BarChart.DrawBars | src/pygtk_chart/bar_chart.py:213-278 | nothing without bars, otherwise the specified drawing |
| BarCharts.BarChart.SetEnableMouseover | src/pygtk_chart/bar_chart.py:337-344 | only the mouseover switch changes |
| BarCharts.FailureStaysFailure | src/pygtk_chart/bar_chart.py:233-238 | once drawing raises, later bars keep the error |
| BarCharts.GroupValueIsMax | src/pygtk_chart/bar_chart.py:397 | a MultiBar's value is 0.0 when empty, else the largest of its bars |
| BarCharts.GroupsMaxIsMax | src/pygtk_chart/bar_chart.py:498 | the chart maximum bounds every group's value and is one of them |
| BarCharts.GroupsMaxBoundsEveryBar | src/pygtk_chart/bar_chart.py:498 | every bar of every group lies at or below the maximum |
| BarCharts.SubBarsTile | src/pygtk_chart/bar_chart.py:516-517 | each sub-bar starts where the previous one ends |
| BarCharts.PartsFit | src/pygtk_chart/bar_chart.py:516-517 | count parts of bar_width div count fit in bar_width |
| BarCharts.SubBarInsideGroup | src/pygtk_chart/bar_chart.py:513-517 | every sub-bar lies inside its group's column |
| BarCharts.DrawnSubBarsSpec | src/pygtk_chart/bar_chart.py:515-541 | a group's drawing paints each of its bars correctly, all of them |
| BarCharts.DrawnGroupsSpec | src/pygtk_chart/bar_chart.py:496-541 | every drawing paints a bar of a shown group, and every such bar is painted |
| BarCharts.SubFailureStaysFailure | src/pygtk_chart/bar_chart.py:515-520 | once a group's drawing raises, its later bars keep the error |
| BarCharts.GroupFailureStaysFailure | src/pygtk_chart/bar_chart.py:510-520 | once the drawing raises, later groups keep the error |
| BarCharts.GroupsOf | src/pygtk_chart/bar_chart.py:510-512 | one group per MultiBar with its bars and visibility |
| BarCharts.ScanGroup | src/pygtk_chart/bar_chart.py:597-605 | ZeroDivisionError exactly for a zero maximum and a group with bars; else the first bar of the group holding the point |
| BarCharts.SubBarAt | src/pygtk_chart/bar_chart.py:579-607 | None without groups; ZeroDivisionError exactly when the maximum is 0 and a shown group has a bar; else the first hit |
| BarCharts.DrawGroupBars | src/pygtk_chart/bar_chart.py:515-541 | the loop draws the specified bars of one group |
| BarCharts.DrawGroups | src/pygtk_chart/bar_chart.py:496-541 | nothing without groups, otherwise the specified drawing |
| BarCharts.MultiBar.constructor | src/pygtk_chart/bar_chart.py:383-387 | an empty, visible group with its name and label |
| BarCharts.MultiBar.AddBar | src/pygtk_chart/bar_chart.py:439-442 | appends the bar, coloured by index when automatic |
| BarCharts.MultiBar.GetBar | src/pygtk_chart/bar_chart.py:445-458 | the first bar of that name, or None |
| BarCharts.MultiBarChart.constructor | src/pygtk_chart/bar_chart.py:465-468 | no groups, mouseover on, nothing highlighted |
| BarCharts.MultiBarChart.AddBar | src/pygtk_chart/bar_chart.py:470-472 | appends the group uncoloured |
| BarCharts.MultiBarChart.MotionNotify | src/pygtk_chart/bar_chart.py:474-479 | with mouseover off nothing changes; without groups no error; with mouseover on and groups, ZeroDivisionError exactly when the largest value is 0 and some shown group has a bar; else the hit pair is highlighted, with a redraw only when it changed |
| BarCharts.MultiBarChart.ButtonPressed | src/pygtk_chart/bar_chart.py:481-485 | nothing without groups; ZeroDivisionError exactly when the largest value is 0 and some shown group has a bar; otherwise the group and bar under the mouse are the first hit, and None means no bar is hit |
| MultiBarCharts.ActiveKeys | src/pygtk_chart/multi_bar_chart.py:117 | exactly the keys of registered areas holding the point |
| MultiBarCharts.MaxOf | src/pygtk_chart/multi_bar_chart.py:92 | the largest value bounds all and is one of them |
| MultiBarCharts.GroupMaximum | src/pygtk_chart/multi_bar_chart.py:91-92 | ValueError exactly for an empty group; else the largest bar value |
| MultiBarCharts.MaxOverGroupsSpec | src/pygtk_chart/multi_bar_chart.py:170 | the chart maximum exists exactly when no group is empty, and is then the largest bar value |
| MultiBarCharts.NoBarsBefore | src/pygtk_chart/multi_bar_chart.py:171-172 | the bar count is 0 exactly when every group is empty |
| MultiBarCharts.ChartStep | src/pygtk_chart/multi_bar_chart.py:178-179 | drawing one more group extends the registry and chains group_end |
| MultiBarCharts.GroupAreasIndexing | src/pygtk_chart/multi_bar_chart.py:69-73 | a group registers one area per bar, bar j at position j |
| MultiBarCharts.ChartAreasLength | src/pygtk_chart/multi_bar_chart.py:168-179 | the registry holds one area per bar |
| MultiBarCharts.ChartAreaAt | src/pygtk_chart/multi_bar_chart.py:38-46 | bar j of group i is registered at BarsBefore(i) + j, keyed (i, j), at group_end + j * (width + padding) |
| MultiBarCharts.BarsBeforeGrows | src/pygtk_chart/multi_bar_chart.py:171-172 | counting more groups never counts fewer bars |
| MultiBarCharts.AreasShareWidthAndBottom | src/pygtk_chart/multi_bar_chart.py:38-41 | every area has the common width and stands on the bottom edge |
| MultiBarCharts.GroupOfPosition | src/pygtk_chart/multi_bar_chart.py:168-179 | every registry position belongs to one bar of one group |
| MultiBarCharts.TallestBarSpansHeight | src/pygtk_chart/multi_bar_chart.py:39-41 | the maximum bar spans the full height from rect.y |
| MultiBarCharts.GroupStartsIncrease | src/pygtk_chart/multi_bar_chart.py:69-73 | with a positive group padding each group starts right of the previous one |
| MultiBarCharts.GroupStartClosedForm | src/pygtk_chart/multi_bar_chart.py:69-73 | group i starts after all earlier bars, bar paddings and group paddings |
| MultiBarCharts.LastBarInsidePlot | src/pygtk_chart/multi_bar_chart.py:38 | with no empty group the last bar ends inside the plot area |
| MultiBarCharts.ClickedBarIsActive | src/pygtk_chart/multi_bar_chart.py:46 | a point inside a drawn bar reports that bar's key |
| MultiBarCharts.MaximumMeansBars | src/pygtk_chart/multi_bar_chart.py:170-172 | with a maximum there are groups, none empty, and bars to count |
| MultiBarCharts.ChartDrawFailures | src/pygtk_chart/multi_bar_chart.py:168-179 | ValueError exactly for no groups or an empty group, ZeroDivisionError exactly for a zero maximum, no other error |
| MultiBarCharts.ChartDrawRegistersEveryBar | src/pygtk_chart/multi_bar_chart.py:38-46 | a successful drawing registers every bar once, keyed (i, j), with the shared width |
| MultiBarCharts.ValuesOf | src/pygtk_chart/multi_bar_chart.py:92 | the values of the bars, in order |
| MultiBarCharts.BarGroup.constructor | src/pygtk_chart/multi_bar_chart.py:59-66 | an empty group with its name and title |
| MultiBarCharts.BarGroup.AddBar | src/pygtk_chart/multi_bar_chart.py:76-86 | appends the bar, coloured by index when automatic |
| MultiBarCharts.BarGroup.Draw | src/pygtk_chart/multi_bar_chart.py:37-73 | ZeroDivisionError exactly when a bar meets a zero count or maximum; else the group's areas and group_end of the last bar plus the padding |
| MultiBarCharts.GroupValues | src/pygtk_chart/multi_bar_chart.py:170-179 | the bar values of each group, in order |
| MultiBarCharts.MultiBarChart.constructor | src/pygtk_chart/multi_bar_chart.py:107-112 | no groups, group padding 16, mouseover on (assumed: no shown file sets `_mouseover`), nothing highlighted, an empty registry |
| MultiBarCharts.MultiBarChart.AddGroup | src/pygtk_chart/multi_bar_chart.py:184-191 | appends the group and requests a redraw |
| MultiBarCharts.MultiBarChart.DrawGroups | src/pygtk_chart/multi_bar_chart.py:174-179 | ZeroDivisionError exactly for a zero maximum, else the registry of the specification |
| MultiBarCharts.MultiBarChart.PlanDraw | src/pygtk_chart/multi_bar_chart.py:168-179 | computes the drawing of the specification |
| MultiBarCharts.MultiBarChart.Draw | src/pygtk_chart/multi_bar_chart.py:129-182 | the registry is cleared, then holds the specified areas; on an error it stays empty |
| MultiBarCharts.MultiBarChart.MotionNotify | src/pygtk_chart/multi_bar_chart.py:115-121 | with mouseover on, a bar is highlighted exactly when its key is active, and a redraw is requested |
| MultiBarCharts.MultiBarChart.ButtonPressed | src/pygtk_chart/multi_bar_chart.py:123-126 | one "group-clicked" per active key, in registry order |
| PieCharts.NewPieArea | src/pygtk_chart/pie_chart.py:58-63 | the given name, value and label; automatic colour; shown |
| PieCharts.HiddenValueDoesNotCount | src/pygtk_chart/pie_chart.py:270-273 | a hidden area's value does not change the total |
| PieCharts.AllShownTotal | src/pygtk_chart/pie_chart.py:270-273 | with every area shown the total is the sum of all values |
| PieCharts.SumVisible | src/pygtk_chart/pie_chart.py:321-325 | the loop sums the values of the visible areas |
| PieCharts.SpanAdds | src/pygtk_chart/pie_chart.py:277 | spans add like values |
| PieCharts.HitStartIsShare | src/pygtk_chart/pie_chart.py:275-282 | the hit test's interval for area k starts at the share of the values of all earlier areas, shown or not, in the visible total |
| PieCharts.SweepIsCovered | src/pygtk_chart/pie_chart.py:275-282 | an angle within the sweep falls into one of the intervals |
| PieCharts.EveryAngleHitsWhenAllShown | src/pygtk_chart/pie_chart.py:275-282 | with every area shown, every angle in [0, 2 pi] finds an area |
| PieCharts.HiddenAreaIsHit | src/pygtk_chart/pie_chart.py:276-280 | a hidden area still answers the hit test |
| PieCharts.Normalised | src/pygtk_chart/pie_chart.py:261-262 | the result is not negative, below 2 pi for a negative angle, and unchanged for a non-negative one |
| PieCharts.NormalisedByWholeTurns | src/pygtk_chart/pie_chart.py:261-262 | the result differs from the angle by whole turns |
| PieCharts.HitAngleInTurn | src/pygtk_chart/pie_chart.py:258-262 | for atan2's range and rotate in [0, 360] the angle looked up is in [0, 2 pi) |
| PieCharts.PieRadius | src/pygtk_chart/pie_chart.py:265 | int(0.4 * min(w, h)): within one unit of 0.4 times the shorter side |
| PieCharts.Offset | src/pygtk_chart/pie_chart.py:253-255 | the mouse relative to the centre |
| PieCharts.ScrollDelta | src/pygtk_chart/pie_chart.py:287-292 | +360/32 exactly for up and right, -360/32 exactly for down and left, 0 otherwise |
| PieCharts.Scrolled | src/pygtk_chart/pie_chart.py:293-296 | the new rotation lies in [0, 360) |
| PieCharts.ModThreeSixty | src/pygtk_chart/pie_chart.py:294 | Python's `% 360.0` adds or removes at most one turn over one step's reach |
| PieCharts.ScrollStepsInWholeDegrees | src/pygtk_chart/pie_chart.py:285-296 | the integer property makes a step up +11 and a step down -12, modulo 360 |
| PieCharts.ScrollUpThenDownDrifts | src/pygtk_chart/pie_chart.py:285-296 | up then down from 0 ends at 359 |
| PieCharts.Round2 | src/pygtk_chart/pie_chart.py:358 | a whole number of hundredths within half a hundredth of x, a tie going away from zero; not negative for x >= 0 |
| PieCharts.Round2IsTheRounding | src/pygtk_chart/pie_chart.py:358 | any whole number of hundredths within half a hundredth of x, with ties away from zero, is `Round2(x)`: the rounding is unique |
| PieCharts.RoundedIsClose | src/pygtk_chart/pie_chart.py:358 | rounding to the nearest hundredth stays within half a hundredth, and for a value at least 0 a tie rounds up |
| PieCharts.Extra | src/pygtk_chart/pie_chart.py:355-363 | no suffix exactly when neither flag is set; the value exactly when values are shown; the percentage rounded to hundredths (`IsRound2`) exactly when percentages are |
| PieCharts.LabelAnchor | src/pygtk_chart/pie_chart.py:369-375 | for [0, 2 pi): a top reference exactly up to pi, a left one exactly up to pi/2 or beyond 3 pi/2 |
| PieCharts.VisibleSweepIsShare | src/pygtk_chart/pie_chart.py:327-334 | the drawing sweeps the visible areas' share of the turn |
| PieCharts.SweepIsFullTurn | src/pygtk_chart/pie_chart.py:321-334 | with the visible total as divisor the shown areas fill one full turn |
| PieCharts.DrawFailureStays | src/pygtk_chart/pie_chart.py:328-380 | once drawing fails, later areas keep the failure |
| PieCharts.DrawnSlicesFailures | src/pygtk_chart/pie_chart.py:331-335 | ZeroDivisionError exactly when an area is shown and the total is 0; TypeError exactly when a shown area has no colour first; no other error |
| PieCharts.DrawnSlicesChain | src/pygtk_chart/pie_chart.py:327-380 | the sectors are consecutive in list order, from the start to the start plus the visible sweep, one per shown area |
| PieCharts.SlicesCloseTheCircle | src/pygtk_chart/pie_chart.py:327-380 | the sectors start at the rotation and end one full turn later |
| PieCharts.PieChart.constructor | src/pygtk_chart/pie_chart.py:182-193 | no areas, rotation 0, shadow, labels and values on, percentages off, scrolling and mouseover on |
| PieCharts.PieChart.AddArea | src/pygtk_chart/pie_chart.py:395-398 | appends the area, coloured by index when automatic |
| PieCharts.PieChart.GetPieArea | src/pygtk_chart/pie_chart.py:401-414 | the first area of that name, or None |
| PieCharts.PieChart.AreaAtPos | src/pygtk_chart/pie_chart.py:251-283 | None outside the pie or without areas; ZeroDivisionError exactly for a zero total; else the first area whose closed interval holds the angle |
| PieCharts.NormaliseAngle | src/pygtk_chart/pie_chart.py:261-262 | the loop ends with the angle moved by whole turns into [0, 2 pi) when it was negative, and unchanged otherwise |
| PieCharts.ScanAreas | src/pygtk_chart/pie_chart.py:270-282 | ZeroDivisionError exactly for a zero total with areas present; otherwise the first area whose closed interval of the visible total holds the angle, or None |
| PieCharts.PieChart.MotionNotify | src/pygtk_chart/pie_chart.py:239-244 | with mouseover off nothing changes; else the hit area is highlighted, with a redraw only when it changed |
| PieCharts.PieChart.ButtonPressed | src/pygtk_chart/pie_chart.py:246-249 | nothing outside the pie or without areas; inside, ZeroDivisionError exactly when the total is 0; the clicked area is the first hit, and None inside the pie means no area is hit |
| PieCharts.PieChart.ScrollEvent | src/pygtk_chart/pie_chart.py:285-296 | with scrolling off nothing changes; else the rotation becomes the scrolled one and a redraw is requested; a rotation in [0, 360) stays there |
| PieCharts.PieChart.DrawAreas | src/pygtk_chart/pie_chart.py:318-380 | the method computes the sectors of the specification from 2 pi rotate / 360 |
| PieCharts.DrawSectors | src/pygtk_chart/pie_chart.py:322-380 | the loop yields exactly the sectors of the specification: ZeroDivisionError or TypeError at the first visible area that raises, otherwise one sector per visible area, each starting where the previous one ended |
| PieCharts.DrawStep | src/pygtk_chart/pie_chart.py:323-380 | one visible area adds exactly one sector at the current position, with its span, colour, highlight and label, and moves the position on by the span |

## Left out

- Cairo and pango calls are not modelled; only the numbers passed to them are. Text extents, `atan2`, `sin`, `cos` and `log10` are parameters. Floats are exact reals, so float rounding is not modelled.
- `color_list_from_file` reads a file. The palette (`COLORS`) is therefore a constructor parameter with at least one entry.
- `Background.set_image` loads a png. Whether loading succeeds is a parameter.
- `graph_new_from_file` opens and reads a file. The model starts from the file's text, and the float conversion is a parameter.
- `Chart.expose`, `export_svg`, `export_png` and `draw_basics` are cairo and GTK plumbing.
- `graph_new_from_function` and `optimize_sampling` call an arbitrary user function and recurse without a bound.
- `LineChart.remove_graph`, `Graph.add_data`, the `Grid` object and `_do_draw_title` are not modelled. The polyline's title position is the `last` point, which `LineGraphs.LastIsLastSampleInside` describes.
- The gobject getters, `do_get_property`/`do_set_property` dispatch and signal connection are not modelled. The setters are modelled as field updates plus a redraw flag. GObject also checks the range declared for each numeric property and refuses to store a value outside it. Only the axis position is held to its range in the model, by the `requires` of `LineCharts.PlotAxis.SetPosition`; the other setters store any value. The ranges are: label anchor 0 to 9, max-width 1 to 99999, rotation 0 to 360 and size 0 to 1000 (label.py:82-98); axis position 5 to 7 (line_chart.py:317-319); graph type 1 to 3, point size 1 to 100 and fill opacity 0 to 1 (line_chart.py:822-836); bar and pie values 0 to 9999999999 (bar_chart.py:25-28, pie_chart.py:47-50); pie rotation 0 to 360 (pie_chart.py:151-154).
- Emitting signals is not modelled. The clicked object is the method's result.
- chart.py's `ChartObject` is not part of this model. Objects are visible unless the model says otherwise. A graph's `draw` is taken to call `_do_draw` only when the graph is shown, as the axes' `draw` does at line_chart.py:503 and 597, so `LineCharts.LineChart.DrawGraphs` leaves hidden graphs out.
- The pie's `_do_draw_shadow` is not modelled. Nor are the label position (`cos`/`sin` at radius + 10), the label font size and the `%s` text of the suffix. The suffix is a datatype holding its value and percentage.
- PieCharts.PieChart.ScrollEvent: the gobject "rotate" property is an integer, so storing the new angle truncates it. The model writes this out (`Scrolled`), and `ScrollStepsInWholeDegrees` states its effect.
- The deprecated `MultiBarChart.add_bar` alias of multi_bar_chart.py prints a warning and calls `add_group`; it is not modelled separately.
- Horizontal mode of multi_bar_chart.py is not modelled: `_do_draw` returns nothing for it.
- multi_bar_chart.py calls helpers no shown file defines: the sensitive-area registry, `draw_rounded_rectangle`, `begin_drawing`, `color_gdk_to_cairo` and `gdk_color_list_from_file`; label.py and multi_bar_chart.py import `chart_object`, which is not part of this model either. `color_gdk_to_cairo` only converts a colour for cairo, and the colour list read from a file is a constructor parameter. The registry is a list of (rectangle, key) pairs, queried by point containment. The mouseover switch `_mouseover` is a field; no shown file sets it, so its initial value (on) is an assumption of the model, matching `_enable_mouseover` of bar_chart.py:145. The plot rectangle `draw_basics` would return is the `rect` parameter.
- The labels drawn by `BarChart._do_draw_bars` and `MultiBarChart._do_draw_bars` of bar_chart.py are not modelled: their text extents and rotation are pango and trigonometry.
- BarCharts: `bar_vertical_padding` is `(1.0 - 0.8) / 2.0`. The bottom line uses `1.0 - bar_vertical_padding`, which is the double 0.9; the model takes the exact real product of the height and 0.9, and does not round that product to a double.
- Highlighting compares positions, not objects: `BarChart`, `MultiBarChart` and `PieChart` of bar_chart.py and pie_chart.py compare the hit bar or area with `_highlighted` by object (bar_chart.py:180, 251, 477, 533; pie_chart.py:242, 341, 351), and the model compares its index or (group, bar) pair. When the same object is added twice, the source highlights it at both positions and requests no redraw when the pointer moves from one to the other; the model highlights only the position hit and requests a redraw.
- LineMapping.TicLayoutOf: `first` and `last` are computed as `int(bound / 10 ** exp)` of a real bound (line_chart.py:142-143 and 167-168). When a range bound is a Python int and `exp >= 0`, Python 2 floor-divides instead. For a negative bound that is not a multiple of `10 ** exp`, the tick index is then one lower than the model's, and `divide_by` can change with it. Example: int x data from -155 to 50 on a 525-pixel-wide widget gives first_n = -16 and divide_by = 2, where the model gives -15 and 1. The model keeps every sample and bound as a real, so it does not record which bounds are ints.
- LineCharts.DrawAxis: the tick label's pixel position depends on text extents and is not stated; the offset, the tick positions, the label texts and the IndexError of an empty label are. The ticks and labels drawn before that error are not recorded.
- Labels.Label.DrawLabel: the layout's pixel sizes before and after wrapping are parameters, since pango computes them.

=== FILE: bar_charts.dfy ===
/** The BarChart widget of bar_chart.py and its MultiBarChart variant: the
    widget is cut into one column per bar, each bar is drawn in its column
    with 8 pixels of padding on either side, and the hit test that maps a
    mouse position back to a bar uses the very same geometry. */
module BarCharts {
  import opened Wrappers
  import opened Basics

  /** Pixels of padding around each bar, half on either side. */
  const BAR_PADDING: int := 16
  /** The part of the height the tallest bar uses. */
  const BAR_HEIGHT_FACTOR: real := 0.8
  /** The space above and below the bars, (1 - 0.8) / 2. The bottom line
      `1.0 - bar_vertical_padding` is the double 0.9 in the source too; the
      top padding is rounded below a tenth (`TopPadding`). */
  const BAR_VERTICAL_PADDING: real := 0.1

  // ------------------------------------------------------------ geometry

  /** A bar's rectangle: its left edge and width in whole pixels, its top in
      whole pixels and its bottom at 0.9 of the height. */
  datatype Box = Box(left: int, top: int, width: int, bottom: real)

  /** The closed rectangle contains the point, as the hit test checks it. */
  predicate InBox(b: Box, px: real, py: real) {
    b.left as real <= px <= (b.left + b.width) as real && b.top as real <= py <= b.bottom
  }

  /** `bar_width`: the width of a column less the padding, in integer
      division. */
  function BarWidth(rect: Rect, n: int): int
    requires n > 0
  {
    (rect.width - BAR_PADDING * n) / n
  }

  /** The left edge of bar i: int(width / float(n) * i) + rect.x + 8. */
  function BarLeft(rect: Rect, n: int, i: int): int
    requires n > 0
  {
    Trunc(rect.width as real / n as real * i as real) + rect.x + BAR_PADDING / 2
  }

  /** `total_height`: the height of the tallest bar. */
  function TotalHeight(rect: Rect): (th: int)
    ensures 0 <= th
  {
    Trunc(rect.height as real * BAR_HEIGHT_FACTOR)
  }

  /** `bar_bottom`: every bar stands on the line at 0.9 of the height. */
  function BarBottom(rect: Rect): real {
    rect.height as real * (1.0 - BAR_VERTICAL_PADDING)
  }

  /** The space above the tallest bar, `int(rect.height * bar_vertical_padding)`.
      As a double, `(1.0 - .8) / 2.0` is (1 - 2^-52) / 10, a little below
      0.1, so a height that is a multiple of 10 gets one pixel less than a
      tenth of it: the padding is (height - 1) / 10 (see
      `TopPaddingIsTruncOfDouble`). */
  function TopPadding(rect: Rect): (p: int)
    ensures 0 <= p && 10 * p <= rect.height
  {
    if rect.height == 0 then 0 else (rect.height - 1) / 10
  }

  /** `bar_vertical_padding` exactly as the double `(1.0 - .8) / 2.0`:
      1 - .8 is the double 0.2 - 2^-54, and halving it is exact. */
  const VERTICAL_PADDING_DOUBLE: real := (1.0 - 1.0 / 4503599627370496.0) / 10.0

  /** The padding is the truncated product of the height and the double
      padding factor, for every height below 2^52. */
  lemma TopPaddingIsTruncOfDouble(rect: Rect)
    requires rect.height < 4503599627370496
    ensures TopPadding(rect) == Trunc(rect.height as real * VERTICAL_PADDING_DOUBLE)
    ensures rect.height % 10 == 0 && rect.height > 0 ==> TopPadding(rect) == rect.height / 10 - 1
  {
    var h := rect.height as real;
    var e := 1.0 / 4503599627370496.0;
    var t := TopPadding(rect);
    var n := Trunc(h * VERTICAL_PADDING_DOUBLE);
    assert h * VERTICAL_PADDING_DOUBLE == (h - h * e) / 10.0;
    assert 0.0 <= h * e < 1.0;
    if rect.height == 0 {
      assert n == 0;
    } else {
      assert 10 * t <= rect.height - 1 < 10 * t + 10;
      assert 0.0 < h * e;
      assert t as real <= h * VERTICAL_PADDING_DOUBLE < t as real + 1.0;
    }
  }

  /** `bar_height` of a bar of value v when the largest value is maxValue:
      its `percent` is v / maxValue. */
  function BarHeight(rect: Rect, v: real, maxValue: real): int
    requires maxValue != 0.0
  {
    HeightOfPercent(rect, v / maxValue)
  }

  /** int(total_height * percent): the part `percent` of the tallest bar,
      truncated. */
  function HeightOfPercent(rect: Rect, percent: real): int {
    Trunc(TotalHeight(rect) as real * percent)
  }

  /** `bar_top`: the bar hangs down from the top padding by the height it
      does not use. */
  function BarTop(rect: Rect, v: real, maxValue: real): int
    requires maxValue != 0.0
  {
    TopPadding(rect) + TotalHeight(rect) - BarHeight(rect, v, maxValue)
  }

  /** The rectangle of bar i of n with value v. */
  function BarBox(rect: Rect, n: int, maxValue: real, i: int, v: real): Box
    requires n > 0 && maxValue != 0.0
  {
    Box(BarLeft(rect, n, i), BarTop(rect, v, maxValue), BarWidth(rect, n), BarBottom(rect))
  }

  /** Euclidean division is determined by any quotient and remainder pair. */
  lemma DivUnique(x: int, n: int, q: int, r: int)
    requires n > 0 && x == n * q + r && 0 <= r < n
    ensures x / n == q
  {
    var d := q - x / n;
    assert n * d == x % n - r;
    assert d >= 1 ==> n * d >= n;
    assert d <= -1 ==> n * d <= -n;
  }

  lemma MulAtLeastSelf(w: int, k: int)
    requires w >= 0 && k >= 1
    ensures w <= w * k
  {
    assert w * k == w + w * (k - 1);
    assert w * (k - 1) >= 0;
  }

  /** Floor division never loses more than one unit on a sum. */
  lemma DivAdd(a: int, b: int, n: int)
    requires n > 0
    ensures a / n + b / n <= (a + b) / n
  {
    var ra, rb := a % n, b % n;
    if ra + rb < n {
      DivUnique(a + b, n, a / n + b / n, ra + rb);
    } else {
      DivUnique(a + b, n, a / n + b / n + 1, ra + rb - n);
    }
  }

  lemma DivMonotone(a: int, b: int, n: int)
    requires n > 0 && a <= b
    ensures a / n <= b / n
  {
    DivAdd(a, b - a, n);
    assert (b - a) / n >= 0;
  }

  /** The left edge of bar i is floor(width * i / n) + rect.x + 8. */
  lemma {:induction false} BarLeftIsFloor(rect: Rect, n: int, i: int)
    requires n > 0 && i >= 0
    ensures BarLeft(rect, n, i) == rect.width * i / n + rect.x + BAR_PADDING / 2
  {
    var w := rect.width;
    ColumnFraction(w, i, n);
    QuotientFloor(w * i, n);
  }

  /** width / float(n) * i is the real quotient of w * i by n. */
  lemma ColumnFraction(w: int, i: int, n: int)
    requires n > 0
    ensures w as real / n as real * i as real == (w * i) as real / n as real
  {
    assert (w * i) as real == w as real * i as real;
  }

  /** int() of a real quotient of whole numbers is their floor division. */
  lemma QuotientFloor(p: nat, n: int)
    requires n > 0
    ensures Trunc(p as real / n as real) == p / n
  {
    var q, r := p / n, p % n;
    assert p == n * q + r;
    QuotientSplit(q, r, n);
    assert p as real / n as real == q as real + r as real / n as real;
    TruncOfFraction(q, r as real / n as real);
  }

  /** (n * q + r) / n splits into q and the fraction r / n. */
  lemma QuotientSplit(q: int, r: int, n: int)
    requires n > 0 && 0 <= r < n
    ensures (n * q + r) as real / n as real == q as real + r as real / n as real
    ensures 0.0 <= r as real / n as real < 1.0
  {
    assert (n * q + r) as real == n as real * q as real + r as real;
  }

  /** `bar_width` is the column width w div n less the padding. */
  lemma BarWidthIsColumnLessPadding(rect: Rect, n: int)
    requires n > 0
    ensures BarWidth(rect, n) == rect.width / n - BAR_PADDING
  {
    DivUnique(rect.width - BAR_PADDING * n, n, rect.width / n - BAR_PADDING, rect.width % n);
  }

  /** Bars never overlap: every later bar starts at least 16 pixels to the
      right of the end of an earlier one, so a point in the gutter between
      two bars belongs to neither. */
  lemma {:induction false} BarsDoNotOverlap(rect: Rect, n: int, j: int, i: int)
    requires n > 0 && 0 <= j < i
    ensures BarLeft(rect, n, j) + BarWidth(rect, n) + BAR_PADDING <= BarLeft(rect, n, i)
  {
    var w := rect.width;
    BarLeftIsFloor(rect, n, i);
    BarLeftIsFloor(rect, n, j);
    BarWidthIsColumnLessPadding(rect, n);
    assert w * i == w * j + w * (i - j);
    DivAdd(w * j, w * (i - j), n);
    MulAtLeastSelf(w, i - j);
    DivMonotone(w, w * (i - j), n);
  }

  /** All n bars lie inside the widget, 8 pixels in from either side. */
  lemma {:induction false} BarsInsideWidget(rect: Rect, n: int, i: int)
    requires 0 <= i < n
    ensures rect.x + BAR_PADDING / 2 <= BarLeft(rect, n, i)
    ensures BarLeft(rect, n, i) + BarWidth(rect, n) <= rect.x + rect.width - BAR_PADDING / 2
  {
    BarLeftIsFloor(rect, n, i);
    BarWidthIsColumnLessPadding(rect, n);
    ColumnFits(rect.width, n, i);
  }

  /** Column i of n equal columns of a width w, measured in whole pixels,
      starts at or after 0 and leaves room for a full column before w. */
  lemma ColumnFits(w: nat, n: int, i: int)
    requires 0 <= i < n
    ensures 0 <= w * i / n
    ensures w * i / n + w / n <= w
  {
    MulMonotone(w, 0, i);
    DivMonotone(0, w * i, n);
    DivAdd(w * i, w, n);
    assert w * i + w == w * (i + 1);
    MulMonotone(w, i + 1, n);
    DivMonotone(w * (i + 1), w * n, n);
    DivUnique(w * n, n, w, 0);
  }

  /** The padding above and the tallest bar fit above the bottom line. */
  lemma PaddingAndBarFit(rect: Rect)
    ensures (TopPadding(rect) + TotalHeight(rect)) as real <= BarBottom(rect)
    ensures TotalHeight(rect) >= 0
  {
  }

  lemma MulBetween(t: real, a: real, b: real)
    requires t >= 0.0 && 0.0 <= a <= b <= 1.0
    ensures 0.0 <= t * a <= t * b <= t
  {
    assert t * b - t * a == t * (b - a);
    assert t - t * b == t * (1.0 - b);
  }

  lemma QuotientBetween(v: real, w: real, m: real)
    requires 0.0 <= v <= w <= m && m > 0.0
    ensures 0.0 <= v / m <= w / m <= 1.0 && m / m == 1.0
  {
  }

  lemma TruncChain(x: real, y: real, z: real)
    requires 0.0 <= x <= y <= z
    ensures 0 <= Trunc(x) <= Trunc(y) <= Trunc(z)
  {
    TruncMonotone(0.0, x);
    TruncMonotone(x, y);
    TruncMonotone(y, z);
  }

  lemma MulTruncBetween(t: real, a: real, b: real)
    requires t >= 0.0 && 0.0 <= a <= b <= 1.0
    ensures 0 <= Trunc(t * a) <= Trunc(t * b) <= Trunc(t)
  {
    MulBetween(t, a, b);
    TruncChain(t * a, t * b, t);
  }

  lemma ScaledByOne(th: int)
    ensures Trunc(th as real * 1.0) == th
  {
    assert th as real * 1.0 == th as real;
  }

  /** int(th * percent) grows with the percent and, for a percent between
      0 and 1, stays between 0 and th. */
  lemma {:induction false} ScaledTrunc(th: int, a: real, b: real)
    requires th >= 0 && 0.0 <= a <= b <= 1.0
    ensures 0 <= Trunc(th as real * a) <= Trunc(th as real * b) <= th
  {
    MulTruncBetween(th as real, a, b);
    assert Trunc(th as real) == th;
  }

  /** Proof steps: each unfolds one definition on its own, so that the
      bounds below do not reason about it together with the arithmetic. */
  lemma BarHeightIsPercent(rect: Rect, v: real, maxValue: real)
    requires maxValue != 0.0
    ensures BarHeight(rect, v, maxValue) == HeightOfPercent(rect, v / maxValue)
  {
  }

  lemma HeightOfPercentIs(rect: Rect, percent: real)
    ensures HeightOfPercent(rect, percent) == Trunc(TotalHeight(rect) as real * percent)
  {
  }

  /** The height of a percent grows with the percent and, for a percent
      between 0 and 1, stays between 0 and total_height. */
  lemma {:induction false} PercentHeightBounds(rect: Rect, a: real, b: real)
    requires 0.0 <= a <= b <= 1.0
    ensures 0 <= HeightOfPercent(rect, a) <= HeightOfPercent(rect, b) <= TotalHeight(rect)
  {
    HeightOfPercentIs(rect, a);
    HeightOfPercentIs(rect, b);
    ScaledTrunc(TotalHeight(rect), a, b);
  }

  /** The height of a bar grows with its value and stays between 0 and
      total_height. */
  lemma {:induction false} BarHeightBounds(rect: Rect, v: real, w: real, maxValue: real)
    requires 0.0 <= v <= w <= maxValue && maxValue > 0.0
    ensures 0 <= BarHeight(rect, v, maxValue) <= BarHeight(rect, w, maxValue) <= TotalHeight(rect)
  {
    BarHeightIsPercent(rect, v, maxValue);
    BarHeightIsPercent(rect, w, maxValue);
    QuotientBetween(v, w, maxValue);
    PercentHeightBounds(rect, v / maxValue, w / maxValue);
  }

  /** The bar of the largest value is total_height tall. */
  lemma {:induction false} TallestBarHeight(rect: Rect, maxValue: real)
    requires maxValue > 0.0
    ensures BarHeight(rect, maxValue, maxValue) == TotalHeight(rect)
  {
    BarHeightIsPercent(rect, maxValue, maxValue);
    QuotientBetween(maxValue, maxValue, maxValue);
    HeightOfPercentIs(rect, 1.0);
    ScaledByOne(TotalHeight(rect));
  }

  /** For values between 0 and the maximum, the top of a bar lies between
      the top padding and the bottom line; the tallest bar reaches exactly
      the top padding, and a larger value never gives a lower top. */
  lemma {:induction false} BarTopBounds(rect: Rect, v: real, w: real, maxValue: real)
    requires 0.0 <= v <= w <= maxValue && maxValue > 0.0
    ensures TopPadding(rect) <= BarTop(rect, v, maxValue)
    ensures BarTop(rect, v, maxValue) as real <= BarBottom(rect)
    ensures BarTop(rect, w, maxValue) <= BarTop(rect, v, maxValue)
    ensures BarTop(rect, maxValue, maxValue) == TopPadding(rect)
  {
    PaddingAndBarFit(rect);
    BarHeightBounds(rect, v, w, maxValue);
    TallestBarHeight(rect, maxValue);
  }

  // ---------------------------------------------------------------- bars

  /** A bar: its unique name, value, label, colour (COLOR_AUTO until the
      chart picks one) and visibility. */
  datatype Bar = Bar(name: string, value: real, caption: string, color: ColorSetting, visible: bool)

  /** `Bar.__init__`: automatic colour, visible. */
  function NewBar(name: string, value: real, caption: string := ""): Bar {
    Bar(name, value, caption, ColorAuto, true)
  }

  /** `max(x.get_value() for x in bars)`. */
  function MaxValue(bars: seq<Bar>): (m: real)
    requires bars != []
    ensures forall i :: 0 <= i < |bars| ==> bars[i].value <= m
    ensures exists i :: 0 <= i < |bars| && bars[i].value == m
  {
    if |bars| == 1 then bars[0].value
    else
      var m := MaxValue(bars[..|bars| - 1]);
      assert forall i :: 0 <= i < |bars| - 1 ==> bars[..|bars| - 1][i] == bars[i];
      if bars[|bars| - 1].value > m then bars[|bars| - 1].value else m
  }

  /** The values can be divided by their maximum. */
  predicate Layable(bars: seq<Bar>) {
    bars != [] && MaxValue(bars) != 0.0
  }

  /** The rectangle of bar i among all the bars, drawn or not. */
  function BoxOf(bars: seq<Bar>, rect: Rect, i: int): Box
    requires Layable(bars) && 0 <= i < |bars|
  {
    BarBox(rect, |bars|, MaxValue(bars), i, bars[i].value)
  }

  /** The point lies in the rectangle of bar i. */
  predicate Hits(bars: seq<Bar>, rect: Rect, i: int, px: real, py: real)
    requires Layable(bars) && 0 <= i < |bars|
  {
    InBox(BoxOf(bars, rect, i), px, py)
  }

  /** hit is the first bar, in list order, whose rectangle holds the point,
      or None when no rectangle does. */
  predicate FirstHit(bars: seq<Bar>, rect: Rect, px: real, py: real, hit: Option<nat>)
    requires Layable(bars)
  {
    (hit.Some? ==>
       hit.value < |bars| && Hits(bars, rect, hit.value, px, py) &&
       forall j :: 0 <= j < hit.value ==> !Hits(bars, rect, j, px, py)) &&
    (hit.None? ==> forall j :: 0 <= j < |bars| ==> !Hits(bars, rect, j, px, py))
  }

  /** At most one answer is the first hit. */
  lemma FirstHitIsUnique(bars: seq<Bar>, rect: Rect, px: real, py: real, a: Option<nat>, b: Option<nat>)
    requires Layable(bars) && FirstHit(bars, rect, px, py, a) && FirstHit(bars, rect, px, py, b)
    ensures a == b
  {
    if a.Some? {
      assert Hits(bars, rect, a.value, px, py);
    }
    if b.Some? {
      assert Hits(bars, rect, b.value, px, py);
    }
  }

  /** A point inside the rectangle of bar i is inside no earlier bar, so
      the hit test answers i: what is drawn and what is hit agree. */
  lemma {:induction false} PointInBarHitsThatBar(bars: seq<Bar>, rect: Rect, i: nat, px: real, py: real)
    requires Layable(bars) && i < |bars| && Hits(bars, rect, i, px, py)
    ensures FirstHit(bars, rect, px, py, Some(i))
  {
    forall j | 0 <= j < i
      ensures !Hits(bars, rect, j, px, py)
    {
      BarsDoNotOverlap(rect, |bars|, j, i);
    }
  }

  /** One bar as `_do_draw_bars` paints it: the rectangle, the colour, and
      whether the white mouseover veil is laid over it. */
  datatype BarDrawing = BarDrawing(index: nat, box: Box, color: Rgb, highlighted: bool)

  /** The drawings of the first k bars: invisible bars are skipped; a
      visible bar raises ZeroDivisionError when the maximum is 0, and
      TypeError when it still has no colour. */
  function DrawnBars(bars: seq<Bar>, rect: Rect, highlighted: Option<nat>, k: nat): (r: Result<seq<BarDrawing>>)
    requires bars != [] && k <= |bars|
  {
    if k == 0 then Success([])
    else
      var before := DrawnBars(bars, rect, highlighted, k - 1);
      var b := bars[k - 1];
      if before.Failure? || !b.visible then before
      else if MaxValue(bars) == 0.0 then Failure(ZeroDivisionError)
      else if b.color.ColorAuto? then Failure(TypeError)
      else Success(before.value + [BarDrawing(k - 1, BoxOf(bars, rect, k - 1), b.color.rgb,
                                              highlighted == Some(k - 1))])
  }

  /** x paints a visible bar in its own rectangle and colour, veiled
      exactly when that bar is the highlighted one. */
  predicate PaintsBar(bars: seq<Bar>, rect: Rect, highlighted: Option<nat>, x: BarDrawing)
    requires Layable(bars)
  {
    x.index < |bars| && bars[x.index].visible && bars[x.index].color == Color(x.color) &&
    x.box == BoxOf(bars, rect, x.index) && (x.highlighted <==> highlighted == Some(x.index))
  }

  /** Bar i has a drawing in d. */
  predicate Painted(d: seq<BarDrawing>, i: nat) {
    exists j :: 0 <= j < |d| && d[j].index == i
  }

  /** d draws exactly the visible bars among the first k, in list order,
      each in its rectangle, with the veil on the highlighted one only. */
  predicate DrawsVisibleBars(bars: seq<Bar>, rect: Rect, highlighted: Option<nat>, k: nat, d: seq<BarDrawing>)
    requires Layable(bars) && k <= |bars|
  {
    (forall j :: 0 <= j < |d| ==> d[j].index < k && PaintsBar(bars, rect, highlighted, d[j])) &&
    (forall j, l :: 0 <= j < l < |d| ==> d[j].index < d[l].index) &&
    (forall i: nat :: i < k && bars[i].visible ==> Painted(d, i))
  }

  /** What the drawing promises: when it succeeds, the maximum could be
      divided by (or nothing was visible), and exactly the visible bars are
      drawn, in order, in the rectangles the hit test uses. */
  lemma {:induction false} DrawnBarsSpec(bars: seq<Bar>, rect: Rect, highlighted: Option<nat>, k: nat)
    requires bars != [] && k <= |bars| && DrawnBars(bars, rect, highlighted, k).Success?
    ensures DrawnBars(bars, rect, highlighted, k).value != [] ==> Layable(bars)
    ensures Layable(bars) ==> DrawsVisibleBars(bars, rect, highlighted, k, DrawnBars(bars, rect, highlighted, k).value)
  {
    if k > 0 {
      DrawnBarsSpec(bars, rect, highlighted, k - 1);
      var before := DrawnBars(bars, rect, highlighted, k - 1).value;
      var d := DrawnBars(bars, rect, highlighted, k).value;
      if Layable(bars) && bars[k - 1].visible {
        var b := bars[k - 1];
        var x := BarDrawing(k - 1, BoxOf(bars, rect, k - 1), b.color.rgb, highlighted == Some(k - 1));
        assert d == before + [x];
        AppendBar(bars, rect, highlighted, k, before, x);
      }
    }
  }

  /** Appending the drawing of bar k - 1 to drawings of the visible bars
      among the first k - 1 gives the drawings of the visible bars among the
      first k. */
  lemma AppendBar(bars: seq<Bar>, rect: Rect, highlighted: Option<nat>, k: nat,
                  before: seq<BarDrawing>, x: BarDrawing)
    requires Layable(bars) && 0 < k <= |bars|
    requires DrawsVisibleBars(bars, rect, highlighted, k - 1, before)
    requires x.index == k - 1 && PaintsBar(bars, rect, highlighted, x)
    ensures DrawsVisibleBars(bars, rect, highlighted, k, before + [x])
  {
    var d := before + [x];
    forall j | 0 <= j < |d|
      ensures d[j].index < k && PaintsBar(bars, rect, highlighted, d[j])
    {
      if j < |before| {
        assert d[j] == before[j];
      }
    }
    forall j, l | 0 <= j < l < |d|
      ensures d[j].index < d[l].index
    {
      assert d[j] == before[j];
      if l < |before| {
        assert d[l] == before[l];
      }
    }
    forall i: nat | i < k && bars[i].visible
      ensures Painted(d, i)
    {
      if i < k - 1 {
        assert Painted(before, i);
        var j :| 0 <= j < |before| && before[j].index == i;
        assert d[j] == before[j];
      } else {
        assert d[|before|] == x;
      }
    }
  }

  /** With non-negative values every bar's rectangle stays inside the
      widget: 8 pixels in from either side, hanging from the top padding at
      the latest, and the tallest bar reaches the top padding. */
  lemma {:induction false} BarInsideWidget(bars: seq<Bar>, rect: Rect, i: int)
    requires Layable(bars) && 0 <= i < |bars|
    requires forall j :: 0 <= j < |bars| ==> 0.0 <= bars[j].value
    ensures rect.x + BAR_PADDING / 2 <= BoxOf(bars, rect, i).left
    ensures BoxOf(bars, rect, i).left + BoxOf(bars, rect, i).width <= rect.x + rect.width - BAR_PADDING / 2
    ensures TopPadding(rect) <= BoxOf(bars, rect, i).top
    ensures BoxOf(bars, rect, i).top as real <= BoxOf(bars, rect, i).bottom
    ensures bars[i].value == MaxValue(bars) ==> BoxOf(bars, rect, i).top == TopPadding(rect)
  {
    BarsInsideWidget(rect, |bars|, i);
    BarTopBounds(rect, bars[i].value, bars[i].value, MaxValue(bars));
  }

  /** The hit test does not skip invisible bars: an invisible first bar
      still answers a point in its (undrawn) rectangle. */
  lemma InvisibleBarIsHit()
    ensures var bars := [Bar("a", 1.0, "", Color(WHITE), false), Bar("b", 1.0, "", Color(WHITE), true)];
            Layable(bars) && !bars[0].visible && FirstHit(bars, Rect(0, 0, 100, 100), 10.0, 50.0, Some(0))
  {
    var bars := [Bar("a", 1.0, "", Color(WHITE), false), Bar("b", 1.0, "", Color(WHITE), true)];
    var rect := Rect(0, 0, 100, 100);
    assert MaxValue(bars) == 1.0;
    assert BarLeft(rect, 2, 0) == 8;
    assert BarWidth(rect, 2) == 34;
    assert TotalHeight(rect) == 80 && TopPadding(rect) == 9;
    assert BarHeight(rect, 1.0, 1.0) == 80;
    assert BoxOf(bars, rect, 0) == Box(8, 9, 34, 90.0);
  }

  /** r is the first bar of the list with that name, or None when no bar
      has it. */
  predicate FirstNamed(bars: seq<Bar>, name: string, r: Option<Bar>) {
    (r.None? <==> forall i :: 0 <= i < |bars| ==> bars[i].name != name) &&
    (r.Some? ==> exists i :: 0 <= i < |bars| && bars[i] == r.value && bars[i].name == name &&
                             forall j :: 0 <= j < i ==> bars[j].name != name)
  }

  /** The search `get_bar` runs, on a bar chart's bars and on a group's:
      the first bar with that name, or None. */
  method FindBar(bars: seq<Bar>, name: string) returns (r: Option<Bar>)
    ensures FirstNamed(bars, name, r)
  {
    var i := 0;
    while i < |bars|
      invariant 0 <= i <= |bars|
      invariant forall j :: 0 <= j < i ==> bars[j].name != name
    {
      if bars[i].name == name {
        return Some(bars[i]);
      }
      i := i + 1;
    }
    return None;
  }

  /** The bar chart: the bars in the order they were added, the mouseover
      switch and the highlighted bar (by position in the list). */
  class BarChart {
    var bars: seq<Bar>
    var enableMouseover: bool
    var showValues: bool
    var drawLabels: bool
    var highlighted: Option<nat>
    var redrawRequested: bool
    /** The colour palette read from the package's tango.color file. */
    const palette: seq<Rgb>

    /** No bars, mouseover on, labels and values shown, nothing highlighted. */
    constructor (palette: seq<Rgb>)
      requires |palette| > 0
      ensures bars == [] && enableMouseover && showValues && drawLabels && highlighted == None
      ensures this.palette == palette && !redrawRequested
    {
      bars := [];
      enableMouseover := true;
      showValues := true;
      drawLabels := true;
      highlighted := None;
      redrawRequested := false;
      this.palette := palette;
    }

    /** `add_bar`: a bar with automatic colour gets the palette entry for
        the number of bars already held; the bar is appended. */
    method AddBar(bar: Bar)
      requires |palette| > 0
      modifies this
      ensures bars == old(bars) + [if bar.color.ColorAuto?
                                   then bar.(color := Color(palette[|old(bars)| % |palette|]))
                                   else bar]
      ensures highlighted == old(highlighted) && enableMouseover == old(enableMouseover)
      ensures redrawRequested == old(redrawRequested)
    {
      var b := bar;
      if b.color.ColorAuto? {
        b := b.(color := Color(palette[|bars| % |palette|]));
      }
      bars := bars + [b];
    }

    /** `get_bar`: the first bar with that name, or None. */
    method GetBar(name: string) returns (r: Option<Bar>)
      ensures FirstNamed(bars, name, r)
    {
      r := FindBar(bars, name);
    }

    /** `_get_bar_at_pos`: None without bars; otherwise the first bar whose
        rectangle holds the point, invisible bars included. The division by
        the maximum happens at the first bar, so a maximum of 0 raises. */
    method BarAtPos(rect: Rect, px: real, py: real) returns (r: Result<Option<nat>>)
      ensures bars == [] ==> r == Success(None)
      ensures bars != [] ==> (r.Failure? <==> MaxValue(bars) == 0.0)
      ensures r.Failure? ==> r.error == ZeroDivisionError
      ensures r.Success? && bars != [] ==> Layable(bars) && FirstHit(bars, rect, px, py, r.value)
    {
      if bars == [] {
        return Success(None);
      }
      var n := |bars|;
      var maxValue := MaxValue(bars);
      var i := 0;
      while i < n
        invariant 0 <= i <= n
        invariant i > 0 ==> maxValue != 0.0
        invariant maxValue != 0.0 ==> forall j :: 0 <= j < i ==> !Hits(bars, rect, j, px, py)
      {
        if maxValue == 0.0 {
          return Failure(ZeroDivisionError);
        }
        var box := BarBox(rect, n, maxValue, i, bars[i].value);
        if InBox(box, px, py) {
          return Success(Some(i));
        }
        i := i + 1;
      }
      return Success(None);
    }

    /** `_cb_motion_notify`: with mouseover on, the bar under the mouse
        becomes the highlighted one, and a redraw is requested when it
        changed; with mouseover off nothing happens. */
    method MotionNotify(rect: Rect, px: real, py: real) returns (err: Option<PyError>)
      modifies this
      ensures bars == old(bars) && enableMouseover == old(enableMouseover)
      ensures !enableMouseover ==> err == None && highlighted == old(highlighted) &&
                                   redrawRequested == old(redrawRequested)
      ensures err.Some? ==> err == Some(ZeroDivisionError) && Layable(bars) == false &&
                            highlighted == old(highlighted) && redrawRequested == old(redrawRequested)
      ensures enableMouseover && err.None? ==>
                (bars == [] ==> highlighted == None) &&
                (bars != [] ==> Layable(bars) && FirstHit(bars, rect, px, py, highlighted)) &&
                redrawRequested == (old(redrawRequested) || highlighted != old(highlighted))
    {
      if !enableMouseover {
        return None;
      }
      var hit := BarAtPos(rect, px, py);
      if hit.Failure? {
        return Some(hit.error);
      }
      if hit.value != highlighted {
        redrawRequested := true;
      }
      highlighted := hit.value;
      return None;
    }

    /** `_cb_button_pressed`: the bar under the mouse, if any, is sent
        with "bar-clicked". */
    method ButtonPressed(rect: Rect, px: real, py: real) returns (r: Result<Option<Bar>>)
      ensures bars != [] ==> (r.Failure? <==> MaxValue(bars) == 0.0)
      ensures bars == [] ==> r == Success(None)
      ensures r.Success? && r.value.Some? ==>
                exists i: nat :: Layable(bars) && i < |bars| && FirstHit(bars, rect, px, py, Some(i)) &&
                                 r.value.value == bars[i]
      ensures r.Success? && r.value.None? && bars != [] ==> FirstHit(bars, rect, px, py, None)
    {
      var hit := BarAtPos(rect, px, py);
      if hit.Failure? {
        return Failure(hit.error);
      }
      if hit.value.None? {
        return Success(None);
      }
      return Success(Some(bars[hit.value.value]));
    }

    /** `_do_draw_bars`: nothing without bars; otherwise the visible bars in
        order (see DrawnBarsSpec). */
    method DrawBars(rect: Rect) returns (r: Result<seq<BarDrawing>>)
      ensures bars == [] ==> r == Success([])
      ensures bars != [] ==> r == DrawnBars(bars, rect, highlighted, |bars|)
    {
      if bars == [] {
        return Success([]);
      }
      var n := |bars|;
      var maxValue := MaxValue(bars);
      var drawn: seq<BarDrawing> := [];
      var i := 0;
      while i < n
        invariant 0 <= i <= n
        invariant DrawnBars(bars, rect, highlighted, i) == Success(drawn)
      {
        var bar := bars[i];
        if !bar.visible {
          i := i + 1;
          continue;
        }
        if maxValue == 0.0 {
          FailureStaysFailure(bars, rect, highlighted, i + 1);
          return Failure(ZeroDivisionError);
        }
        var box := BarBox(rect, n, maxValue, i, bar.value);
        if bar.color.ColorAuto? {
          FailureStaysFailure(bars, rect, highlighted, i + 1);
          return Failure(TypeError);
        }
        drawn := drawn + [BarDrawing(i, box, bar.color.rgb, highlighted == Some(i))];
        i := i + 1;
      }
      return Success(drawn);
    }

    method SetEnableMouseover(on: bool)
      modifies this
      ensures enableMouseover == on && bars == old(bars) && highlighted == old(highlighted)
      ensures redrawRequested == old(redrawRequested)
    {
      enableMouseover := on;
    }
  }

  /** Once a drawing has raised, later bars do not change the error. */
  lemma {:induction false} FailureStaysFailure(bars: seq<Bar>, rect: Rect, highlighted: Option<nat>, k: nat)
    requires bars != [] && 0 < k <= |bars| && DrawnBars(bars, rect, highlighted, k).Failure?
    ensures DrawnBars(bars, rect, highlighted, |bars|) == DrawnBars(bars, rect, highlighted, k)
    decreases |bars| - k
  {
    if k < |bars| {
      FailureStaysFailure(bars, rect, highlighted, k + 1);
    }
  }

  // ----------------------------------------------------- grouped bars

  /** `MultiBar.get_value`: the largest value among the group's bars, or
      0.0 for a group without bars (see GroupValueIsMax). */
  function GroupValue(bars: seq<Bar>): real {
    if bars == [] then 0.0 else MaxValue(bars)
  }

  /** A group's value bounds each of its bars and is one of them, or 0.0
      when there are none. */
  lemma GroupValueIsMax(bars: seq<Bar>)
    ensures bars == [] ==> GroupValue(bars) == 0.0
    ensures forall i :: 0 <= i < |bars| ==> bars[i].value <= GroupValue(bars)
    ensures bars != [] ==> exists i :: 0 <= i < |bars| && bars[i].value == GroupValue(bars)
  {
    if bars != [] {
      var m := MaxValue(bars);
    }
  }

  /** A group as the layout sees it: its bars and whether it is shown. */
  datatype Group = Group(bars: seq<Bar>, visible: bool)

  /** `max(x.get_value() for x in self._bars)` over the groups (see
      GroupsMaxIsMax). */
  function GroupsMax(gs: seq<Group>): real
    requires gs != []
  {
    if |gs| == 1 then GroupValue(gs[0].bars)
    else
      var m := GroupsMax(gs[..|gs| - 1]);
      if GroupValue(gs[|gs| - 1].bars) > m then GroupValue(gs[|gs| - 1].bars) else m
  }

  /** The chart's maximum bounds every group's value and is one of them. */
  lemma {:induction false} GroupsMaxIsMax(gs: seq<Group>)
    requires gs != []
    ensures forall g :: 0 <= g < |gs| ==> GroupValue(gs[g].bars) <= GroupsMax(gs)
    ensures exists g :: 0 <= g < |gs| && GroupValue(gs[g].bars) == GroupsMax(gs)
  {
    if |gs| > 1 {
      var last := |gs| - 1;
      var init := gs[..last];
      GroupsMaxIsMax(init);
      var v := GroupValue(gs[last].bars);
      var mi := GroupsMax(init);
      assert GroupsMax(gs) == if v > mi then v else mi;
      assert v <= GroupsMax(gs) && mi <= GroupsMax(gs);
      forall g | 0 <= g < |gs|
        ensures GroupValue(gs[g].bars) <= GroupsMax(gs)
      {
        if g < last {
          assert init[g] == gs[g];
          assert GroupValue(init[g].bars) <= mi;
        } else {
          assert g == last;
        }
      }
      var g :| 0 <= g < |init| && GroupValue(init[g].bars) == mi;
      assert init[g] == gs[g];
      if v <= mi {
        assert GroupValue(gs[g].bars) == GroupsMax(gs);
      } else {
        assert v == GroupsMax(gs);
      }
    } else {
      assert GroupValue(gs[0].bars) == GroupsMax(gs);
    }
  }

  /** Every bar of every group lies at or below the chart's maximum. */
  lemma {:induction false} GroupsMaxBoundsEveryBar(gs: seq<Group>, g: int, k: int)
    requires gs != [] && 0 <= g < |gs| && 0 <= k < |gs[g].bars|
    ensures gs[g].bars[k].value <= GroupsMax(gs)
  {
    GroupValueIsMax(gs[g].bars);
    GroupsMaxIsMax(gs);
  }

  /** The group maximum can be divided by. */
  predicate GroupsLayable(gs: seq<Group>) {
    gs != [] && GroupsMax(gs) != 0.0
  }

  /** Some shown group has a bar, so the layout reaches a division. */
  predicate ReachesABar(gs: seq<Group>) {
    exists g :: 0 <= g < |gs| && gs[g].visible && gs[g].bars != []
  }

  /** `sub_bar_width`: the group's column width shared by its bars. */
  function SubWidth(rect: Rect, n: int, count: int): int
    requires n > 0 && count > 0
  {
    BarWidth(rect, n) / count
  }

  /** `sub_bar_x`: bar k of group g starts k sub-widths into the group. */
  function SubLeft(rect: Rect, n: int, g: int, count: int, k: int): int
    requires n > 0 && count > 0
  {
    BarLeft(rect, n, g) + SubWidth(rect, n, count) * k
  }

  /** The rectangle of bar k of group g. */
  function SubBoxOf(gs: seq<Group>, rect: Rect, g: int, k: int): Box
    requires GroupsLayable(gs) && 0 <= g < |gs| && 0 <= k < |gs[g].bars|
  {
    var count := |gs[g].bars|;
    Box(SubLeft(rect, |gs|, g, count, k), BarTop(rect, gs[g].bars[k].value, GroupsMax(gs)),
        SubWidth(rect, |gs|, count), BarBottom(rect))
  }

  /** Bars of one group sit side by side: each starts where the previous
      one ends. */
  lemma SubBarsTile(rect: Rect, n: int, g: int, count: int, k: int)
    requires n > 0 && count > 0
    ensures SubLeft(rect, n, g, count, k) + SubWidth(rect, n, count) == SubLeft(rect, n, g, count, k + 1)
  {
    var w := SubWidth(rect, n, count);
    assert w * k + w == w * (k + 1);
  }

  /** w times a is at most w times b when w is not negative and a <= b. */
  lemma MulMonotone(w: int, a: int, b: int)
    requires w >= 0 && a <= b
    ensures w * a <= w * b
  {
    assert w * b - w * a == w * (b - a);
  }

  /** count equal parts of bw, each bw / count wide, fit in bw. */
  lemma {:induction false} PartsFit(bw: int, count: int, k: int)
    requires bw >= 0 && 0 <= k < count
    ensures 0 <= (bw / count) * k
    ensures (bw / count) * k + bw / count <= bw
  {
    var w := bw / count;
    MulMonotone(w, 0, k);
    MulMonotone(w, k + 1, count);
    assert w * k + w == w * (k + 1);
    assert w * count <= bw by {
      assert bw == count * w + bw % count;
    }
  }

  /** When the column is not narrower than the padding, every bar of a
      group lies inside that group's column. */
  lemma {:induction false} SubBarInsideGroup(rect: Rect, n: int, g: int, count: int, k: int)
    requires n > 0 && 0 <= k < count && BarWidth(rect, n) >= 0
    ensures BarLeft(rect, n, g) <= SubLeft(rect, n, g, count, k)
    ensures SubLeft(rect, n, g, count, k) + SubWidth(rect, n, count) <= BarLeft(rect, n, g) + BarWidth(rect, n)
  {
    PartsFit(BarWidth(rect, n), count, k);
  }

  /** Bar k of group g holds the point. */
  predicate SubHits(gs: seq<Group>, rect: Rect, g: int, k: int, px: real, py: real)
    requires GroupsLayable(gs) && 0 <= g < |gs| && 0 <= k < |gs[g].bars|
  {
    InBox(SubBoxOf(gs, rect, g, k), px, py)
  }

  /** Group g is skipped (hidden) or none of its bars holds the point. */
  predicate MissesGroup(gs: seq<Group>, rect: Rect, g: int, px: real, py: real)
    requires GroupsLayable(gs) && 0 <= g < |gs|
  {
    !gs[g].visible || forall k :: 0 <= k < |gs[g].bars| ==> !SubHits(gs, rect, g, k, px, py)
  }

  /** hit is the first (group, bar) pair, groups in order and bars in order
      within a group, of a shown group whose bar holds the point; None when
      there is none. */
  predicate FirstSubHit(gs: seq<Group>, rect: Rect, px: real, py: real, hit: Option<(nat, nat)>)
    requires GroupsLayable(gs)
  {
    match hit
    case None => forall g :: 0 <= g < |gs| ==> MissesGroup(gs, rect, g, px, py)
    case Some((g, k)) =>
      g < |gs| && gs[g].visible && k < |gs[g].bars| && SubHits(gs, rect, g, k, px, py) &&
      (forall h :: 0 <= h < g ==> MissesGroup(gs, rect, h, px, py)) &&
      (forall l :: 0 <= l < k ==> !SubHits(gs, rect, g, l, px, py))
  }

  /** One bar of a group as `MultiBarChart._do_draw_bars` paints it. */
  datatype SubBarDrawing = SubBarDrawing(group: nat, index: nat, box: Box, color: Rgb, highlighted: bool)

  /** The drawings of the first k bars of group g. */
  function DrawnSubBars(gs: seq<Group>, rect: Rect, highlighted: Option<(nat, nat)>, g: nat, k: nat)
    : Result<seq<SubBarDrawing>>
    requires 0 <= g < |gs| && k <= |gs[g].bars|
  {
    if k == 0 then Success([])
    else
      var before := DrawnSubBars(gs, rect, highlighted, g, k - 1);
      var b := gs[g].bars[k - 1];
      if before.Failure? then before
      else if GroupsMax(gs) == 0.0 then Failure(ZeroDivisionError)
      else if b.color.ColorAuto? then Failure(TypeError)
      else Success(before.value + [SubBarDrawing(g, k - 1, SubBoxOf(gs, rect, g, k - 1), b.color.rgb,
                                                 highlighted == Some((g, k - 1)))])
  }

  /** The drawings of the first m groups: hidden groups are skipped, a
      shown group draws all its bars. */
  function DrawnGroups(gs: seq<Group>, rect: Rect, highlighted: Option<(nat, nat)>, m: nat)
    : Result<seq<SubBarDrawing>>
    requires m <= |gs|
  {
    if m == 0 then Success([])
    else
      var before := DrawnGroups(gs, rect, highlighted, m - 1);
      if before.Failure? || !gs[m - 1].visible then before
      else
        var sub := DrawnSubBars(gs, rect, highlighted, m - 1, |gs[m - 1].bars|);
        if sub.Failure? then sub else Success(before.value + sub.value)
  }

  /** x paints bar x.index of the shown group x.group in its rectangle and
      colour, veiled exactly when that pair is highlighted. */
  predicate PaintsSubBar(gs: seq<Group>, rect: Rect, highlighted: Option<(nat, nat)>, x: SubBarDrawing)
    requires GroupsLayable(gs)
  {
    x.group < |gs| && gs[x.group].visible && x.index < |gs[x.group].bars| &&
    gs[x.group].bars[x.index].color == Color(x.color) &&
    x.box == SubBoxOf(gs, rect, x.group, x.index) &&
    (x.highlighted <==> highlighted == Some((x.group, x.index)))
  }

  /** Bar k of group g has a drawing in d. */
  predicate SubPainted(d: seq<SubBarDrawing>, g: nat, k: nat) {
    exists j :: 0 <= j < |d| && d[j].group == g && d[j].index == k
  }

  /** A successful group drawing paints its bars correctly, and all of
      them. */
  lemma {:induction false} DrawnSubBarsSpec(gs: seq<Group>, rect: Rect, highlighted: Option<(nat, nat)>, g: nat, k: nat)
    requires 0 <= g < |gs| && gs[g].visible && k <= |gs[g].bars|
    requires DrawnSubBars(gs, rect, highlighted, g, k).Success?
    ensures k > 0 ==> GroupsLayable(gs)
    ensures var d := DrawnSubBars(gs, rect, highlighted, g, k).value;
            GroupsLayable(gs) ==>
              (forall j :: 0 <= j < |d| ==> d[j].group == g && d[j].index < k && PaintsSubBar(gs, rect, highlighted, d[j])) &&
              (forall l :: 0 <= l < k ==> SubPainted(d, g, l))
  {
    if k > 0 {
      DrawnSubBarsSpec(gs, rect, highlighted, g, k - 1);
      var before := DrawnSubBars(gs, rect, highlighted, g, k - 1).value;
      var d := DrawnSubBars(gs, rect, highlighted, g, k).value;
      var b := gs[g].bars[k - 1];
      var x := SubBarDrawing(g, k - 1, SubBoxOf(gs, rect, g, k - 1), b.color.rgb, highlighted == Some((g, k - 1)));
      assert d == before + [x];
      assert PaintsSubBar(gs, rect, highlighted, x);
      forall j | 0 <= j < |d|
        ensures d[j].group == g && d[j].index < k && PaintsSubBar(gs, rect, highlighted, d[j])
      {
        if j < |before| {
          assert d[j] == before[j];
        }
      }
      forall l | 0 <= l < k
        ensures SubPainted(d, g, l)
      {
        if l < k - 1 {
          assert SubPainted(before, g, l);
          var j :| 0 <= j < |before| && before[j].group == g && before[j].index == l;
          assert d[j] == before[j];
        } else {
          assert d[|before|] == x;
        }
      }
    }
  }

  /** What drawing the grouped chart promises: when it succeeds, every
      drawing paints a bar of a shown group correctly, and every bar of
      every shown group among the first m is painted. */
  lemma {:induction false} DrawnGroupsSpec(gs: seq<Group>, rect: Rect, highlighted: Option<(nat, nat)>, m: nat)
    requires m <= |gs| && DrawnGroups(gs, rect, highlighted, m).Success?
    ensures var d := DrawnGroups(gs, rect, highlighted, m).value;
            d != [] ==> GroupsLayable(gs)
    ensures var d := DrawnGroups(gs, rect, highlighted, m).value;
            GroupsLayable(gs) ==>
              (forall j :: 0 <= j < |d| ==> d[j].group < m && PaintsSubBar(gs, rect, highlighted, d[j])) &&
              (forall g, k :: 0 <= g < m && gs[g].visible && 0 <= k < |gs[g].bars| ==> SubPainted(d, g, k))
  {
    if m > 0 {
      DrawnGroupsSpec(gs, rect, highlighted, m - 1);
      if gs[m - 1].visible {
        var count := |gs[m - 1].bars|;
        DrawnSubBarsSpec(gs, rect, highlighted, m - 1, count);
        var before := DrawnGroups(gs, rect, highlighted, m - 1).value;
        var sub := DrawnSubBars(gs, rect, highlighted, m - 1, count).value;
        var d := DrawnGroups(gs, rect, highlighted, m).value;
        assert d == before + sub;
        if GroupsLayable(gs) {
          AppendPaints(gs, rect, highlighted, m, before, sub);
          AppendCovers(gs, m - 1, before, sub);
        }
      }
    }
  }

  /** Appending the drawing of group m - 1 to that of the groups before it
      keeps every drawn bar correct. */
  lemma AppendPaints(gs: seq<Group>, rect: Rect, highlighted: Option<(nat, nat)>, m: nat,
                     before: seq<SubBarDrawing>, sub: seq<SubBarDrawing>)
    requires GroupsLayable(gs) && m > 0
    requires forall j :: 0 <= j < |before| ==> before[j].group < m && PaintsSubBar(gs, rect, highlighted, before[j])
    requires forall j :: 0 <= j < |sub| ==> sub[j].group == m - 1 && PaintsSubBar(gs, rect, highlighted, sub[j])
    ensures forall j :: 0 <= j < |before + sub| ==>
              (before + sub)[j].group < m && PaintsSubBar(gs, rect, highlighted, (before + sub)[j])
  {
    forall j | 0 <= j < |before + sub|
      ensures (before + sub)[j].group < m && PaintsSubBar(gs, rect, highlighted, (before + sub)[j])
    {
      if j < |before| {
        assert (before + sub)[j] == before[j];
      } else {
        assert (before + sub)[j] == sub[j - |before|];
      }
    }
  }

  /** Appending the drawing of group `last`, which paints all its bars, to
      a drawing that paints every bar of the shown groups before it paints
      every bar of the shown groups up to `last`. */
  lemma AppendCovers(gs: seq<Group>, last: nat, before: seq<SubBarDrawing>, sub: seq<SubBarDrawing>)
    requires last < |gs|
    requires forall g, k :: 0 <= g < last && gs[g].visible && 0 <= k < |gs[g].bars| ==> SubPainted(before, g, k)
    requires forall l :: 0 <= l < |gs[last].bars| ==> SubPainted(sub, last, l)
    ensures forall g, k :: 0 <= g <= last && gs[g].visible && 0 <= k < |gs[g].bars| ==> SubPainted(before + sub, g, k)
  {
    forall g, k | 0 <= g <= last && gs[g].visible && 0 <= k < |gs[g].bars|
      ensures SubPainted(before + sub, g, k)
    {
      if g < last {
        assert SubPainted(before, g, k);
        var j :| 0 <= j < |before| && before[j].group == g && before[j].index == k;
        assert (before + sub)[j] == before[j];
      } else {
        assert SubPainted(sub, g, k);
        var j :| 0 <= j < |sub| && sub[j].group == g && sub[j].index == k;
        assert (before + sub)[|before| + j] == sub[j];
      }
    }
  }

  lemma {:induction false} SubFailureStaysFailure(gs: seq<Group>, rect: Rect, highlighted: Option<(nat, nat)>, g: nat, k: nat)
    requires 0 <= g < |gs| && 0 < k <= |gs[g].bars| && DrawnSubBars(gs, rect, highlighted, g, k).Failure?
    ensures DrawnSubBars(gs, rect, highlighted, g, |gs[g].bars|) == DrawnSubBars(gs, rect, highlighted, g, k)
    decreases |gs[g].bars| - k
  {
    if k < |gs[g].bars| {
      SubFailureStaysFailure(gs, rect, highlighted, g, k + 1);
    }
  }

  /** Once the chart's drawing has raised, later groups keep the error. */
  lemma {:induction false} GroupFailureStaysFailure(gs: seq<Group>, rect: Rect, highlighted: Option<(nat, nat)>, m: nat)
    requires 0 < m <= |gs| && DrawnGroups(gs, rect, highlighted, m).Failure?
    ensures DrawnGroups(gs, rect, highlighted, |gs|) == DrawnGroups(gs, rect, highlighted, m)
    decreases |gs| - m
  {
    if m < |gs| {
      GroupFailureStaysFailure(gs, rect, highlighted, m + 1);
    }
  }

  /** One more group: a hidden group adds nothing, a shown one adds its
      bars or stops at their error. */
  lemma DrawnGroupsStep(gs: seq<Group>, rect: Rect, highlighted: Option<(nat, nat)>, g: nat,
                        drawn: seq<SubBarDrawing>, sub: Result<seq<SubBarDrawing>>)
    requires g < |gs| && DrawnGroups(gs, rect, highlighted, g) == Success(drawn)
    requires sub == DrawnSubBars(gs, rect, highlighted, g, |gs[g].bars|)
    ensures !gs[g].visible ==> DrawnGroups(gs, rect, highlighted, g + 1) == Success(drawn)
    ensures gs[g].visible && sub.Failure? ==> DrawnGroups(gs, rect, highlighted, g + 1) == sub
    ensures gs[g].visible && sub.Success? ==> DrawnGroups(gs, rect, highlighted, g + 1) == Success(drawn + sub.value)
  {
  }

  /** The groups' current bars and visibility, in order. */
  function GroupsOf(ms: seq<MultiBar>): (gs: seq<Group>)
    reads set m | m in ms
    ensures |gs| == |ms|
    ensures forall g :: 0 <= g < |ms| ==> gs[g] == Group(ms[g].bars, ms[g].visible)
  {
    if ms == [] then []
    else GroupsOf(ms[..|ms| - 1]) + [Group(ms[|ms| - 1].bars, ms[|ms| - 1].visible)]
  }

  /** The inner loop of `MultiBarChart._get_bar_at_pos`: the first bar of
      group g holding the point; the first bar reached raises when the
      maximum is 0. */
  method ScanGroup(gs: seq<Group>, rect: Rect, px: real, py: real, g: nat, maxValue: real)
    returns (r: Result<Option<nat>>)
    requires g < |gs| && maxValue == GroupsMax(gs)
    ensures r.Failure? <==> maxValue == 0.0 && gs[g].bars != []
    ensures r.Failure? ==> r.error == ZeroDivisionError
    ensures r.Success? && maxValue == 0.0 ==> r.value == None
    ensures r.Success? && maxValue != 0.0 && r.value.None? ==>
              forall l :: 0 <= l < |gs[g].bars| ==> !SubHits(gs, rect, g, l, px, py)
    ensures r.Success? && maxValue != 0.0 && r.value.Some? ==>
              r.value.value < |gs[g].bars| && SubHits(gs, rect, g, r.value.value, px, py) &&
              forall l :: 0 <= l < r.value.value ==> !SubHits(gs, rect, g, l, px, py)
  {
    var n := |gs|;
    var count := |gs[g].bars|;
    var k := 0;
    while k < count
      invariant 0 <= k <= count
      invariant k > 0 ==> maxValue != 0.0
      invariant maxValue != 0.0 ==> forall l :: 0 <= l < k ==> !SubHits(gs, rect, g, l, px, py)
    {
      var subWidth := SubWidth(rect, n, count);
      var subLeft := SubLeft(rect, n, g, count, k);
      if maxValue == 0.0 {
        return Failure(ZeroDivisionError);
      }
      var top := BarTop(rect, gs[g].bars[k].value, maxValue);
      if InBox(Box(subLeft, top, subWidth, BarBottom(rect)), px, py) {
        return Success(Some(k));
      }
      k := k + 1;
    }
    return Success(None);
  }

  /** `MultiBarChart._get_bar_at_pos` over the groups' current layout:
      (None, None) without groups; otherwise the first bar of a shown group
      holding the point. The division by the maximum happens at the first
      bar of a shown group, so a maximum of 0 raises only when such a bar
      exists. */
  method SubBarAt(gs: seq<Group>, rect: Rect, px: real, py: real) returns (r: Result<Option<(nat, nat)>>)
    ensures gs == [] ==> r == Success(None)
    ensures gs != [] ==> (r.Failure? <==> GroupsMax(gs) == 0.0 && ReachesABar(gs))
    ensures r.Failure? ==> r.error == ZeroDivisionError
    ensures r.Success? && gs != [] && GroupsMax(gs) == 0.0 ==> r.value == None
    ensures r.Success? && GroupsLayable(gs) ==> FirstSubHit(gs, rect, px, py, r.value)
  {
    if gs == [] {
      return Success(None);
    }
    var n := |gs|;
    var maxValue := GroupsMax(gs);
    var g := 0;
    while g < n
      invariant 0 <= g <= n
      invariant maxValue == 0.0 ==> forall h :: 0 <= h < g ==> !(gs[h].visible && gs[h].bars != [])
      invariant maxValue != 0.0 ==> forall h :: 0 <= h < g ==> MissesGroup(gs, rect, h, px, py)
    {
      if !gs[g].visible {
        g := g + 1;
        continue;
      }
      var hit := ScanGroup(gs, rect, px, py, g, maxValue);
      if hit.Failure? {
        return Failure(hit.error);
      }
      if hit.value.Some? {
        return Success(Some((g, hit.value.value)));
      }
      g := g + 1;
    }
    return Success(None);
  }

  /** The inner loop of `MultiBarChart._do_draw_bars`: the bars of group g. */
  method DrawGroupBars(gs: seq<Group>, rect: Rect, highlighted: Option<(nat, nat)>, g: nat, maxValue: real)
    returns (r: Result<seq<SubBarDrawing>>)
    requires g < |gs| && maxValue == GroupsMax(gs)
    ensures r == DrawnSubBars(gs, rect, highlighted, g, |gs[g].bars|)
  {
    var n := |gs|;
    var count := |gs[g].bars|;
    var sub: seq<SubBarDrawing> := [];
    var k := 0;
    while k < count
      invariant 0 <= k <= count
      invariant DrawnSubBars(gs, rect, highlighted, g, k) == Success(sub)
    {
      var bar := gs[g].bars[k];
      var subWidth := SubWidth(rect, n, count);
      var subLeft := SubLeft(rect, n, g, count, k);
      if maxValue == 0.0 {
        SubFailureStaysFailure(gs, rect, highlighted, g, k + 1);
        return Failure(ZeroDivisionError);
      }
      var top := BarTop(rect, bar.value, maxValue);
      if bar.color.ColorAuto? {
        SubFailureStaysFailure(gs, rect, highlighted, g, k + 1);
        return Failure(TypeError);
      }
      sub := sub + [SubBarDrawing(g, k, Box(subLeft, top, subWidth, BarBottom(rect)), bar.color.rgb,
                                  highlighted == Some((g, k)))];
      k := k + 1;
    }
    return Success(sub);
  }

  /** `MultiBarChart._do_draw_bars` over the groups' current layout: the
      bars of the shown groups, group by group (see DrawnGroupsSpec). */
  method DrawGroups(gs: seq<Group>, rect: Rect, highlighted: Option<(nat, nat)>) returns (r: Result<seq<SubBarDrawing>>)
    ensures gs == [] ==> r == Success([])
    ensures gs != [] ==> r == DrawnGroups(gs, rect, highlighted, |gs|)
  {
    if gs == [] {
      return Success([]);
    }
    var n := |gs|;
    var maxValue := GroupsMax(gs);
    var drawn: seq<SubBarDrawing> := [];
    var g := 0;
    while g < n
      invariant 0 <= g <= n
      invariant DrawnGroups(gs, rect, highlighted, g) == Success(drawn)
    {
      if !gs[g].visible {
        DrawnGroupsStep(gs, rect, highlighted, g, drawn, DrawnSubBars(gs, rect, highlighted, g, |gs[g].bars|));
        g := g + 1;
        continue;
      }
      var sub := DrawGroupBars(gs, rect, highlighted, g, maxValue);
      DrawnGroupsStep(gs, rect, highlighted, g, drawn, sub);
      if sub.Failure? {
        GroupFailureStaysFailure(gs, rect, highlighted, g + 1);
        return Failure(sub.error);
      }
      drawn := drawn + sub.value;
      g := g + 1;
    }
    return Success(drawn);
  }

  /** `MultiBar`: a named group of bars; its bars list grows in place. */
  class MultiBar {
    const name: string
    var caption: string
    var bars: seq<Bar>
    var visible: bool
    const palette: seq<Rgb>

    /** An empty, visible group. */
    constructor (name: string, caption: string, palette: seq<Rgb>)
      requires |palette| > 0
      ensures this.name == name && this.caption == caption && bars == [] && visible
      ensures this.palette == palette
    {
      this.name := name;
      this.caption := caption;
      bars := [];
      visible := true;
      this.palette := palette;
    }

    /** `MultiBar.add_bar`: as `BarChart.add_bar`, the palette entry for the
        number of bars already in the group. */
    method AddBar(bar: Bar)
      requires |palette| > 0
      modifies this
      ensures bars == old(bars) + [if bar.color.ColorAuto?
                                   then bar.(color := Color(palette[|old(bars)| % |palette|]))
                                   else bar]
      ensures visible == old(visible) && caption == old(caption)
    {
      var b := bar;
      if b.color.ColorAuto? {
        b := b.(color := Color(palette[|bars| % |palette|]));
      }
      bars := bars + [b];
    }

    /** `MultiBar.get_bar`: the first bar of the group with that name. */
    method GetBar(name: string) returns (r: Option<Bar>)
      ensures FirstNamed(bars, name, r)
    {
      r := FindBar(bars, name);
    }
  }

  /** `MultiBarChart` of bar_chart.py: one column per group, the group's
      bars side by side in it; groups are added without colouring. */
  class MultiBarChart {
    var groups: seq<MultiBar>
    var enableMouseover: bool
    var highlighted: Option<(nat, nat)>
    var redrawRequested: bool

    constructor ()
      ensures groups == [] && enableMouseover && highlighted == None && !redrawRequested
    {
      groups := [];
      enableMouseover := true;
      highlighted := None;
      redrawRequested := false;
    }

    /** The groups' current bars and visibility. */
    function Layout(): seq<Group>
      reads this, set m | m in groups
    {
      GroupsOf(groups)
    }

    /** `MultiBarChart.add_bar`: the group is appended as it is. */
    method AddBar(m: MultiBar)
      modifies this
      ensures groups == old(groups) + [m]
      ensures enableMouseover == old(enableMouseover) && highlighted == old(highlighted)
      ensures redrawRequested == old(redrawRequested)
    {
      groups := groups + [m];
    }

    /** `MultiBarChart._cb_motion_notify`: the pair under the mouse
        becomes the highlighted one, with a redraw when it changed; nothing
        happens with mouseover off. */
    method MotionNotify(rect: Rect, px: real, py: real) returns (err: Option<PyError>)
      modifies this
      ensures groups == old(groups) && enableMouseover == old(enableMouseover)
      ensures Layout() == old(Layout())
      ensures !enableMouseover ==> err == None && highlighted == old(highlighted) &&
                                   redrawRequested == old(redrawRequested)
      ensures err.Some? ==> err == Some(ZeroDivisionError) && highlighted == old(highlighted) &&
                            redrawRequested == old(redrawRequested)
      ensures groups == [] ==> err == None
      ensures enableMouseover && groups != [] ==>
                (err.Some? <==> GroupsMax(Layout()) == 0.0 && ReachesABar(Layout()))
      ensures enableMouseover && err.None? ==>
                (GroupsLayable(Layout()) ==> FirstSubHit(Layout(), rect, px, py, highlighted)) &&
                (!GroupsLayable(Layout()) ==> highlighted == None) &&
                redrawRequested == (old(redrawRequested) || highlighted != old(highlighted))
    {
      if !enableMouseover {
        return None;
      }
      var gs := Layout();
      var hit := SubBarAt(gs, rect, px, py);
      if hit.Failure? {
        return Some(hit.error);
      }
      if hit.value != highlighted {
        redrawRequested := true;
      }
      highlighted := hit.value;
      assert Layout() == gs;
      return None;
    }

    /** `MultiBarChart._cb_button_pressed`: the group and the bar under the
        mouse, sent with "multibar-clicked" (and the group alone with
        "bar-clicked"). */
    method ButtonPressed(rect: Rect, px: real, py: real) returns (r: Result<Option<(MultiBar, Bar)>>)
      ensures groups == [] ==> r == Success(None)
      ensures groups != [] ==> (r.Failure? <==> GroupsMax(Layout()) == 0.0 && ReachesABar(Layout()))
      ensures r.Success? && r.value.Some? ==>
                exists g: nat, k: nat :: GroupsLayable(Layout()) && FirstSubHit(Layout(), rect, px, py, Some((g, k))) &&
                                        r.value.value == (groups[g], groups[g].bars[k])
      ensures r.Success? && r.value.None? && GroupsLayable(Layout()) ==> FirstSubHit(Layout(), rect, px, py, None)
    {
      var hit := SubBarAt(Layout(), rect, px, py);
      if hit.Failure? {
        return Failure(hit.error);
      }
      if hit.value.None? {
        return Success(None);
      }
      var (g, k) := hit.value.value;
      return Success(Some((groups[g], groups[g].bars[k])));
    }

  }
}

=== FILE: basics.dfy ===
/** Value types and small helpers shared by every chart: interval tests,
    the centre of a rectangle, colour conversion and the reference-point
    shift used when text is shown. */
module Basics {
  import opened Wrappers

  /** A gtk.gdk.Rectangle: integer origin and a non-negative integer size. */
  datatype Rect = Rect(x: int, y: int, width: nat, height: nat)

  /** A point in data or pixel coordinates. */
  datatype Point = Point(x: real, y: real)

  /** A pair (min, max); nothing forces min <= max. */
  datatype Interval = Interval(lo: real, hi: real)

  /** A cairo colour, each channel nominally in [0, 1]. */
  datatype Rgb = Rgb(red: real, green: real, blue: real)

  /** An 8-bit RGB triple. */
  datatype Rgb8 = Rgb8(r: int, g: int, b: int)

  /** A colour that may be left for the chart to pick from its palette (COLOR_AUTO). */
  datatype ColorSetting = ColorAuto | Color(rgb: Rgb)

  const WHITE: Rgb := Rgb(1.0, 1.0, 1.0)

  function Min(a: real, b: real): real { if a <= b then a else b }
  function Max(a: real, b: real): real { if a >= b then a else b }

  /** Python's int() applied to a float: truncation toward zero. */
  function Trunc(r: real): (n: int)
    ensures 0.0 <= r ==> n as real <= r < n as real + 1.0
    ensures r < 0.0 ==> n as real - 1.0 < r <= n as real
  {
    if r >= 0.0 then r.Floor else -((-r).Floor)
  }

  /** int() never reverses an order. */
  lemma TruncMonotone(a: real, b: real)
    requires a <= b
    ensures Trunc(a) <= Trunc(b)
  {
  }

  /** A whole number plus a fraction truncates to the whole number. */
  lemma TruncOfFraction(k: nat, f: real)
    requires 0.0 <= f < 1.0
    ensures Trunc(k as real + f) == k
  {
  }

  /** Python's float `%` with a positive divisor, a - m * floor(a / m),
      written as the fractional part of a / m scaled back by m. */
  function RealMod(a: real, m: real): (r: real)
    requires m > 0.0
    ensures 0.0 <= r < m
  {
    var t := a / m - (a / m).Floor as real;
    FractionTimes(t, m);
    t * m
  }

  lemma FractionTimes(t: real, m: real)
    requires 0.0 <= t < 1.0 && m > 0.0
    ensures 0.0 <= t * m < m
  {
  }

  /** `is_in_range(x, (xmin, xmax))`: xmin <= x <= xmax. */
  predicate IsInRange(x: real, r: Interval) {
    r.lo <= x && r.hi >= x
  }

  /** An inverted pair contains nothing. */
  lemma InvertedRangeIsEmpty(x: real, r: Interval)
    requires r.hi < r.lo
    ensures !IsInRange(x, r)
  {
  }

  /** `intersect_ranges`: the points of the result are those of both inputs. */
  function IntersectRanges(a: Interval, b: Interval): (r: Interval)
    ensures forall x :: IsInRange(x, r) <==> IsInRange(x, a) && IsInRange(x, b)
  {
    Interval(Max(a.lo, b.lo), Min(a.hi, b.hi))
  }

  lemma IntersectRangesCommutes(a: Interval, b: Interval)
    ensures IntersectRanges(a, b) == IntersectRanges(b, a)
  {
  }

  /** `get_center`: half the width and half the height, rounded down by
      Python 2 integer division; the origin of the rectangle is ignored. */
  function GetCenter(rect: Rect): (c: (int, int))
    ensures 2 * c.0 <= rect.width < 2 * c.0 + 2
    ensures 2 * c.1 <= rect.height < 2 * c.1 + 2
  {
    (rect.width / 2, rect.height / 2)
  }

  lemma GetCenterIgnoresOrigin(rect: Rect, x: int, y: int)
    ensures GetCenter(rect) == GetCenter(Rect(x, y, rect.width, rect.height))
  {
  }

  /** `color_rgb_to_cairo`: each 8-bit channel divided by 255. */
  function ColorRgbToCairo(c: Rgb8): (r: Rgb)
    ensures r.red * 255.0 == c.r as real
    ensures r.green * 255.0 == c.g as real
    ensures r.blue * 255.0 == c.b as real
  {
    Rgb(c.r as real / 255.0, c.g as real / 255.0, c.b as real / 255.0)
  }

  predicate IsByte(v: int) { 0 <= v <= 255 }

  /** Channels in 0..255 land in [0, 1], 0 on 0 and 255 on 1. */
  lemma ColorRgbToCairoInUnitRange(c: Rgb8)
    requires IsByte(c.r) && IsByte(c.g) && IsByte(c.b)
    ensures var r := ColorRgbToCairo(c);
      0.0 <= r.red <= 1.0 && 0.0 <= r.green <= 1.0 && 0.0 <= r.blue <= 1.0
    ensures c.r == 0 ==> ColorRgbToCairo(c).red == 0.0
    ensures c.r == 255 ==> ColorRgbToCairo(c).red == 1.0
  {
  }

  predicate IsHexDigit(ch: char) {
    ('0' <= ch <= '9') || ('a' <= ch <= 'f') || ('A' <= ch <= 'F')
  }

  predicate AllHex(s: string) {
    forall i :: 0 <= i < |s| ==> IsHexDigit(s[i])
  }

  function DigitValue(ch: char): (d: nat)
    requires IsHexDigit(ch)
    ensures d < 16
  {
    if '0' <= ch <= '9' then ch as int - '0' as int
    else if 'a' <= ch <= 'f' then ch as int - 'a' as int + 10
    else ch as int - 'A' as int + 10
  }

  /** The value of a string of hexadecimal digits, most significant first. */
  function HexValue(s: string): nat
    requires AllHex(s)
  {
    if s == [] then 0 else HexValue(s[..|s| - 1]) * 16 + DigitValue(s[|s| - 1])
  }

  /** C's isspace in the C locale: blank, tab, newline, vertical tab,
      form feed and carriage return. */
  predicate IsSpace(ch: char) {
    ch == ' ' || 9 <= ch as int <= 13
  }

  predicate AllSpace(s: string) {
    forall i :: 0 <= i < |s| ==> IsSpace(s[i])
  }

  /** The number of leading blanks of s. */
  function SpaceRun(s: string): (n: nat)
    ensures n <= |s|
  {
    if s != [] && IsSpace(s[0]) then 1 + SpaceRun(s[1..]) else 0
  }

  /** The number of leading hexadecimal digits of s. */
  function HexRun(s: string): (n: nat)
    ensures n <= |s|
  {
    if s != [] && IsHexDigit(s[0]) then 1 + HexRun(s[1..]) else 0
  }

  /** Blanks followed by something else (or nothing) are the leading run. */
  lemma {:induction false} SpaceRunOf(w: string, rest: string)
    requires AllSpace(w) && (rest == [] || !IsSpace(rest[0]))
    ensures SpaceRun(w + rest) == |w|
  {
    if w != [] {
      assert (w + rest)[1..] == w[1..] + rest;
      SpaceRunOf(w[1..], rest);
    }
  }

  /** Digits followed by something else (or nothing) are the leading run. */
  lemma {:induction false} HexRunOf(w: string, rest: string)
    requires AllHex(w) && (rest == [] || !IsHexDigit(rest[0]))
    ensures HexRun(w + rest) == |w|
  {
    if w != [] {
      assert (w + rest)[1..] == w[1..] + rest;
      HexRunOf(w[1..], rest);
    }
  }

  /** The leading run of blanks is all blanks. */
  lemma {:induction false} SpaceRunIsSpace(s: string)
    ensures AllSpace(s[..SpaceRun(s)])
  {
    if s != [] && IsSpace(s[0]) {
      SpaceRunIsSpace(s[1..]);
      assert s[..SpaceRun(s)] == [s[0]] + s[1..][..SpaceRun(s[1..])];
    }
  }

  /** The leading run of digits is all digits. */
  lemma {:induction false} HexRunIsHex(s: string)
    ensures AllHex(s[..HexRun(s)])
  {
    if s != [] && IsHexDigit(s[0]) {
      HexRunIsHex(s[1..]);
      assert s[..HexRun(s)] == [s[0]] + s[1..][..HexRun(s[1..])];
    }
  }

  const LONG_MAX: nat := 0x7FFF_FFFF_FFFF_FFFF

  /** The magnitude does not fit a C long with that sign (LONG_MIN is one
      further from zero than LONG_MAX). */
  predicate Overflows(sign: string, magnitude: nat) {
    if sign == "-" then magnitude > LONG_MAX + 1 else magnitude > LONG_MAX
  }

  /** A literal `int(s, 16)` accepts, split into its parts: blanks, a sign,
      blanks, a "0x" prefix, the digits and trailing blanks. */
  datatype HexLiteral = HexLiteral(lead: string, sign: string, gap: string, prefix: string,
                                   digits: string, trail: string)

  function Spell(lit: HexLiteral): string {
    lit.lead + (lit.sign + (lit.gap + (lit.prefix + (lit.digits + lit.trail))))
  }

  /** The literals Python 2 reads in base 16 (`PyInt_FromString` over
      `PyOS_strtol`): blanks are allowed around the number and between the
      sign and the digits, "0x" or "0X" may precede the digits, and at least
      one hexadecimal digit is required. A value too large for a C long is
      re-read by `PyLong_FromString`, which allows no blanks after the sign.
      With no sign the split of the blanks is fixed by putting them all in
      front. */
  predicate IsHexLiteral(lit: HexLiteral) {
    AllSpace(lit.lead) && AllSpace(lit.gap) && AllSpace(lit.trail) &&
    (lit.sign == "" || lit.sign == "+" || lit.sign == "-") &&
    (lit.sign == "" ==> lit.gap == "") &&
    (lit.prefix == "" || lit.prefix == "0x" || lit.prefix == "0X") &&
    lit.digits != [] && AllHex(lit.digits) &&
    (lit.gap != "" ==> !Overflows(lit.sign, HexValue(lit.digits)))
  }

  function LiteralValue(lit: HexLiteral): int
    requires AllHex(lit.digits)
  {
    if lit.sign == "-" then -(HexValue(lit.digits) as int) else HexValue(lit.digits)
  }

  /** The length of the sign `PyOS_strtol` takes from the front of t. */
  function SignLength(t: string): (n: nat)
    ensures n <= |t|
  {
    if t != [] && (t[0] == '+' || t[0] == '-') then 1 else 0
  }

  /** The length of the "0x" `PyOS_strtoul` skips in base 16: only when a
      hexadecimal digit follows it. */
  function PrefixLength(t: string): (n: nat)
    ensures n <= |t|
  {
    if |t| >= 3 && t[0] == '0' && (t[1] == 'x' || t[1] == 'X') && IsHexDigit(t[2]) then 2 else 0
  }

  /** The parts the scan of `int(s, 16)` finds: blanks, an optional sign,
      blanks, a "0x" prefix, the digits, and the rest. */
  function SplitHex(s: string): HexLiteral {
    var n1 := SpaceRun(s);
    var t1 := s[n1..];
    var ns := SignLength(t1);
    var t2 := t1[ns..];
    var n2 := SpaceRun(t2);
    var t3 := t2[n2..];
    var np := PrefixLength(t3);
    var t4 := t3[np..];
    var nd := HexRun(t4);
    HexLiteral(s[..n1], t1[..ns], t2[..n2], t3[..np], t4[..nd], t4[nd..])
  }

  lemma SplitAt(s: string, n: nat)
    requires n <= |s|
    ensures s == s[..n] + s[n..]
  {
  }

  /** The parts the scan finds spell the string back. */
  lemma SplitHexSpells(s: string)
    ensures Spell(SplitHex(s)) == s
  {
    var t1 := s[SpaceRun(s)..];
    var t2 := t1[SignLength(t1)..];
    var t3 := t2[SpaceRun(t2)..];
    var t4 := t3[PrefixLength(t3)..];
    SplitAt(t4, HexRun(t4));
    SplitAt(t3, PrefixLength(t3));
    SplitAt(t2, SpaceRun(t2));
    SplitAt(t1, SignLength(t1));
    SplitAt(s, SpaceRun(s));
  }

  /** The scan `int(s, 16)` makes: the parts must form a literal; None
      when s is not one. */
  function ScanHex(s: string): (r: Option<HexLiteral>)
    ensures r.Some? ==> IsHexLiteral(r.value) && Spell(r.value) == s
  {
    var lit := SplitHex(s);
    SplitHexSpells(s);
    if IsHexLiteral(lit) then Some(lit) else None
  }

  /** `int(s, 16)`: the value of the literal, ValueError when s is not one. */
  function ParseHex(s: string): (r: Result<int>)
    ensures r.Failure? ==> r.error == ValueError
  {
    match ScanHex(s)
    case None => Failure(ValueError)
    case Some(lit) => Success(LiteralValue(lit))
  }

  lemma SplitCat(a: string, b: string)
    ensures (a + b)[..|a|] == a && (a + b)[|a|..] == b
  {
  }

  /** The first character of a + b. */
  lemma HeadCat(a: string, b: string)
    requires a != [] || b != []
    ensures (a + b)[0] == if a != [] then a[0] else b[0]
  {
  }

  /** "0x" in front of digits and blanks is skipped; digits and blanks
      alone start with no prefix. */
  lemma PrefixLengthOf(prefix: string, digits: string, trail: string)
    requires prefix == "" || prefix == "0x" || prefix == "0X"
    requires digits != [] && AllHex(digits) && AllSpace(trail)
    ensures PrefixLength(prefix + (digits + trail)) == |prefix|
  {
    var t := prefix + (digits + trail);
    if prefix == "" {
      assert t == digits + trail;
      if |t| >= 2 {
        assert t[1] == (if |digits| >= 2 then digits[1] else trail[0]);
      }
    } else {
      assert t[1] == prefix[1] && t[2] == digits[0];
    }
  }

  /** Every literal reads back as itself: the scan finds exactly the parts
      it was written from. */
  lemma {:induction false} ScanHexReadsLiteral(lit: HexLiteral)
    requires IsHexLiteral(lit)
    ensures ScanHex(Spell(lit)) == Some(lit)
  {
    var t4 := lit.digits + lit.trail;
    var t3 := lit.prefix + t4;
    var t2 := lit.gap + t3;
    var t1 := lit.sign + t2;
    var s := lit.lead + t1;
    HeadCat(lit.digits, lit.trail);
    HeadCat(lit.prefix, t4);
    HeadCat(lit.gap, t3);
    HeadCat(lit.sign, t2);
    assert !IsSpace(t3[0]);
    assert lit.sign == "" ==> !IsSpace(t1[0]);
    SpaceRunOf(lit.lead, t1);
    SplitCat(lit.lead, t1);
    assert SignLength(t1) == |lit.sign|;
    SplitCat(lit.sign, t2);
    SpaceRunOf(lit.gap, t3);
    SplitCat(lit.gap, t3);
    PrefixLengthOf(lit.prefix, lit.digits, lit.trail);
    SplitCat(lit.prefix, t4);
    assert lit.trail != [] ==> IsSpace(lit.trail[0]);
    HexRunOf(lit.digits, lit.trail);
    SplitCat(lit.digits, lit.trail);
  }

  /** Every literal is accepted, with its value. */
  lemma ParseHexReadsLiteral(lit: HexLiteral)
    requires IsHexLiteral(lit)
    ensures ParseHex(Spell(lit)) == Success(LiteralValue(lit))
  {
    ScanHexReadsLiteral(lit);
  }

  /** A bare run of hexadecimal digits reads as its value. */
  lemma ParseHexDigits(s: string)
    requires s != [] && AllHex(s)
    ensures ParseHex(s) == Success(HexValue(s))
  {
    var lit := HexLiteral("", "", "", "", s, "");
    ScanHexReadsLiteral(lit);
    assert Spell(lit) == s;
  }

  /** " -0x1f " is a literal: blanks, a minus, the prefix, two digits. */
  lemma SignedPrefixedLiteral()
    ensures IsHexLiteral(HexLiteral(" ", "-", "", "0x", "1f", " "))
    ensures Spell(HexLiteral(" ", "-", "", "0x", "1f", " ")) == " -0x1f "
    ensures LiteralValue(HexLiteral(" ", "-", "", "0x", "1f", " ")) == -31
  {
    assert "1f"[..1] == "1";
    assert "1"[..0] == "";
  }

  /** Python 2 accepts blanks around the number, a sign and a "0x" prefix. */
  lemma ParseHexSignedPrefixed()
    ensures ParseHex(" -0x1f ") == Success(-31)
  {
    SignedPrefixedLiteral();
    ParseHexReadsLiteral(HexLiteral(" ", "-", "", "0x", "1f", " "));
  }

  /** "- 1" is a literal: a minus, a blank, a digit. */
  lemma BlankAfterSignLiteral()
    ensures IsHexLiteral(HexLiteral("", "-", " ", "", "1", ""))
    ensures Spell(HexLiteral("", "-", " ", "", "1", "")) == "- 1"
    ensures LiteralValue(HexLiteral("", "-", " ", "", "1", "")) == -1
  {
    assert "1"[..0] == "";
  }

  /** Blanks may separate the sign from the digits. */
  lemma ParseHexBlankAfterSign()
    ensures ParseHex("- 1") == Success(-1)
  {
    BlankAfterSignLiteral();
    ParseHexReadsLiteral(HexLiteral("", "-", " ", "", "1", ""));
  }

  /** "0x" with no digit after it is refused. */
  lemma ParseHexBarePrefix()
    ensures ParseHex("0x") == Failure(ValueError)
  {
    assert SpaceRun("0x") == 0;
    assert HexRun("0x") == 1 by {
      assert "0x"[1..] == "x";
    }
    assert SplitHex("0x").trail == "x";
  }

  /** Python slicing `s[i:j]` clamps both ends to the length. */
  function Slice(s: string, i: nat, j: nat): (t: string)
    ensures |t| <= |s|
  {
    var a := if i <= |s| then i else |s|;
    var b := if j <= |s| then j else |s|;
    if a <= b then s[a..b] else []
  }

  /** `color_html_to_cairo`: drop one leading '#', read red from characters
      0-1, green from 2-3 and blue from the rest. */
  function ColorHtmlToCairo(color: string): (r: Result<Rgb>)
    ensures color == [] ==> r == Failure(IndexError)
    ensures color != [] && r.Failure? ==> r.error == ValueError
  {
    if color == [] then Failure(IndexError)
    else
      var c := if color[0] == '#' then color[1..] else color;
      var red := ParseHex(Slice(c, 0, 2));
      var green := ParseHex(Slice(c, 2, 4));
      var blue := ParseHex(Slice(c, 4, |c|));
      if red.Failure? then Failure(red.error)
      else if green.Failure? then Failure(green.error)
      else if blue.Failure? then Failure(blue.error)
      else Success(ColorRgbToCairo(Rgb8(red.value, green.value, blue.value)))
  }

  /** "#rrggbb" and "rrggbb" give the same result. */
  lemma HashPrefixIsOptional(s: string)
    requires s != [] && s[0] != '#'
    ensures ColorHtmlToCairo(['#'] + s) == ColorHtmlToCairo(s)
  {
    assert (['#'] + s)[1..] == s;
  }

  function HexChar(d: nat): (ch: char)
    requires d < 16
    ensures IsHexDigit(ch) && DigitValue(ch) == d
  {
    if d < 10 then ('0' as int + d) as char else ('a' as int + d - 10) as char
  }

  /** Two lower-case hexadecimal digits for a byte. */
  function HexByte(v: int): (s: string)
    requires IsByte(v)
    ensures |s| == 2 && AllHex(s)
  {
    [HexChar(v / 16), HexChar(v % 16)]
  }

  /** The two digits written for a byte have the byte as their value. */
  lemma {:induction false} HexByteValue(v: int)
    requires IsByte(v)
    ensures HexValue(HexByte(v)) == v
  {
    var s := HexByte(v);
    assert s[..1] == [HexChar(v / 16)];
    assert s[..1][..0] == [];
    assert HexValue(s[..1]) == v / 16;
  }

  /** The two digits written for a byte parse back to that byte. */
  lemma ParseHexByte(v: int)
    requires IsByte(v)
    ensures ParseHex(HexByte(v)) == Success(v)
  {
    HexByteValue(v);
    ParseHexDigits(HexByte(v));
  }

  /** Writing a byte triple as "#rrggbb" and converting it back gives the
      colour `color_rgb_to_cairo` computes from the triple. */
  lemma {:induction false} HtmlColorRoundTrip(c: Rgb8)
    requires IsByte(c.r) && IsByte(c.g) && IsByte(c.b)
    ensures ColorHtmlToCairo(['#'] + HexByte(c.r) + HexByte(c.g) + HexByte(c.b))
         == Success(ColorRgbToCairo(c))
  {
    var body := HexByte(c.r) + HexByte(c.g) + HexByte(c.b);
    var html := ['#'] + body;
    assert html == ['#'] + HexByte(c.r) + HexByte(c.g) + HexByte(c.b);
    assert html[0] == '#' && html[1..] == body;
    assert Slice(body, 0, 2) == HexByte(c.r);
    assert Slice(body, 2, 4) == HexByte(c.g);
    assert Slice(body, 4, |body|) == HexByte(c.b);
    ParseHexByte(c.r);
    ParseHexByte(c.g);
    ParseHexByte(c.b);
    assert ParseHex(Slice(html[1..], 0, 2)) == Success(c.r);
    assert ParseHex(Slice(html[1..], 2, 4)) == Success(c.g);
    assert ParseHex(Slice(html[1..], 4, |html[1..]|)) == Success(c.b);
    assert ColorHtmlToCairo(html)
        == Success(ColorRgbToCairo(Rgb8(c.r, c.g, c.b)));
  }

  /** "-1" is a literal: a minus and a digit. */
  lemma MinusOneLiteral()
    ensures IsHexLiteral(HexLiteral("", "-", "", "", "1", ""))
    ensures Spell(HexLiteral("", "-", "", "", "1", "")) == "-1"
    ensures LiteralValue(HexLiteral("", "-", "", "", "1", "")) == -1
  {
    assert "1"[..0] == "";
  }

  lemma ParseHexMinusOne()
    ensures ParseHex("-1") == Success(-1)
  {
    MinusOneLiteral();
    ParseHexReadsLiteral(HexLiteral("", "-", "", "", "1", ""));
  }

  /** Since each field goes through `int(s, 16)`, a colour string may hold
      signs: "#-1-1-1" gives the channels -1, -1 and -1, outside [0, 1]
      once divided by 255. */
  lemma ColorHtmlReadsSignedFields()
    ensures ColorHtmlToCairo("#-1-1-1") == Success(ColorRgbToCairo(Rgb8(-1, -1, -1)))
    ensures ColorHtmlToCairo("#-1-1-1").value.red < 0.0
  {
    var c := "-1-1-1";
    assert "#-1-1-1"[1..] == c;
    assert Slice(c, 0, 2) == "-1" && Slice(c, 2, 4) == "-1" && Slice(c, 4, |c|) == "-1";
    ParseHexMinusOne();
  }

  /** Where `show_text` may anchor its text. */
  datatype RefPoint = RefBottomLeft | RefTopLeft | RefTopRight | RefBottomRight

  /** The shift `show_text` applies to the requested point: right-hand
      references move left by the text width, top references move down by
      the text height (cairo's y axis points down). */
  function ShowTextOffset(ref: RefPoint, textWidth: real, textHeight: real): (d: Point)
    ensures d.x == (if ref == RefTopRight || ref == RefBottomRight then -textWidth else 0.0)
    ensures d.y == (if ref == RefTopLeft || ref == RefTopRight then textHeight else 0.0)
    ensures 0.0 <= textWidth && 0.0 <= textHeight ==>
      -textWidth <= d.x <= 0.0 && 0.0 <= d.y <= textHeight
  {
    if ref == RefTopLeft then Point(0.0, textHeight)
    else if ref == RefTopRight then Point(-textWidth, textHeight)
    else if ref == RefBottomRight then Point(-textWidth, 0.0)
    else Point(0.0, 0.0)
  }

  /** The font size `show_text` selects: never below 8. */
  function ShowTextFontSize(size: real): (s: real)
    ensures s >= 8.0 && s >= size
    ensures s == size || s == 8.0
  {
    if size >= 8.0 then size else 8.0
  }

  /** The corner `ref` names of a text whose baseline starts at `p`: cairo
      draws the text rightwards from `p` and upwards from its baseline. */
  function TextCorner(p: Point, textWidth: real, textHeight: real, ref: RefPoint): Point {
    match ref
    case RefBottomLeft => p
    case RefTopLeft => Point(p.x, p.y - textHeight)
    case RefTopRight => Point(p.x + textWidth, p.y - textHeight)
    case RefBottomRight => Point(p.x + textWidth, p.y)
  }

  /** The point `show_text` moves to before drawing: the one that puts the
      named corner of the text on the requested point. */
  function ShowTextOrigin(x: real, y: real, textWidth: real, textHeight: real, ref: RefPoint): (p: Point)
    ensures TextCorner(p, textWidth, textHeight, ref) == Point(x, y)
  {
    var d := ShowTextOffset(ref, textWidth, textHeight);
    Point(x + d.x, y + d.y)
  }
}

=== FILE: charts.dfy ===
/** The parts of chart.py every chart shares: the background, whose three
    setters select one fill source each, and the title, a bold label
    centred at the top of the widget. */
module Charts {
  import opened Wrappers
  import opened Basics
  import opened Labels

  /** A png image loaded from a file. */
  datatype Surface = Surface(filename: string)

  /** What the background is filled with. */
  datatype Source =
    | SolidColor(color: Rgb)
    | VerticalGradient(top: Rgb, bottom: Rgb, height: int)  // from (0, 0) to (0, height)
    | Image(surface: Surface)                              // painted at (0, 0)

  /** One draw of the background: the source and the rectangle it fills. */
  datatype BackgroundDrawing = BackgroundDrawing(source: Source, fill: Rect)

  class Background {
    var color: Option<Rgb>
    var gradient: Option<(Rgb, Rgb)>
    var image: string
    var imageSurface: Option<Surface>
    var redrawRequested: bool

    /** At most one of colour, gradient and image file is set. */
    predicate AtMostOneSource()
      reads this
    {
      (color.Some? ==> gradient.None? && image == []) &&
      (gradient.Some? ==> image == [])
    }

    /** White, no gradient, no image. */
    constructor ()
      ensures color == Some(WHITE) && gradient == None && image == [] && imageSurface == None
      ensures AtMostOneSource() && !redrawRequested
      ensures Draw(Rect(0, 0, 0, 0)).source == SolidColor(WHITE)
    {
      color := Some(WHITE);
      gradient := None;
      image := [];
      imageSurface := None;
      redrawRequested := false;
    }

    /** `_do_draw`: the colour if one is set, else the gradient, else the
        loaded image, else white; the fill always covers (0, 0, w, h). */
    function Draw(rect: Rect): (d: BackgroundDrawing)
      reads this
      ensures d.fill == Rect(0, 0, rect.width, rect.height)
      ensures d.source.SolidColor? <==> color.Some? || (gradient.None? && imageSurface.None?)
      ensures d.source.VerticalGradient? ==> d.source.height == rect.height
      ensures d.source.Image? ==> color.None? && gradient.None? && imageSurface == Some(d.source.surface)
    {
      var source :=
        if color.Some? then SolidColor(color.value)
        else if gradient.Some? then VerticalGradient(gradient.value.0, gradient.value.1, rect.height)
        else if imageSurface.Some? then Image(imageSurface.value)
        else SolidColor(WHITE);
      BackgroundDrawing(source, Rect(0, 0, rect.width, rect.height))
    }

    /** `set_color`: the colour, and nothing else, is set; an image loaded
        earlier stays in memory but is no longer drawn. */
    method SetColor(c: Rgb)
      modifies this
      ensures color == Some(c) && gradient == None && image == []
      ensures imageSurface == old(imageSurface) && redrawRequested
      ensures AtMostOneSource()
      ensures forall rect :: Draw(rect).source == SolidColor(c)
    {
      color := Some(c);
      gradient := None;
      image := [];
      redrawRequested := true;
    }

    /** `set_gradient`: a vertical gradient from `top` to `bottom`. */
    method SetGradient(top: Rgb, bottom: Rgb)
      modifies this
      ensures color == None && gradient == Some((top, bottom)) && image == []
      ensures imageSurface == old(imageSurface) && redrawRequested
      ensures AtMostOneSource()
      ensures forall rect :: Draw(rect).source == VerticalGradient(top, bottom, rect.height)
    {
      color := None;
      gradient := Some((top, bottom));
      image := [];
      redrawRequested := true;
    }

    /** `set_image`: whether the png file could be read is an input; a file
        that fails to load leaves no surface, and the background falls back
        to white. */
    method SetImage(filename: string, loads: bool)
      modifies this
      ensures color == None && gradient == None && image == filename
      ensures imageSurface == (if loads then Some(Surface(filename)) else None)
      ensures redrawRequested && AtMostOneSource()
      ensures forall rect :: Draw(rect).source ==
                (if loads then Image(Surface(filename)) else SolidColor(WHITE))
    {
      imageSurface := if loads then Some(Surface(filename)) else None;
      color := None;
      gradient := None;
      image := filename;
      redrawRequested := true;
    }
  }

  /** Font size and anchor position of the title for a widget of the given
      size: size int(h / 50.0), at (w / 2, h / 80) in integer division. */
  datatype TitlePlacement = TitlePlacement(size: int, position: Point)

  function PlaceTitle(rect: Rect): (p: TitlePlacement)
    ensures 50 * p.size <= rect.height < 50 * (p.size + 1)
    ensures var x := p.position.x.Floor; x as real == p.position.x && 2 * x <= rect.width < 2 * x + 2
    ensures var y := p.position.y.Floor; y as real == p.position.y && 80 * y <= rect.height < 80 * y + 80
  {
    TitlePlacement(Trunc(rect.height as real / 50.0),
                   Point((rect.width / 2) as real, (rect.height / 80) as real))
  }

  /** `Title.__init__`: a bold label anchored at its top centre. */
  method NewTitle(text: string := []) returns (t: Label)
    ensures fresh(t)
    ensures t.CurrentSettings() == Settings(Point(0.0, 0.0), text, None, StyleNormal, WeightBold,
                                            UnderlineNone, ANCHOR_TOP_CENTER, 0, Rgb(0.0, 0.0, 0.0),
                                            DEFAULT_MAX_WIDTH)
  {
    t := new Label(Point(0.0, 0.0), text, weight := WeightBold, anchor := ANCHOR_TOP_CENTER);
  }

  /** `Title._do_draw`: size and position are recomputed from the widget
      before the label is drawn; the other inputs are those of DrawLabel. */
  method DrawTitle(t: Label, rect: Rect, textW: int, textH: int, wrappedW: int, wrappedH: int,
                   cosAngle: real, sinAngle: real) returns (d: LabelDrawing)
    modifies t
    ensures t.CurrentSettings() == old(t.CurrentSettings()).(size := Some(PlaceTitle(rect).size),
                                                              position := PlaceTitle(rect).position)
    ensures d.origin.x == GetTextPos(wrappedW, wrappedH, PlaceTitle(rect).position, t.anchor).x
    ensures d.origin.y == GetTextPos(wrappedW, wrappedH, PlaceTitle(rect).position, t.anchor).y - textW as real * sinAngle
    ensures t.GetRealDimensions().Success?
  {
    var placement := PlaceTitle(rect);
    t.size := Some(placement.size);
    t.position := placement.position;
    d := t.DrawLabel(rect, textW, textH, wrappedW, wrappedH, cosAngle, sinAngle);
  }

  /** A centre-anchored title of width w lies within the widget horizontally
      when w fits: its left edge is at w / 2 minus about half the text. */
  lemma TitleIsCentred(rect: Rect, w: int, h: int)
    requires 0 <= w <= rect.width
    ensures var x := GetTextPos(w, h, PlaceTitle(rect).position, ANCHOR_TOP_CENTER).x;
      0.0 <= x + 1.0 && x + w as real <= rect.width as real + 1.0
  {
  }
}

=== FILE: labels.dfy ===
/** The text labels every chart draws (label.py): the nine anchor points,
    the width available for word wrapping, the bounding box of a rotated
    label, and the Label object whose setters each update one property. */
module Labels {
  import opened Wrappers
  import opened Basics

  /** Anchor constants. Any other integer is accepted by the constructor
      and positions like ANCHOR_BOTTOM_LEFT (3 is not a constant). */
  const ANCHOR_BOTTOM_LEFT: int := 0
  const ANCHOR_TOP_LEFT: int := 1
  const ANCHOR_TOP_RIGHT: int := 2
  const ANCHOR_BOTTOM_RIGHT: int := 4
  const ANCHOR_CENTER: int := 5
  const ANCHOR_TOP_CENTER: int := 6
  const ANCHOR_BOTTOM_CENTER: int := 7
  const ANCHOR_LEFT_CENTER: int := 8
  const ANCHOR_RIGHT_CENTER: int := 9

  /** The default maximum width of a label, in pixels. */
  const DEFAULT_MAX_WIDTH: int := 99999

  datatype Slant = StyleNormal | StyleOblique | StyleItalic
  datatype Weight = WeightUltralight | WeightLight | WeightNormal | WeightBold | WeightUltrabold | WeightHeavy
  datatype Underline = UnderlineNone | UnderlineSingle | UnderlineDouble | UnderlineLow

  /** Anchors on the left edge of the text box (for the wrapping width). */
  predicate IsLeftAnchor(anchor: int) {
    anchor == ANCHOR_BOTTOM_LEFT || anchor == ANCHOR_TOP_LEFT || anchor == ANCHOR_LEFT_CENTER
  }

  /** Anchors on the right edge of the text box. */
  predicate IsRightAnchor(anchor: int) {
    anchor == ANCHOR_BOTTOM_RIGHT || anchor == ANCHOR_TOP_RIGHT || anchor == ANCHOR_RIGHT_CENTER
  }

  /** Anchors on the vertical centre line of the text box. */
  predicate IsHCentreAnchor(anchor: int) {
    anchor == ANCHOR_CENTER || anchor == ANCHOR_TOP_CENTER || anchor == ANCHOR_BOTTOM_CENTER
  }

  /** Anchors on the top edge of the text box. */
  predicate IsTopAnchor(anchor: int) {
    anchor == ANCHOR_TOP_LEFT || anchor == ANCHOR_TOP_RIGHT || anchor == ANCHOR_TOP_CENTER
  }

  /** Anchors on the horizontal centre line of the text box. */
  predicate IsVCentreAnchor(anchor: int) {
    anchor == ANCHOR_CENTER || anchor == ANCHOR_LEFT_CENTER || anchor == ANCHOR_RIGHT_CENTER
  }

  /** The horizontal shift an anchor column calls for: none on the left
      column (and for unknown anchors), the full width on the right, and
      half the width, rounded toward minus infinity, in the middle. */
  function ColumnShift(anchor: int, w: int): int {
    if IsRightAnchor(anchor) then -w
    else if IsHCentreAnchor(anchor) then (-w) / 2
    else 0
  }

  /** The vertical shift an anchor row calls for: none on the top row, the
      full height on the bottom row (and for unknown anchors), half of it
      in the middle. */
  function RowShift(anchor: int, h: int): int {
    if IsTopAnchor(anchor) then 0
    else if IsVCentreAnchor(anchor) then (-h) / 2
    else -h
  }

  /** `get_text_pos`: the point where a layout of pixel size (w, h) must be
      drawn so that its anchor point lands on (x, y). */
  function GetTextPos(w: int, h: int, pos: Point, anchor: int): (r: Point)
    ensures r == Point(pos.x + ColumnShift(anchor, w) as real, pos.y + RowShift(anchor, h) as real)
  {
    var reference :=
      if anchor == ANCHOR_TOP_LEFT then (0, 0)
      else if anchor == ANCHOR_TOP_RIGHT then (-w, 0)
      else if anchor == ANCHOR_BOTTOM_RIGHT then (-w, -h)
      else if anchor == ANCHOR_CENTER then ((-w) / 2, (-h) / 2)
      else if anchor == ANCHOR_TOP_CENTER then ((-w) / 2, 0)
      else if anchor == ANCHOR_BOTTOM_CENTER then ((-w) / 2, -h)
      else if anchor == ANCHOR_LEFT_CENTER then (0, (-h) / 2)
      else if anchor == ANCHOR_RIGHT_CENTER then (-w, (-h) / 2)
      else (0, -h);
    Point(pos.x + reference.0 as real, pos.y + reference.1 as real)
  }

  /** The corner `get_text_pos` returns lies in [x - w, x] x [y - h, y]. */
  lemma TextCornerInBox(w: int, h: int, pos: Point, anchor: int)
    requires 0 <= w && 0 <= h
    ensures var r := GetTextPos(w, h, pos, anchor);
      pos.x - w as real <= r.x <= pos.x && pos.y - h as real <= r.y <= pos.y
  {
  }

  /** A centred anchor sits on the middle of the box, up to half a pixel. */
  lemma CentreAnchorsHalveTheBox(w: int, h: int, pos: Point, anchor: int)
    requires anchor == ANCHOR_CENTER
    ensures var r := GetTextPos(w, h, pos, anchor);
      -1.0 <= 2.0 * (r.x - pos.x) + w as real <= 0.0 &&
      -1.0 <= 2.0 * (r.y - pos.y) + h as real <= 0.0
  {
  }

  /** BOTTOM_LEFT and every unknown anchor value put the text above (x, y). */
  lemma UnknownAnchorIsBottomLeft(w: int, h: int, pos: Point, anchor: int)
    requires !(IsLeftAnchor(anchor) || IsRightAnchor(anchor) || IsHCentreAnchor(anchor)) || anchor == ANCHOR_BOTTOM_LEFT
    ensures GetTextPos(w, h, pos, anchor) == Point(pos.x, pos.y - h as real)
  {
  }

  /** The width along the label direction that the wrapping may use, before
      the rotation and the maximum are applied: what is left right of x for
      left anchors, left of x for right anchors, the whole width otherwise. */
  function BaseWidth(rectWidth: int, posX: real, anchor: int): real {
    if IsLeftAnchor(anchor) then rectWidth as real - posX
    else if IsRightAnchor(anchor) then posX
    else rectWidth as real
  }

  /** The wrapping width of `_do_draw_label`: the base width scaled by the
      cosine of the rotation, capped at the label's maximum width. */
  function AvailableWidth(rectWidth: int, posX: real, anchor: int, cosAngle: real, maxWidth: int): (width: real)
    ensures width <= maxWidth as real
    ensures width <= BaseWidth(rectWidth, posX, anchor) * cosAngle
    ensures width == maxWidth as real || width == BaseWidth(rectWidth, posX, anchor) * cosAngle
  {
    Min(BaseWidth(rectWidth, posX, anchor) * cosAngle, maxWidth as real)
  }

  lemma ScaledBelow(w: real, b: real, c: real)
    requires 0.0 <= b && 0.0 <= c <= 1.0 && w <= b * c
    ensures w <= b
  {
  }

  /** For an anchor point inside the drawing area and a rotation whose cosine
      lies in [0, 1], text wrapped to the available width stays inside the
      area: a left-anchored label ends before the right edge, a right-anchored
      one starts after the left edge. */
  lemma {:induction false} AvailableWidthKeepsLabelInside(rectWidth: int, posX: real, anchor: int, cosAngle: real, maxWidth: int)
    requires 0.0 <= posX <= rectWidth as real
    requires 0.0 <= cosAngle <= 1.0
    ensures IsLeftAnchor(anchor) ==> posX + AvailableWidth(rectWidth, posX, anchor, cosAngle, maxWidth) <= rectWidth as real
    ensures IsRightAnchor(anchor) ==> posX - AvailableWidth(rectWidth, posX, anchor, cosAngle, maxWidth) >= 0.0
    ensures AvailableWidth(rectWidth, posX, anchor, cosAngle, maxWidth) <= rectWidth as real
  {
    var b := BaseWidth(rectWidth, posX, anchor);
    assert 0.0 <= b <= rectWidth as real;
    var w := AvailableWidth(rectWidth, posX, anchor, cosAngle, maxWidth);
    ScaledBelow(w, b, cosAngle);
  }

  function Abs(r: real): (a: real)
    ensures a >= 0.0 && (a == r || a == -r)
  {
    if r < 0.0 then -r else r
  }

  /** The size of the axis-aligned box around a w x h layout rotated by an
      angle with the given cosine and sine. */
  function RealDimensions(w: real, h: real, cosAngle: real, sinAngle: real): (d: (real, real))
    ensures d.0 >= 0.0 && d.1 >= 0.0
  {
    (Abs(w * cosAngle) + Abs(h * sinAngle), Abs(h * cosAngle) + Abs(w * sinAngle))
  }

  /** Unrotated, the box is the layout itself. */
  lemma RealDimensionsUnrotated(w: real, h: real)
    requires 0.0 <= w && 0.0 <= h
    ensures RealDimensions(w, h, 1.0, 0.0) == (w, h)
  {
  }

  /** A quarter turn swaps width and height. */
  lemma RealDimensionsQuarterTurn(w: real, h: real)
    requires 0.0 <= w && 0.0 <= h
    ensures RealDimensions(w, h, 0.0, 1.0) == (h, w)
  {
  }

  /** Exchanging width and height exchanges the two dimensions. */
  lemma RealDimensionsTranspose(w: real, h: real, c: real, s: real)
    ensures RealDimensions(h, w, c, s) == (RealDimensions(w, h, c, s).1, RealDimensions(w, h, c, s).0)
  {
  }

  /** The properties of a label that its setters change. */
  datatype Settings = Settings(
    position: Point,
    text: string,
    size: Option<int>,
    slant: Slant,
    weight: Weight,
    underline: Underline,
    anchor: int,
    rotation: int,
    color: Rgb,
    maxWidth: int)

  /** What one draw of a label hands to cairo and pango. */
  datatype LabelDrawing = LabelDrawing(origin: Point, wrapWidth: int)

  class Label {
    var position: Point
    var text: string
    var size: Option<int>
    var slant: Slant
    var weight: Weight
    var underline: Underline
    var anchor: int
    var rotation: int
    var color: Rgb
    var maxWidth: int
    /** The attribute the constructor assigns; nothing reads it. */
    var realDimension: (int, int)
    /** The attribute the getter reads; it exists only once a draw assigned it. */
    var realDimensions: Option<(real, real)>
    /** Set whenever a setter emits "appearance_changed". */
    var redrawRequested: bool

    function CurrentSettings(): Settings
      reads this
    {
      Settings(position, text, size, slant, weight, underline, anchor, rotation, color, maxWidth)
    }

    constructor (position: Point, text: string, size: Option<int> := None,
                 slant: Slant := StyleNormal, weight: Weight := WeightNormal,
                 underline: Underline := UnderlineNone,
                 anchor: int := ANCHOR_BOTTOM_LEFT, maxWidth: int := DEFAULT_MAX_WIDTH)
      ensures CurrentSettings() == Settings(position, text, size, slant, weight, underline,
                                            anchor, 0, Rgb(0.0, 0.0, 0.0), maxWidth)
      ensures realDimension == (0, 0)
      ensures GetRealDimensions() == Failure(AttributeError)
      ensures !redrawRequested
    {
      this.position := position;
      this.text := text;
      this.size := size;
      this.slant := slant;
      this.weight := weight;
      this.underline := underline;
      this.anchor := anchor;
      this.rotation := 0;
      this.color := Rgb(0.0, 0.0, 0.0);
      this.maxWidth := maxWidth;
      this.realDimension := (0, 0);
      this.realDimensions := None;
      this.redrawRequested := false;
    }

    /** `get_real_dimensions`: the size the label was last drawn with; before
        the first draw the attribute does not exist. */
    function GetRealDimensions(): (r: Result<(real, real)>)
      reads this
      ensures r.Success? <==> realDimensions.Some?
      ensures r.Failure? ==> r.error == AttributeError
    {
      if realDimensions.Some? then Success(realDimensions.value) else Failure(AttributeError)
    }

    method SetText(text: string)
      modifies this
      ensures CurrentSettings() == old(CurrentSettings()).(text := text)
      ensures realDimensions == old(realDimensions) && redrawRequested
    {
      this.text := text;
      redrawRequested := true;
    }

    method SetColor(color: Rgb)
      modifies this
      ensures CurrentSettings() == old(CurrentSettings()).(color := color)
      ensures realDimensions == old(realDimensions) && redrawRequested
    {
      this.color := color;
      redrawRequested := true;
    }

    method SetPosition(position: Point)
      modifies this
      ensures CurrentSettings() == old(CurrentSettings()).(position := position)
      ensures realDimensions == old(realDimensions) && redrawRequested
    {
      this.position := position;
      redrawRequested := true;
    }

    method SetAnchor(anchor: int)
      modifies this
      ensures CurrentSettings() == old(CurrentSettings()).(anchor := anchor)
      ensures realDimensions == old(realDimensions) && redrawRequested
    {
      this.anchor := anchor;
      redrawRequested := true;
    }

    method SetUnderline(underline: Underline)
      modifies this
      ensures CurrentSettings() == old(CurrentSettings()).(underline := underline)
      ensures realDimensions == old(realDimensions) && redrawRequested
    {
      this.underline := underline;
      redrawRequested := true;
    }

    method SetMaxWidth(width: int)
      modifies this
      ensures CurrentSettings() == old(CurrentSettings()).(maxWidth := width)
      ensures realDimensions == old(realDimensions) && redrawRequested
    {
      maxWidth := width;
      redrawRequested := true;
    }

    method SetRotation(angle: int)
      modifies this
      ensures CurrentSettings() == old(CurrentSettings()).(rotation := angle)
      ensures realDimensions == old(realDimensions) && redrawRequested
    {
      rotation := angle;
      redrawRequested := true;
    }

    method SetSize(size: int)
      modifies this
      ensures CurrentSettings() == old(CurrentSettings()).(size := Some(size))
      ensures realDimensions == old(realDimensions) && redrawRequested
    {
      this.size := Some(size);
      redrawRequested := true;
    }

    method SetSlant(slant: Slant)
      modifies this
      ensures CurrentSettings() == old(CurrentSettings()).(slant := slant)
      ensures realDimensions == old(realDimensions) && redrawRequested
    {
      this.slant := slant;
      redrawRequested := true;
    }

    method SetWeight(weight: Weight)
      modifies this
      ensures CurrentSettings() == old(CurrentSettings()).(weight := weight)
      ensures realDimensions == old(realDimensions) && redrawRequested
    {
      this.weight := weight;
      redrawRequested := true;
    }

    /** `_do_draw_label` for a drawing area `rect`. Pango and the trigonometry
        are inputs: (textW, textH) is the layout's pixel size before wrapping,
        (wrappedW, wrappedH) after it, and cosAngle, sinAngle are the cosine and
        sine of the rotation. The label is positioned with the wrapped size
        but lifted by the unwrapped width times the sine, and the rotated box
        of the wrapped layout is cached for `get_real_dimensions`. */
    method DrawLabel(rect: Rect, textW: int, textH: int, wrappedW: int, wrappedH: int,
                     cosAngle: real, sinAngle: real) returns (d: LabelDrawing)
      modifies this
      ensures CurrentSettings() == old(CurrentSettings())
      ensures redrawRequested == old(redrawRequested) && realDimension == old(realDimension)
      ensures d.wrapWidth == Trunc(1000.0 * AvailableWidth(rect.width, position.x, anchor, cosAngle, maxWidth))
      ensures d.origin == GetTextPos(wrappedW, wrappedH, position, anchor)
                            .(y := GetTextPos(wrappedW, wrappedH, position, anchor).y - textW as real * sinAngle)
      ensures GetRealDimensions() == Success(RealDimensions(wrappedW as real, wrappedH as real, cosAngle, sinAngle))
    {
      var width := AvailableWidth(rect.width, position.x, anchor, cosAngle, maxWidth);
      var wrapWidth := Trunc(1000.0 * width);
      var corner := GetTextPos(wrappedW, wrappedH, position, anchor);
      var y := corner.y - textW as real * sinAngle;
      d := LabelDrawing(Point(corner.x, y), wrapWidth);
      realDimensions := Some(RealDimensions(wrappedW as real, wrappedH as real, cosAngle, sinAngle));
    }
  }
}

=== FILE: line_charts.dfy ===
/** The LineChart widget of line_chart.py: the chart that owns the graphs
    and the range calculator, the two axes with their position setting,
    the rule that places an axis line or leaves it out, and the rule that
    hides the zero tick label where the two automatic axes cross. */
module LineCharts {
  import opened Wrappers
  import opened Basics
  import opened LineMapping
  import opened LineGraphs

  const POSITION_AUTO: int := 5
  const POSITION_LEFT: int := 6
  const POSITION_RIGHT: int := 7
  const POSITION_BOTTOM: int := 6
  const POSITION_TOP: int := 7

  // ---------------------------------------------------------------- axes

  /** The widget dimension an axis line is placed along: the x axis is a
      row, placed along the height; the y axis is a column. */
  function Across(rect: Rect, axis: Axis): int {
    if axis == XAxis then rect.height else rect.width
  }

  /** `XAxis._do_draw` / `YAxis._do_draw`: the row of the x axis (or the
      column of the y axis) is that of the data origin, or the band edge the
      position pins it to; the line is drawn only when that coordinate lies
      in the padded band. The origin is computed first, so a range that
      cannot be divided by raises ZeroDivisionError whatever the position. */
  function AxisOffset(rect: Rect, rg: Ranges, axis: Axis, position: int): (r: Result<Option<real>>)
    ensures r.Failure? <==> !Mappable(rg)
    ensures r.Failure? ==> r.error == ZeroDivisionError
    ensures r.Success? && r.value.Some? ==> IsInRange(r.value.value, Band(Across(rect, axis)))
    ensures Mappable(rg) && Across(rect, axis) >= 0 && (position == 6 || position == 7) ==>
              r.Success? && r.value.Some? &&
              (r.value.value == Band(Across(rect, axis)).lo || r.value.value == Band(Across(rect, axis)).hi)
  {
    if !Mappable(rg) then Failure(ZeroDivisionError)
    else
      var zero := AbsoluteZero(rect, rg);
      var band := Band(Across(rect, axis));
      var offset :=
        if axis == XAxis then
          (if position == POSITION_BOTTOM then band.hi else if position == POSITION_TOP then band.lo else zero.y)
        else
          (if position == POSITION_LEFT then band.lo else if position == POSITION_RIGHT then band.hi else zero.x);
      Success(if IsInRange(offset, band) then Some(offset) else None)
  }

  /** The data origin is the pixel of the point (0, 0). */
  lemma OriginIsZeroPoint(rect: Rect, rg: Ranges)
    requires Mappable(rg)
    ensures AbsoluteZero(rect, rg) == AbsolutePoint(rect, rg, Point(0.0, 0.0))
  {
  }

  /** With proper ranges on a non-empty widget, an axis in the automatic
      position is drawn exactly when 0 lies in the other axis's range, and
      then it passes through the data origin. */
  lemma {:induction false} AutoAxisDrawnIff(rect: Rect, rg: Ranges, axis: Axis)
    requires rect.width > 0 && rect.height > 0 && rg.x.lo < rg.x.hi && rg.y.lo < rg.y.hi
    ensures AxisOffset(rect, rg, axis, POSITION_AUTO).Success?
    ensures AxisOffset(rect, rg, axis, POSITION_AUTO).value.Some? <==>
              IsInRange(0.0, if axis == XAxis then rg.y else rg.x)
    ensures AxisOffset(rect, rg, axis, POSITION_AUTO).value.Some? ==>
              AxisOffset(rect, rg, axis, POSITION_AUTO).value.value ==
                (if axis == XAxis then AbsoluteZero(rect, rg).y else AbsoluteZero(rect, rg).x)
  {
    OriginIsZeroPoint(rect, rg);
    AbsolutePointInBandIff(rect, rg, Point(0.0, 0.0));
  }

  /** The text under a tick: a blank for the value 0 when both axes are in
      the automatic position (it would sit on the crossing of the axes),
      otherwise the axis's format function applied to the value. */
  function TicLabelText(num: real, position: int, otherPosition: int, format: real -> string): (text: string)
    ensures text != format(num) ==> text == " "
    ensures text == " " && format(num) != " " ==>
              num == 0.0 && position == POSITION_AUTO && otherPosition == POSITION_AUTO
  {
    if num == 0.0 && position == POSITION_AUTO && otherPosition == POSITION_AUTO then " " else format(num)
  }

  /** The label a zero tick would hide sits exactly at the data origin: every
      tick marking the value 0 is placed at the pixel where the two automatic
      axes cross. */
  lemma {:induction false} ZeroTickSitsAtOrigin(rect: Rect, rg: Ranges, axis: Axis, log10: real -> real, j: int)
    requires TicsOf(rect, rg, axis, log10).Success?
    requires 0 <= j < |TicsOf(rect, rg, axis, log10).value|
    requires TicsOf(rect, rg, axis, log10).value[j].num == 0.0
    ensures Mappable(rg) && TicsOf(rect, rg, axis, log10).value[j].pos == AbsoluteZero(rect, rg)
  {
    var L := TicLayoutOf(rect, rg, axis, log10).value;
    var m := MappingOf(rect, rg);
    var ms := Multipliers(m, Band(SizeOf(rect, axis)), axis, L, L.last + 1);
    var ts := TicsOf(rect, rg, axis, log10).value;
    assert ts == MakeTicks(m, axis, L, ms);
    MakeTicksIndexing(m, axis, L, ms);
    assert ts[j] == MakeTick(m, axis, L, ms[j]);
  }

  /** The tick labels of one axis, in tick order. Each label's first
      character is tested for a minus sign, so an empty text from the format
      function raises IndexError and stops the loop. */
  method TicLabels(tics: seq<Tick>, position: int, otherPosition: int, format: real -> string)
    returns (r: Result<seq<string>>)
    ensures r.Failure? <==> exists j :: 0 <= j < |tics| && TicLabelText(tics[j].num, position, otherPosition, format) == []
    ensures r.Failure? ==> r.error == IndexError
    ensures r.Success? ==> |r.value| == |tics|
    ensures r.Success? ==> forall j :: 0 <= j < |tics| ==> r.value[j] == TicLabelText(tics[j].num, position, otherPosition, format)
  {
    var labels: seq<string> := [];
    var k := 0;
    while k < |tics|
      invariant 0 <= k <= |tics| && |labels| == k
      invariant forall j :: 0 <= j < k ==> labels[j] == TicLabelText(tics[j].num, position, otherPosition, format)
      invariant forall j :: 0 <= j < k ==> labels[j] != []
    {
      var text := TicLabelText(tics[k].num, position, otherPosition, format);
      if text == [] {
        return Failure(IndexError);
      }
      labels := labels + [text];
      k := k + 1;
    }
    return Success(labels);
  }

  /** The Axis chart object: the settings `XAxis` and `YAxis` draw with. */
  class PlotAxis {
    var caption: string
    var showLabel: bool
    var position: int
    var showTics: bool
    var showTicLabels: bool
    var format: real -> string
    var visible: bool

    /** Label shown, automatic position, tics and tic labels shown; `str`
        is the default format function. */
    constructor (caption: string, str: real -> string)
      ensures this.caption == caption && showLabel && position == POSITION_AUTO
      ensures showTics && showTicLabels && format == str && visible
    {
      this.caption := caption;
      showLabel := true;
      position := POSITION_AUTO;
      showTics := true;
      showTicLabels := true;
      format := str;
      visible := true;
    }

    /** `set_position`: one of the declared positions 5 to 7. */
    method SetPosition(pos: int)
      requires POSITION_AUTO <= pos <= POSITION_RIGHT
      modifies this
      ensures position == pos && caption == old(caption) && showLabel == old(showLabel)
      ensures showTics == old(showTics) && showTicLabels == old(showTicLabels)
      ensures format == old(format) && visible == old(visible)
    {
      position := pos;
    }
  }

  /** What is drawn for one axis: its row or column, the ticks and the texts
      under them (none when tics, or tic labels, are switched off). */
  datatype AxisDrawing = AxisDrawing(offset: real, tics: seq<Tick>, labels: seq<string>)

  /** d is the drawing of `axis` with the given ticks: present exactly when
      the axis is visible and its line falls in the band. */
  predicate DrawsAxis(d: Option<AxisDrawing>, axis: PlotAxis, other: PlotAxis, rect: Rect, rg: Ranges,
                      which: Axis, tics: seq<Tick>)
    reads axis, other
  {
    (d.None? <==> !axis.visible || AxisOffset(rect, rg, which, axis.position) == Success(None)) &&
    (d.Some? ==>
       AxisOffset(rect, rg, which, axis.position) == Success(Some(d.value.offset)) &&
       d.value.tics == (if axis.showTics then tics else []) &&
       (if axis.showTics && axis.showTicLabels
        then |d.value.labels| == |tics| &&
             forall j :: 0 <= j < |tics| ==>
               d.value.labels[j] == TicLabelText(tics[j].num, axis.position, other.position, axis.format)
        else d.value.labels == []))
  }

  /** Drawing the axis raises IndexError: its tick labels are drawn and
      the format function gives the empty text for one of them. */
  predicate AxisFails(axis: PlotAxis, other: PlotAxis, rect: Rect, rg: Ranges, which: Axis, tics: seq<Tick>)
    reads axis, other
  {
    axis.visible && AxisOffset(rect, rg, which, axis.position) != Success(None) &&
    axis.showTics && axis.showTicLabels &&
    exists j :: 0 <= j < |tics| && TicLabelText(tics[j].num, axis.position, other.position, axis.format) == []
  }

  /** `XAxis.draw` / `YAxis.draw` on ranges that can be divided by. */
  method DrawAxis(axis: PlotAxis, other: PlotAxis, rect: Rect, rg: Ranges, which: Axis, tics: seq<Tick>)
    returns (d: Result<Option<AxisDrawing>>)
    requires Mappable(rg)
    ensures d.Failure? <==> AxisFails(axis, other, rect, rg, which, tics)
    ensures d.Failure? ==> d.error == IndexError
    ensures d.Success? ==> DrawsAxis(d.value, axis, other, rect, rg, which, tics)
  {
    if !axis.visible {
      return Success(None);
    }
    var offset := AxisOffset(rect, rg, which, axis.position);
    if offset.value.None? {
      return Success(None);
    }
    var labels: seq<string> := [];
    if axis.showTics && axis.showTicLabels {
      var texts := TicLabels(tics, axis.position, other.position, axis.format);
      if texts.Failure? {
        return Failure(texts.error);
      }
      labels := texts.value;
    }
    return Success(Some(AxisDrawing(offset.value.value, if axis.showTics then tics else [], labels)));
  }

  // --------------------------------------------------------------- chart

  /** What `LineChart.draw` puts on the plot after the background and the
      title: nothing, or the plot with the drawing of each shown graph, by
      name, and its two axes. */
  datatype PlotDrawing = PlotDrawing(plot: bool, graphs: map<string, GraphDrawing>,
                                     xAxis: Option<AxisDrawing>, yAxis: Option<AxisDrawing>)

  /** Every sample lies inside the other extent's widening of an extent. */
  lemma CoversWiden(s: seq<Point>, x: Option<Interval>, y: Option<Interval>,
                    x2: Option<Interval>, y2: Option<Interval>)
    requires Covers(s, x, y)
    requires x.Some? ==> x2.Some? && IsInRange(x.value.lo, x2.value) && IsInRange(x.value.hi, x2.value)
    requires y.Some? ==> y2.Some? && IsInRange(y.value.lo, y2.value) && IsInRange(y.value.hi, y2.value)
    ensures Covers(s, x2, y2)
  {
    forall p | p in s
      ensures x2.Some? && y2.Some? && IsInRange(p.x, x2.value) && IsInRange(p.y, y2.value)
    {
      assert x.Some? && y.Some? && IsInRange(p.x, x.value) && IsInRange(p.y, y.value);
    }
  }

  class LineChart {
    var graphs: map<string, Graph>
    const rangeCalc: RangeCalculator
    const xaxis: PlotAxis
    const yaxis: PlotAxis
    /** The colour palette read from the package's tango.color file. */
    const palette: seq<Rgb>

    /** Each graph is filed under its own name, takes its ranges from this
        chart's calculator, and lies inside the calculator's data extent. */
    ghost predicate Valid()
      reads this, rangeCalc, graphs.Values
    {
      rangeCalc.Valid() && |palette| > 0 &&
      forall n :: n in graphs ==>
        graphs[n].name == n && graphs[n].rangeCalc == rangeCalc &&
        Covers(graphs[n].data, rangeCalc.dataX, rangeCalc.dataY)
    }

    constructor (palette: seq<Rgb>, str: real -> string)
      requires |palette| > 0
      ensures fresh(rangeCalc) && fresh(xaxis) && fresh(yaxis) && this.palette == palette
      ensures graphs == map[] && Valid()
      ensures rangeCalc.dataX == None && rangeCalc.xRange == Auto && rangeCalc.yRange == Auto
      ensures xaxis.caption == "x" && yaxis.caption == "y"
      ensures xaxis.position == POSITION_AUTO && yaxis.position == POSITION_AUTO
    {
      graphs := map[];
      rangeCalc := new RangeCalculator();
      xaxis := new PlotAxis("x", str);
      yaxis := new PlotAxis("y", str);
      this.palette := palette;
    }

    /** `add_graph`: a graph with automatic colour gets the palette entry
        for the number of graphs already held; the graph is filed under its
        name (replacing one of the same name), and the data extent grows to
        cover its samples, which end up ordered by x, and by y among equal x. */
    method AddGraph(g: Graph)
      requires Valid()
      modifies this, g, rangeCalc
      ensures Valid()
      ensures graphs == old(graphs)[g.name := g]
      ensures g.color == (if old(g.color).ColorAuto? then Color(palette[|old(graphs)| % |palette|])
                          else old(g.color))
      ensures g.rangeCalc == rangeCalc
      ensures g.data == SortBy(SortBy(old(g.data), YCoord), XCoord)
      ensures multiset(g.data) == multiset(old(g.data)) && SortedBy(g.data, XCoord) && XYOrdered(g.data)
      ensures old(rangeCalc.dataX).Some? ==>
                rangeCalc.dataX.Some? &&
                IsInRange(old(rangeCalc.dataX).value.lo, rangeCalc.dataX.value) &&
                IsInRange(old(rangeCalc.dataX).value.hi, rangeCalc.dataX.value)
      ensures old(rangeCalc.dataY).Some? ==>
                rangeCalc.dataY.Some? &&
                IsInRange(old(rangeCalc.dataY).value.lo, rangeCalc.dataY.value) &&
                IsInRange(old(rangeCalc.dataY).value.hi, rangeCalc.dataY.value)
      ensures rangeCalc.xRange == old(rangeCalc.xRange) && rangeCalc.yRange == old(rangeCalc.yRange)
      ensures g.CurrentSettings() == old(g.CurrentSettings()).(color := g.color) && g.visible == old(g.visible)
      ensures g.redrawRequested == (old(g.redrawRequested) || old(g.color).ColorAuto?)
      ensures (rangeCalc.dataX, rangeCalc.dataY) ==
              Absorb(old(rangeCalc.dataX), old(rangeCalc.dataY), KeyExtent(old(g.data), XCoord), KeyExtent(old(g.data), YCoord))
      ensures rangeCalc.cachedXTics == old(rangeCalc.cachedXTics) && rangeCalc.cachedYTics == old(rangeCalc.cachedYTics)
    {
      ghost var color := if g.color.ColorAuto? then Color(palette[|graphs| % |palette|]) else g.color;
      if g.color.ColorAuto? {
        g.SetColor(Color(palette[|graphs| % |palette|]));
        assert g.color == g.CurrentSettings().color;
      }
      assert g.color == color;
      g.SetRangeCalc(rangeCalc);
      assert g.color == g.CurrentSettings().color;
      graphs := graphs[g.name := g];
      AbsorbSamples(g);
      assert g.color == g.CurrentSettings().color;
    }

    /** The second half of `add_graph`: the calculator takes in the samples
        of g, already filed under its name, and the graphs already held
        stay inside the widened extent. */
    method AbsorbSamples(g: Graph)
      requires rangeCalc.Valid() && |palette| > 0
      requires g.name in graphs && graphs[g.name] == g && g.rangeCalc == rangeCalc
      requires forall n :: n in graphs && n != g.name ==>
                 graphs[n].name == n && graphs[n].rangeCalc == rangeCalc &&
                 Covers(graphs[n].data, rangeCalc.dataX, rangeCalc.dataY)
      modifies g, rangeCalc
      ensures Valid()
      ensures g.CurrentSettings() == old(g.CurrentSettings()) && g.rangeCalc == old(g.rangeCalc)
      ensures g.data == SortBy(SortBy(old(g.data), YCoord), XCoord)
      ensures multiset(g.data) == multiset(old(g.data)) && SortedBy(g.data, XCoord) && XYOrdered(g.data)
      ensures old(rangeCalc.dataX).Some? ==>
                rangeCalc.dataX.Some? &&
                IsInRange(old(rangeCalc.dataX).value.lo, rangeCalc.dataX.value) &&
                IsInRange(old(rangeCalc.dataX).value.hi, rangeCalc.dataX.value)
      ensures old(rangeCalc.dataY).Some? ==>
                rangeCalc.dataY.Some? &&
                IsInRange(old(rangeCalc.dataY).value.lo, rangeCalc.dataY.value) &&
                IsInRange(old(rangeCalc.dataY).value.hi, rangeCalc.dataY.value)
      ensures rangeCalc.xRange == old(rangeCalc.xRange) && rangeCalc.yRange == old(rangeCalc.yRange)
      ensures g.visible == old(g.visible) && g.redrawRequested == old(g.redrawRequested)
      ensures (rangeCalc.dataX, rangeCalc.dataY) ==
              Absorb(old(rangeCalc.dataX), old(rangeCalc.dataY), KeyExtent(old(g.data), XCoord), KeyExtent(old(g.data), YCoord))
      ensures rangeCalc.cachedXTics == old(rangeCalc.cachedXTics) && rangeCalc.cachedYTics == old(rangeCalc.cachedYTics)
    {
      ghost var oldX, oldY := rangeCalc.dataX, rangeCalc.dataY;
      rangeCalc.AddGraph(g);
      forall n | n in graphs && n != g.name
        ensures Covers(graphs[n].data, rangeCalc.dataX, rangeCalc.dataY)
      {
        var h := graphs[n];
        assert h.name == n && h != g;
        assert h.data == old(h.data);
        CoversWiden(h.data, oldX, oldY, rangeCalc.dataX, rangeCalc.dataY);
      }
    }

    /** `set_xrange`. */
    method SetXRange(setting: AxisRange)
      modifies rangeCalc
      ensures rangeCalc.xRange == setting && rangeCalc.yRange == old(rangeCalc.yRange)
      ensures rangeCalc.dataX == old(rangeCalc.dataX) && rangeCalc.dataY == old(rangeCalc.dataY)
    {
      rangeCalc.SetXRange(setting);
    }

    /** `set_yrange`. */
    method SetYRange(setting: AxisRange)
      modifies rangeCalc
      ensures rangeCalc.yRange == setting && rangeCalc.xRange == old(rangeCalc.xRange)
      ensures rangeCalc.dataX == old(rangeCalc.dataX) && rangeCalc.dataY == old(rangeCalc.dataY)
    {
      rangeCalc.SetYRange(setting);
    }

    /** Some graph has samples. */
    predicate DataAvailable()
      reads this, graphs.Values
    {
      exists n :: n in graphs && graphs[n].HasSomethingToDraw()
    }

    /** The loop of `draw` that looks for a graph with something to draw and
        stops at the first. */
    method FindData() returns (available: bool)
      ensures available <==> DataAvailable()
    {
      var rest := graphs.Keys;
      available := false;
      while rest != {}
        invariant rest <= graphs.Keys
        invariant forall n :: n in graphs && n !in rest ==> !graphs[n].HasSomethingToDraw()
        decreases rest
      {
        var n :| n in rest;
        if graphs[n].HasSomethingToDraw() {
          return true;
        }
        rest := rest - {n};
      }
    }

    /** What drawing the graphs may yield: a failure carries the error of
        some shown graph, and a success holds, for every shown graph and
        only for those, the drawing that graph makes of itself. */
    ghost predicate DrawsGraphs(r: Result<map<string, GraphDrawing>>, rect: Rect, titleHeight: string -> real)
      reads this, graphs.Values
      reads set g, o | g in graphs.Values && o in g.FillFootprint() :: o
      reads set g | g in graphs.Values && g.rangeCalc != null :: g.rangeCalc
    {
      match r
      case Failure(e) =>
        exists n :: n in graphs && graphs[n].visible &&
                    graphs[n].DrawSpec(rect, titleHeight(graphs[n].title)) == Failure(e)
      case Success(m) =>
        m.Keys == (set n | n in graphs && graphs[n].visible) &&
        forall n :: n in m && n in graphs ==>
          graphs[n].DrawSpec(rect, titleHeight(graphs[n].title)) == Success(m[n])
    }

    /** Drawing the graphs fails exactly when some shown graph fails to
        draw itself. */
    lemma DrawsGraphsFailsExactly(r: Result<map<string, GraphDrawing>>, rect: Rect, titleHeight: string -> real)
      requires DrawsGraphs(r, rect, titleHeight)
      ensures r.Failure? <==> exists n :: n in graphs && graphs[n].visible &&
                                          graphs[n].DrawSpec(rect, titleHeight(graphs[n].title)).Failure?
    {
      if r.Success? {
        forall n | n in graphs && graphs[n].visible
          ensures graphs[n].DrawSpec(rect, titleHeight(graphs[n].title)).Success?
        {
          assert n in r.value.Keys;
        }
      }
    }

    /** `_do_draw_graphs`: every graph is drawn, in the dictionary's order,
        which Python leaves unspecified; a hidden graph draws nothing. The
        first graph that raises stops the loop with its error, so the loop
        fails exactly when some shown graph's drawing fails. Each graph's
        `draw` is taken as `Graph.DrawSpec`, the outcome `Graph.Draw` is
        proved to compute. */
    method DrawGraphs(rect: Rect, titleHeight: string -> real) returns (r: Result<map<string, GraphDrawing>>)
      ensures DrawsGraphs(r, rect, titleHeight)
    {
      ghost var spec := map n | n in graphs :: graphs[n].DrawSpec(rect, titleHeight(graphs[n].title));
      var drawn: map<string, GraphDrawing> := map[];
      var rest := graphs.Keys;
      while rest != {}
        invariant rest <= graphs.Keys
        invariant drawn.Keys == (set n | n in graphs && n !in rest && graphs[n].visible)
        invariant forall n :: n in drawn ==> n in spec && spec[n] == Success(drawn[n])
        decreases rest
      {
        var n :| n in rest;
        var g := graphs[n];
        if g.visible {
          var d := g.DrawSpec(rect, titleHeight(g.title));
          if d.Failure? {
            return Failure(d.error);
          }
          drawn := drawn[n := d.value];
        }
        rest := rest - {n};
      }
      return Success(drawn);
    }

    /** `draw`: the ticks are prepared first, so a chart whose automatic
        range has no data yet raises there; the plot (grid, graphs, axes) is
        drawn only when some graph has samples; a graph that raises stops
        it, and so does an axis whose tick label comes out empty. The
        height of each graph's title is a parameter, since cairo measures
        it. */
    method Draw(rect: Rect, log10: real -> real, titleHeight: string -> real) returns (r: Result<PlotDrawing>)
      modifies rangeCalc
      ensures rangeCalc.Ranges() == old(rangeCalc.Ranges())
      ensures TicsError(rect, rangeCalc.Ranges(), log10).Some? ==>
                r == Failure(TicsError(rect, rangeCalc.Ranges(), log10).value)
      ensures TicsError(rect, rangeCalc.Ranges(), log10).None? ==>
                rangeCalc.cachedXTics == TicsOf(rect, rangeCalc.Ranges().value, XAxis, log10).value &&
                rangeCalc.cachedYTics == TicsOf(rect, rangeCalc.Ranges().value, YAxis, log10).value
      ensures TicsError(rect, rangeCalc.Ranges(), log10).None? && !DataAvailable() ==>
                r == Success(PlotDrawing(false, map[], None, None))
      ensures TicsError(rect, rangeCalc.Ranges(), log10).None? && DataAvailable() && r.Failure? ==>
                DrawsGraphs(Failure(r.error), rect, titleHeight) ||
                (r.error == IndexError &&
                 (AxisFails(xaxis, yaxis, rect, rangeCalc.Ranges().value, XAxis, rangeCalc.cachedXTics) ||
                  AxisFails(yaxis, xaxis, rect, rangeCalc.Ranges().value, YAxis, rangeCalc.cachedYTics)))
      ensures TicsError(rect, rangeCalc.Ranges(), log10).None? && DataAvailable() &&
              (exists n :: n in graphs && graphs[n].visible &&
                           graphs[n].DrawSpec(rect, titleHeight(graphs[n].title)).Failure?) ==>
                r.Failure? && DrawsGraphs(Failure(r.error), rect, titleHeight)
      ensures TicsError(rect, rangeCalc.Ranges(), log10).None? && DataAvailable() &&
              (AxisFails(xaxis, yaxis, rect, rangeCalc.Ranges().value, XAxis, rangeCalc.cachedXTics) ||
               AxisFails(yaxis, xaxis, rect, rangeCalc.Ranges().value, YAxis, rangeCalc.cachedYTics)) ==>
                r.Failure?
      ensures r.Success? ==> (r.value.plot <==> DataAvailable())
      ensures r.Success? && r.value.plot ==>
                DrawsGraphs(Success(r.value.graphs), rect, titleHeight) &&
                DrawsAxis(r.value.xAxis, xaxis, yaxis, rect, rangeCalc.Ranges().value, XAxis, rangeCalc.cachedXTics) &&
                DrawsAxis(r.value.yAxis, yaxis, xaxis, rect, rangeCalc.Ranges().value, YAxis, rangeCalc.cachedYTics)
    {
      var err := rangeCalc.PrepareTics(rect, log10);
      if err.Some? {
        return Failure(err.value);
      }
      var available := FindData();
      if !(graphs != map[] && available) {
        return Success(PlotDrawing(false, map[], None, None));
      }
      // The axes are computed before the graphs here and drawn after them
      // in the picture; neither depends on the other.
      var rg := rangeCalc.Ranges().value;
      var xa := DrawAxis(xaxis, yaxis, rect, rg, XAxis, rangeCalc.cachedXTics);
      var ya := DrawAxis(yaxis, xaxis, rect, rg, YAxis, rangeCalc.cachedYTics);
      var drawn := DrawGraphs(rect, titleHeight);
      DrawsGraphsFailsExactly(drawn, rect, titleHeight);
      if drawn.Failure? {
        return Failure(drawn.error);
      }
      if xa.Failure? {
        return Failure(xa.error);
      }
      if ya.Failure? {
        return Failure(ya.error);
      }
      return Success(PlotDrawing(true, drawn.value, xa.value, ya.value));
    }
  }
}

=== FILE: line_files.dfy ===
/** Reading a graph from the text of a data file, as `graph_new_from_file`
    in line_chart.py does: each line is stripped, everything from the first
    '#' on is dropped, the rest is split on tabs when it has one and on runs
    of spaces otherwise, and two of the fields become a point. */
module LineFiles {
  import opened Wrappers
  import opened Basics
  import opened LineGraphs

  /** The characters Python's `str.strip()` removes. */
  predicate IsSpace(ch: char) {
    ch == ' ' || ch == '\t' || ch == '\n' || ch == '\r' || ch as int == 11 || ch as int == 12
  }

  predicate AllSpace(s: string) {
    forall k :: 0 <= k < |s| ==> IsSpace(s[k])
  }

  function StripLeft(s: string): (r: string)
    ensures |r| <= |s| && r == s[|s| - |r|..]
    ensures AllSpace(s[..|s| - |r|])
    ensures r == [] || !IsSpace(r[0])
  {
    if s != [] && IsSpace(s[0]) then
      var r := StripLeft(s[1..]);
      assert s[1..][..|s[1..]| - |r|] == s[1..|s| - |r|];
      r
    else s
  }

  function StripRight(s: string): (r: string)
    ensures |r| <= |s| && r == s[..|r|]
    ensures AllSpace(s[|r|..])
    ensures r == [] || !IsSpace(r[|r| - 1])
  {
    if s != [] && IsSpace(s[|s| - 1]) then
      var t := s[..|s| - 1];
      var r := StripRight(t);
      assert s[|r|..] == t[|r|..] + [s[|s| - 1]];
      r
    else s
  }

  /** `str.strip()`: a middle part of s, with only whitespace cut off on
      either side and no whitespace left at either end. */
  function Strip(s: string): (r: string)
    ensures exists i, j :: 0 <= i <= j <= |s| && r == s[i..j] && AllSpace(s[..i]) && AllSpace(s[j..])
    ensures r == [] || (!IsSpace(r[0]) && !IsSpace(r[|r| - 1]))
  {
    var left := StripLeft(s);
    var r := StripRight(left);
    var i := |s| - |left|;
    assert r == s[i..i + |r|];
    assert left[|r|..] == s[i + |r|..];
    r
  }

  /** `s.split(ch, 1)[0]`: the text before the first ch, or all of s. */
  function BeforeFirst(s: string, ch: char): (r: string)
    ensures |r| <= |s| && r == s[..|r|] && ch !in r
    ensures |r| < |s| ==> s[|r|] == ch
  {
    if s == [] || s[0] == ch then []
    else
      var r := BeforeFirst(s[1..], ch);
      assert s[..|r| + 1] == [s[0]] + r;
      [s[0]] + r
  }

  /** `s.split(sep)`: the pieces between the separators, empty ones included;
      always at least one piece. */
  function Split(s: string, sep: char): (r: seq<string>)
    ensures |r| >= 1
    ensures forall k :: 0 <= k < |r| ==> sep !in r[k]
  {
    if s == [] then [[]]
    else
      var rest := Split(s[1..], sep);
      if s[0] == sep then [[]] + rest
      else [[s[0]] + rest[0]] + rest[1..]
  }

  /** `sep.join(parts)`. */
  function Join(parts: seq<string>, sep: char): string
    requires |parts| >= 1
  {
    if |parts| == 1 then parts[0] else parts[0] + [sep] + Join(parts[1..], sep)
  }

  /** Splitting loses nothing: joining the pieces with the separator gives
      the text back. */
  lemma {:induction false} JoinSplit(s: string, sep: char)
    ensures Join(Split(s, sep), sep) == s
  {
    if s != [] {
      JoinSplit(s[1..], sep);
      var rest := Split(s[1..], sep);
      if s[0] == sep {
        assert ([[]] + rest)[1..] == rest;
      } else {
        var r := [[s[0]] + rest[0]] + rest[1..];
        assert r[1..] == rest[1..];
        if |rest| > 1 {
          assert Join(rest, sep) == rest[0] + [sep] + Join(rest[1..], sep);
        }
      }
    }
  }

  /** And the pieces are exactly what was joined, when none of them holds the
      separator. */
  lemma {:induction false} SplitJoin(parts: seq<string>, sep: char)
    requires |parts| >= 1 && forall k :: 0 <= k < |parts| ==> sep !in parts[k]
    ensures Split(Join(parts, sep), sep) == parts
  {
    if |parts| == 1 {
      SplitNoSeparator(parts[0], sep);
    } else {
      SplitJoin(parts[1..], sep);
      SplitAppend(parts[0], Join(parts[1..], sep), sep);
      assert [parts[0]] + parts[1..] == parts;
    }
  }

  /** A text with no separator is a single piece. */
  lemma {:induction false} SplitNoSeparator(s: string, sep: char)
    requires sep !in s
    ensures Split(s, sep) == [s]
  {
    if s != [] {
      SplitNoSeparator(s[1..], sep);
      assert [s[0]] + s[1..] == s;
    }
  }

  /** A separator after a piece without one starts a new piece. */
  lemma {:induction false} SplitAppend(a: string, b: string, sep: char)
    requires sep !in a
    ensures Split(a + [sep] + b, sep) == [a] + Split(b, sep)
  {
    if a == [] {
      assert a + [sep] + b == [sep] + b;
      assert ([sep] + b)[1..] == b;
    } else {
      SplitAppend(a[1..], b, sep);
      assert (a + [sep] + b)[1..] == a[1..] + [sep] + b;
      assert [a[0]] + a[1..] == a;
    }
  }

  /** `filter(lambda x: x, d)`: the pieces that are not empty. */
  function NonEmpty(d: seq<string>): (r: seq<string>)
    ensures |r| <= |d|
    ensures forall k :: 0 <= k < |r| ==> r[k] != [] && r[k] in d
  {
    if d == [] then []
    else (if d[0] == [] then [] else [d[0]]) + NonEmpty(d[1..])
  }

  /** The fields of a line when spaces separate them. */
  function Tokens(s: string): seq<string> {
    NonEmpty(Split(s, ' '))
  }

  /** `line.find("  ") != -1`. */
  predicate HasDoubleSpace(s: string) {
    exists i :: 0 <= i < |s| - 1 && s[i] == ' ' && s[i + 1] == ' '
  }

  /** `line.replace("  ", " ")`: each pair of spaces, taken left to right
      without overlap, becomes one space. */
  function Replace2(s: string): (r: string)
    ensures |r| <= |s|
    ensures HasDoubleSpace(s) ==> |r| < |s|
  {
    if |s| >= 2 && s[0] == ' ' && s[1] == ' ' then [' '] + Replace2(s[2..])
    else if s == [] then []
    else
      assert HasDoubleSpace(s) ==> HasDoubleSpace(s[1..]) by {
        if HasDoubleSpace(s) {
          var i :| 0 <= i < |s| - 1 && s[i] == ' ' && s[i + 1] == ' ';
          assert i >= 1 && s[1..][i - 1] == ' ' && s[1..][i] == ' ';
        }
      }
      [s[0]] + Replace2(s[1..])
  }

  /** Replacing a pair of spaces by one keeps the first piece and the
      non-empty later pieces. */
  lemma {:induction false} Replace2KeepsPieces(s: string)
    ensures Split(Replace2(s), ' ')[0] == Split(s, ' ')[0]
    ensures NonEmpty(Split(Replace2(s), ' ')[1..]) == NonEmpty(Split(s, ' ')[1..])
  {
    if s == [] {
    } else if s[0] == ' ' {
      var t := if |s| >= 2 && s[1] == ' ' then s[2..] else s[1..];
      Replace2KeepsPieces(t);
      assert Replace2(s) == [' '] + Replace2(t);
      assert ([' '] + Replace2(t))[1..] == Replace2(t);
      NonEmptyHead(Split(Replace2(t), ' '));
      NonEmptyHead(Split(t, ' '));
      if |s| >= 2 && s[1] == ' ' {
        assert s[1..][1..] == t;
        assert Split(s, ' ') == [[]] + ([[]] + Split(t, ' '));
        assert NonEmpty(([[]] + Split(t, ' '))) == NonEmpty(Split(t, ' '));
      } else {
        assert Split(s, ' ') == [[]] + Split(t, ' ');
      }
      assert (([[]] + Split(Replace2(t), ' '))[1..]) == Split(Replace2(t), ' ');
    } else {
      Replace2KeepsPieces(s[1..]);
      assert Replace2(s) == [s[0]] + Replace2(s[1..]);
      assert ([s[0]] + Replace2(s[1..]))[1..] == Replace2(s[1..]);
    }
  }

  /** NonEmpty peels off the first piece. */
  lemma NonEmptyHead(d: seq<string>)
    requires |d| >= 1
    ensures NonEmpty(d) == (if d[0] == [] then [] else [d[0]]) + NonEmpty(d[1..])
  {
  }

  /** Collapsing a pair of spaces changes no field. */
  lemma {:induction false} Replace2KeepsTokens(s: string)
    ensures Tokens(Replace2(s)) == Tokens(s)
  {
    Replace2KeepsPieces(s);
    NonEmptyHead(Split(Replace2(s), ' '));
    NonEmptyHead(Split(s, ' '));
  }

  /** The `while line.find("  ") != -1` loop: runs of spaces are collapsed
      until no two spaces are adjacent, and the fields stay the same. */
  method CollapseSpaces(line: string) returns (r: string)
    ensures !HasDoubleSpace(r)
    ensures Tokens(r) == Tokens(line)
  {
    r := line;
    while HasDoubleSpace(r)
      invariant Tokens(r) == Tokens(line)
      decreases |r|
    {
      Replace2KeepsTokens(r);
      r := Replace2(r);
    }
  }

  /** The fields of one line, or None for a line that is skipped because
      nothing is left of it once stripped and cut at the first '#'. */
  function LineFields(line: string): (r: Option<seq<string>>)
    ensures r.None? <==> BeforeFirst(Strip(line), '#') == []
  {
    var content := BeforeFirst(Strip(line), '#');
    if content == [] then None
    else if '\t' in content then Some(NonEmpty(Split(content, '\t')))
    else Some(Tokens(content))
  }

  /** No field is empty or holds a '#'; with a tab in the line no field
      holds a tab, and without one no field holds a space or a tab. */
  lemma FieldsAreClean(line: string)
    requires LineFields(line).Some?
    ensures var content := BeforeFirst(Strip(line), '#');
            var fs := LineFields(line).value;
            forall k :: 0 <= k < |fs| ==>
              fs[k] != [] && '#' !in fs[k] && '\t' !in fs[k] && ('\t' !in content ==> ' ' !in fs[k])
  {
    var content := BeforeFirst(Strip(line), '#');
    var fs := LineFields(line).value;
    forall k | 0 <= k < |fs|
      ensures '#' !in fs[k] && '\t' !in fs[k] && ('\t' !in content ==> ' ' !in fs[k])
    {
      var sep := if '\t' in content then '\t' else ' ';
      var pieces := Split(content, sep);
      assert fs[k] in pieces;
      var j :| 0 <= j < |pieces| && pieces[j] == fs[k];
      PieceOfText(content, sep, j);
    }
  }

  /** Every piece is a stretch of the text. */
  lemma {:induction false} PieceOfText(s: string, sep: char, j: int)
    requires 0 <= j < |Split(s, sep)|
    ensures forall ch :: ch in Split(s, sep)[j] ==> ch in s
  {
    if s != [] {
      var rest := Split(s[1..], sep);
      if s[0] == sep {
        if j > 0 {
          PieceOfText(s[1..], sep, j - 1);
        }
      } else {
        if j == 0 {
          PieceOfText(s[1..], sep, 0);
        } else {
          PieceOfText(s[1..], sep, j);
        }
      }
    }
  }

  /** The body of the line loop up to the conversion: the collapsing loop
      runs only when the line has no tab. */
  method TokeniseLine(line: string) returns (r: Option<seq<string>>)
    ensures r == LineFields(line)
  {
    var content := BeforeFirst(Strip(line), '#');
    if content == [] {
      return None;
    }
    if '\t' in content {
      return Some(NonEmpty(Split(content, '\t')));
    }
    var collapsed := CollapseSpaces(content);
    return Some(NonEmpty(Split(collapsed, ' ')));
  }

  /** `map(float, d)`: every field converted, or None when one of them is not
      a number. The conversion is a parameter. */
  function ParseAll(fields: seq<string>, parse: string -> Option<real>): (r: Option<seq<real>>)
    ensures r.Some? <==> forall k :: 0 <= k < |fields| ==> parse(fields[k]).Some?
    ensures r.Some? ==> |r.value| == |fields| &&
                        forall k :: 0 <= k < |fields| ==> r.value[k] == parse(fields[k]).value
  {
    if fields == [] then Some([])
    else
      var head := parse(fields[0]);
      var rest := ParseAll(fields[1..], parse);
      if head.None? then None
      else if rest.None? then
        assert exists k :: 1 <= k < |fields| && parse(fields[k]).None? by {
          var k :| 0 <= k < |fields[1..]| && parse(fields[1..][k]).None?;
          assert fields[k + 1] == fields[1..][k];
        }
        None
      else Some([head.value] + rest.value)
  }

  /** Python list indexing: a negative index counts from the end; anything
      outside raises IndexError. */
  function PyIndex(v: seq<real>, i: int): (r: Result<real>)
    ensures r.Success? <==> -|v| <= i < |v|
    ensures 0 <= i < |v| ==> r == Success(v[i])
    ensures -|v| <= i < 0 ==> r == Success(v[|v| + i])
    ensures r.Failure? ==> r.error == IndexError
  {
    if 0 <= i < |v| then Success(v[i])
    else if -|v| <= i < 0 then Success(v[|v| + i])
    else Failure(IndexError)
  }

  /** One line: skipped, a point from columns xCol and yCol, ValueError when
      a field is not a number, IndexError when a column is missing. */
  function LinePoint(line: string, xCol: int, yCol: int, parse: string -> Option<real>): (r: Result<Option<Point>>)
    ensures LineFields(line).None? ==> r == Success(None)
    ensures r.Success? && r.value.Some? ==>
              (LineFields(line).Some? &&
               var fs := LineFields(line).value;
               (-|fs| <= xCol < |fs|) && (-|fs| <= yCol < |fs|))
  {
    match LineFields(line)
    case None => Success(None)
    case Some(fs) =>
      match ParseAll(fs, parse)
      case None => Failure(ValueError)
      case Some(values) =>
        var x := PyIndex(values, xCol);
        var y := PyIndex(values, yCol);
        if x.Failure? then Failure(x.error)
        else if y.Failure? then Failure(y.error)
        else Success(Some(Point(x.value, y.value)))
  }

  /** The points of the first lines, or the error of the first line that
      raises. */
  function PointsOf(lines: seq<string>, xCol: int, yCol: int, parse: string -> Option<real>): (r: Result<seq<Point>>)
    ensures r.Success? ==> |r.value| <= |lines|
  {
    if lines == [] then Success([])
    else
      Extend(PointsOf(lines[..|lines| - 1], xCol, yCol, parse),
             LinePoint(lines[|lines| - 1], xCol, yCol, parse))
  }

  /** The points so far, followed by the outcome of one more line. */
  function Extend(before: Result<seq<Point>>, last: Result<Option<Point>>): (r: Result<seq<Point>>)
    ensures before.Success? && r.Success? ==> |r.value| <= |before.value| + 1
  {
    if before.Failure? then before
    else if last.Failure? then Failure(last.error)
    else Success(before.value + Contributed(last.value))
  }

  /** The point a line contributes, if any. */
  function Contributed(o: Option<Point>): (ps: seq<Point>)
    ensures o.None? <==> ps == []
    ensures o.Some? ==> ps == [o.value]
  {
    if o.Some? then [o.value] else []
  }

  /** One more line extends the points of the lines before it. */
  lemma PointsOfStep(lines: seq<string>, i: int, xCol: int, yCol: int, parse: string -> Option<real>)
    requires 0 <= i < |lines|
    ensures PointsOf(lines[..i + 1], xCol, yCol, parse) ==
              Extend(PointsOf(lines[..i], xCol, yCol, parse), LinePoint(lines[i], xCol, yCol, parse))
  {
    assert lines[..i + 1][..i] == lines[..i];
  }

  /** Once a line raises, the lines after it do not matter. */
  lemma {:induction false} FailureIsFinal(lines: seq<string>, n: int, xCol: int, yCol: int,
                                          parse: string -> Option<real>)
    requires 0 <= n <= |lines| && PointsOf(lines[..n], xCol, yCol, parse).Failure?
    ensures PointsOf(lines, xCol, yCol, parse) == PointsOf(lines[..n], xCol, yCol, parse)
    decreases |lines| - n
  {
    if n < |lines| {
      PointsOfStep(lines, n, xCol, yCol, parse);
      FailureIsFinal(lines, n + 1, xCol, yCol, parse);
    } else {
      assert lines[..n] == lines;
    }
  }

  /** The body of the line loop: tokenise, convert every field, pick the
      two columns. */
  method ReadLine(line: string, xCol: int, yCol: int, parse: string -> Option<real>) returns (r: Result<Option<Point>>)
    ensures r == LinePoint(line, xCol, yCol, parse)
  {
    var fields := TokeniseLine(line);
    if fields.None? {
      return Success(None);
    }
    var values := ParseAll(fields.value, parse);
    if values.None? {
      return Failure(ValueError);
    }
    var x := PyIndex(values.value, xCol);
    if x.Failure? {
      return Failure(x.error);
    }
    var y := PyIndex(values.value, yCol);
    if y.Failure? {
      return Failure(y.error);
    }
    return Success(Some(Point(x.value, y.value)));
  }

  /** The line loop of `graph_new_from_file`, on the text of the file. */
  method ReadPoints(lines: seq<string>, xCol: int, yCol: int, parse: string -> Option<real>) returns (r: Result<seq<Point>>)
    ensures r == PointsOf(lines, xCol, yCol, parse)
  {
    var points: seq<Point> := [];
    var i := 0;
    assert lines[..0] == [];
    assert PointsOf(lines[..0], xCol, yCol, parse) == Success([]);
    while i < |lines|
      invariant 0 <= i <= |lines|
      invariant PointsOf(lines[..i], xCol, yCol, parse) == Success(points)
    {
      var p := ReadLine(lines[i], xCol, yCol, parse);
      PointsOfStep(lines, i, xCol, yCol, parse);
      assert PointsOf(lines[..i + 1], xCol, yCol, parse) == Extend(Success(points), p);
      if p.Failure? {
        FailureIsFinal(lines, i + 1, xCol, yCol, parse);
        return Failure(p.error);
      }
      points := points + Contributed(p.value);
      assert PointsOf(lines[..i + 1], xCol, yCol, parse) == Success(points);
      i := i + 1;
    }
    assert lines[..|lines|] == lines;
    return Success(points);
  }

  /** `graph_new_from_file` on the text of the file: a graph with an empty
      title holding the points read. */
  method GraphNewFromText(text: string, graphName: string, parse: string -> Option<real>,
                          xCol: int := 0, yCol: int := 1) returns (r: Result<Graph>)
    ensures r.Failure? <==> PointsOf(Split(text, '\n'), xCol, yCol, parse).Failure?
    ensures r.Failure? ==> r.error == PointsOf(Split(text, '\n'), xCol, yCol, parse).error
    ensures r.Success? ==> fresh(r.value) && r.value.name == graphName && r.value.title == [] &&
                           r.value.data == PointsOf(Split(text, '\n'), xCol, yCol, parse).value
  {
    var points := ReadPoints(Split(text, '\n'), xCol, yCol, parse);
    if points.Failure? {
      return Failure(points.error);
    }
    var g := new Graph(graphName, [], points.value);
    return Success(g);
  }
}

=== FILE: line_graphs.dfy ===
/** The graphs of line_chart.py and the RangeCalculator they share: the data
    extent each graph reports after sorting its samples, the running extent
    of all graphs, the polyline that breaks at every sample outside the
    visible ranges, and the polygon that fills the space under a graph. */
module LineGraphs {
  import opened Wrappers
  import opened Basics
  import opened LineMapping

  const GRAPH_POINTS: int := 1
  const GRAPH_LINES: int := 2
  const GRAPH_BOTH: int := 3

  // ------------------------------------------------------------- sorting

  /** The coordinate a sort or an extent looks at. */
  datatype Coord = XCoord | YCoord

  function Key(p: Point, c: Coord): real {
    if c == XCoord then p.x else p.y
  }

  predicate SortedBy(s: seq<Point>, c: Coord) {
    forall i, j :: 0 <= i < j < |s| ==> Key(s[i], c) <= Key(s[j], c)
  }

  /** Puts p in front of the first sample whose key is not smaller. */
  function Insert(p: Point, s: seq<Point>, c: Coord): (r: seq<Point>)
    requires SortedBy(s, c)
    ensures |r| == |s| + 1 && multiset(r) == multiset(s) + multiset{p}
    ensures r[0] == p || (s != [] && r[0] == s[0])
    ensures SortedBy(r, c)
  {
    if s == [] || Key(p, c) <= Key(s[0], c) then
      ConsSorted(p, s, c);
      [p] + s
    else
      var t := Insert(p, s[1..], c);
      assert s == [s[0]] + s[1..];
      ConsSorted(s[0], t, c);
      [s[0]] + t
  }

  /** A sorted sequence stays sorted under a head no larger than its
      first element. */
  lemma ConsSorted(x: Point, t: seq<Point>, c: Coord)
    requires SortedBy(t, c) && (t == [] || Key(x, c) <= Key(t[0], c))
    ensures SortedBy([x] + t, c)
  {
    var r := [x] + t;
    forall i, j | 0 <= i < j < |r|
      ensures Key(r[i], c) <= Key(r[j], c)
    {
      assert r[j] == t[j - 1];
      if i > 0 {
        assert r[i] == t[i - 1];
      }
    }
  }

  /** `list.sort` with a key comparison: the samples ordered by the key. */
  function SortBy(s: seq<Point>, c: Coord): (r: seq<Point>)
    ensures SortedBy(r, c) && multiset(r) == multiset(s) && |r| == |s|
  {
    if s == [] then []
    else
      assert s == [s[0]] + s[1..];
      Insert(s[0], SortBy(s[1..], c), c)
  }

  /** [x] when x has key k, [] otherwise. */
  function IfKey(x: Point, c: Coord, k: real): seq<Point> {
    if Key(x, c) == k then [x] else []
  }

  /** The samples of s whose key is k, in their order in s. */
  function WithKey(s: seq<Point>, c: Coord, k: real): seq<Point> {
    if s == [] then [] else IfKey(s[0], c, k) + WithKey(s[1..], c, k)
  }

  lemma WithKeyCons(x: Point, t: seq<Point>, c: Coord, k: real)
    ensures WithKey([x] + t, c, k) == IfKey(x, c, k) + WithKey(t, c, k)
  {
    assert ([x] + t)[1..] == t;
  }

  /** One step of Insert past a head with a smaller key. */
  lemma InsertPast(p: Point, s: seq<Point>, c: Coord)
    requires SortedBy(s, c) && s != [] && Key(p, c) > Key(s[0], c)
    ensures SortedBy(s[1..], c) && Insert(p, s, c) == [s[0]] + Insert(p, s[1..], c)
  {
  }

  /** Two samples of different keys can be swapped without changing the
      samples of any one key. */
  lemma IfKeySwap(a: Point, b: Point, w: seq<Point>, c: Coord, k: real)
    requires Key(a, c) != Key(b, c)
    ensures IfKey(a, c, k) + (IfKey(b, c, k) + w) == IfKey(b, c, k) + (IfKey(a, c, k) + w)
  {
    if Key(a, c) != k {
      assert IfKey(a, c, k) == [];
    } else {
      assert IfKey(b, c, k) == [];
    }
  }

  /** Insert places p before every sample of equal key, which is where it
      stood in [p] + s: the samples of any one key keep their order. */
  lemma {:induction false} InsertKeepsKeyOrder(p: Point, s: seq<Point>, c: Coord, k: real)
    requires SortedBy(s, c)
    ensures WithKey(Insert(p, s, c), c, k) == WithKey([p] + s, c, k)
  {
    if s == [] || Key(p, c) <= Key(s[0], c) {
      assert Insert(p, s, c) == [p] + s;
    } else {
      var rest := s[1..];
      InsertPast(p, s, c);
      InsertKeepsKeyOrder(p, rest, c, k);
      assert s == [s[0]] + rest;
      calc {
        WithKey(Insert(p, s, c), c, k);
        { WithKeyCons(s[0], Insert(p, rest, c), c, k); }
        IfKey(s[0], c, k) + WithKey(Insert(p, rest, c), c, k);
        { WithKeyCons(p, rest, c, k); }
        IfKey(s[0], c, k) + (IfKey(p, c, k) + WithKey(rest, c, k));
        { IfKeySwap(s[0], p, WithKey(rest, c, k), c, k); }
        IfKey(p, c, k) + (IfKey(s[0], c, k) + WithKey(rest, c, k));
        { WithKeyCons(s[0], rest, c, k); }
        IfKey(p, c, k) + WithKey(s, c, k);
        { WithKeyCons(p, s, c, k); }
        WithKey([p] + s, c, k);
      }
    }
  }

  /** `list.sort` is stable: the samples that share a key come out in the
      order they went in. */
  lemma {:induction false} SortByIsStable(s: seq<Point>, c: Coord, k: real)
    ensures WithKey(SortBy(s, c), c, k) == WithKey(s, c, k)
  {
    if s != [] {
      assert s == [s[0]] + s[1..];
      SortByIsStable(s[1..], c, k);
      InsertKeepsKeyOrder(s[0], SortBy(s[1..], c), c, k);
      WithKeyCons(s[0], SortBy(s[1..], c), c, k);
      WithKeyCons(s[0], s[1..], c, k);
    }
  }

  /** a comes no later than b in the order of x, then y. */
  predicate XYBefore(a: Point, b: Point) {
    a.x < b.x || (a.x == b.x && a.y <= b.y)
  }

  /** The samples are ordered by x, and by y among equal x. */
  predicate XYOrdered(s: seq<Point>) {
    forall i, j :: 0 <= i < j < |s| ==> XYBefore(s[i], s[j])
  }

  lemma ConsXYOrdered(x: Point, t: seq<Point>)
    requires XYOrdered(t) && forall q :: q in t ==> XYBefore(x, q)
    ensures XYOrdered([x] + t)
  {
    var r := [x] + t;
    forall i, j | 0 <= i < j < |r|
      ensures XYBefore(r[i], r[j])
    {
      assert r[j] == t[j - 1];
      if i > 0 {
        assert r[i] == t[i - 1];
      }
    }
  }

  /** The head of an (x, y)-ordered sequence comes before every sample of
      any rearrangement of its tail, and before p. */
  lemma HeadBeforeAll(u: seq<Point>, p: Point, t: seq<Point>)
    requires XYOrdered(u) && u != [] && XYBefore(u[0], p)
    requires multiset(t) == multiset(u[1..]) + multiset{p}
    ensures forall q :: q in t ==> XYBefore(u[0], q)
  {
    forall q | q in t
      ensures XYBefore(u[0], q)
    {
      assert q in multiset(t);
      if q != p {
        assert q in multiset(u[1..]);
        var j :| 0 <= j < |u[1..]| && u[1..][j] == q;
        assert u[j + 1] == q;
      }
    }
  }

  /** A sample no later in x than the first of an x-sorted sequence, and no
      larger in y than any, comes before all of them. */
  lemma SmallestBeforeAll(p: Point, u: seq<Point>)
    requires SortedBy(u, XCoord) && (u == [] || p.x <= u[0].x)
    requires forall q :: q in u ==> p.y <= q.y
    ensures forall q :: q in u ==> XYBefore(p, q)
  {
    forall q | q in u
      ensures XYBefore(p, q)
    {
      var j :| 0 <= j < |u| && u[j] == q;
      assert j == 0 || Key(u[0], XCoord) <= Key(u[j], XCoord);
    }
  }

  /** Inserting by x a sample whose y is no larger than any other keeps
      the (x, y) order. */
  lemma {:induction false} InsertByXKeepsXYOrder(p: Point, u: seq<Point>)
    requires SortedBy(u, XCoord) && XYOrdered(u)
    requires forall q :: q in u ==> p.y <= q.y
    ensures XYOrdered(Insert(p, u, XCoord))
  {
    if u == [] || p.x <= u[0].x {
      SmallestBeforeAll(p, u);
      ConsXYOrdered(p, u);
      assert Insert(p, u, XCoord) == [p] + u;
    } else {
      var rest := u[1..];
      InsertPast(p, u, XCoord);
      assert XYOrdered(rest) by {
        forall i, j | 0 <= i < j < |rest|
          ensures XYBefore(rest[i], rest[j])
        {
          assert rest[i] == u[i + 1] && rest[j] == u[j + 1];
        }
      }
      assert forall q :: q in rest ==> q in u;
      InsertByXKeepsXYOrder(p, rest);
      var t := Insert(p, rest, XCoord);
      HeadBeforeAll(u, p, t);
      ConsXYOrdered(u[0], t);
    }
  }

  /** Sorting by x samples already sorted by y orders them by x, then y. */
  lemma {:induction false} SortByXAfterY(t: seq<Point>)
    requires SortedBy(t, YCoord)
    ensures XYOrdered(SortBy(t, XCoord))
  {
    if t != [] {
      var rest := t[1..];
      assert t == [t[0]] + rest;
      SortByXAfterY(rest);
      var u := SortBy(rest, XCoord);
      forall q | q in u
        ensures t[0].y <= q.y
      {
        assert q in multiset(u);
        var j :| 0 <= j < |rest| && rest[j] == q;
        assert t[j + 1] == q;
      }
      InsertByXKeepsXYOrder(t[0], u);
    }
  }

  /** What `add_graph` leaves in a graph: sorting by y and then by x, both
      stable, orders the samples by x, and by y among equal x. */
  lemma SortByYThenX(s: seq<Point>)
    ensures XYOrdered(SortBy(SortBy(s, YCoord), XCoord))
  {
    SortByXAfterY(SortBy(s, YCoord));
  }

  /** iv is the extent of the keys of s: every key lies in it and both ends
      are keys. */
  predicate IsExtent(s: seq<Point>, c: Coord, iv: Interval) {
    (forall p :: p in s ==> iv.lo <= Key(p, c) <= iv.hi) &&
    (exists p :: p in s && Key(p, c) == iv.lo) &&
    (exists p :: p in s && Key(p, c) == iv.hi)
  }

  /** A sequence has at most one extent. */
  lemma ExtentIsUnique(s: seq<Point>, c: Coord, a: Interval, b: Interval)
    requires IsExtent(s, c, a) && IsExtent(s, c, b)
    ensures a == b
  {
    var p1 :| p1 in s && Key(p1, c) == a.lo;
    var q1 :| q1 in s && Key(q1, c) == b.lo;
    var p2 :| p2 in s && Key(p2, c) == a.hi;
    var q2 :| q2 in s && Key(q2, c) == b.hi;
    assert a.lo <= Key(q1, c) && b.lo <= Key(p1, c);
    assert a.hi >= Key(q2, c) && b.hi >= Key(p2, c);
  }

  lemma SameElements(s: seq<Point>, t: seq<Point>)
    requires multiset(s) == multiset(t)
    ensures forall p :: p in s <==> p in t
  {
    forall p ensures p in s <==> p in t {
      assert p in s <==> p in multiset(s);
      assert p in t <==> p in multiset(t);
    }
  }

  /** `get_x_range` / `get_y_range`: the first and last key once the samples
      are sorted, or None for no samples (the IndexError is caught). The
      result is the least and the greatest key. */
  function KeyExtent(s: seq<Point>, c: Coord): (r: Option<Interval>)
    ensures r.None? <==> s == []
    ensures r.Some? ==> r.value.lo <= r.value.hi
  {
    var t := SortBy(s, c);
    if t == [] then None
    else Some(Interval(Key(t[0], c), Key(t[|t| - 1], c)))
  }

  /** The extent of samples holds every key, and both its ends are keys. */
  lemma KeyExtentIsExtent(s: seq<Point>, c: Coord)
    requires s != []
    ensures KeyExtent(s, c).Some? && IsExtent(s, c, KeyExtent(s, c).value)
  {
    var t := SortBy(s, c);
    SameElements(s, t);
    assert forall p :: p in t ==> Key(t[0], c) <= Key(p, c) <= Key(t[|t| - 1], c);
    assert t[0] in s && t[|t| - 1] in s;
  }

  /** The extent depends only on which samples there are, not on their order:
      sorting by y first does not change the x extent. */
  lemma {:induction false} KeyExtentIgnoresOrder(s: seq<Point>, t: seq<Point>, c: Coord)
    requires multiset(s) == multiset(t)
    ensures KeyExtent(s, c) == KeyExtent(t, c)
  {
    SameElements(s, t);
    if s != [] {
      assert t != [];
      KeyExtentIsExtent(s, c);
      KeyExtentIsExtent(t, c);
      var a := KeyExtent(s, c).value;
      var b := KeyExtent(t, c).value;
      assert IsExtent(s, c, b);
      ExtentIsUnique(s, c, a, b);
    } else {
      assert t == [];
    }
  }

  /** Every sample lies inside the x and the y extent. */
  predicate Covers(s: seq<Point>, x: Option<Interval>, y: Option<Interval>) {
    forall p :: p in s ==> x.Some? && y.Some? && IsInRange(p.x, x.value) && IsInRange(p.y, y.value)
  }

  /** Intervals that contain the extents of t cover every sample of a
      reordering of t. */
  lemma ExtentCovers(s: seq<Point>, t: seq<Point>, x: Interval, y: Interval)
    requires multiset(s) == multiset(t) && t != []
    requires x.lo <= KeyExtent(t, XCoord).value.lo && KeyExtent(t, XCoord).value.hi <= x.hi
    requires y.lo <= KeyExtent(t, YCoord).value.lo && KeyExtent(t, YCoord).value.hi <= y.hi
    ensures Covers(s, Some(x), Some(y))
  {
    SameElements(s, t);
    KeyExtentIsExtent(t, XCoord);
    KeyExtentIsExtent(t, YCoord);
    var ex := KeyExtent(t, XCoord).value;
    var ey := KeyExtent(t, YCoord).value;
    assert IsExtent(t, XCoord, ex) && IsExtent(t, YCoord, ey);
    forall p | p in s
      ensures IsInRange(p.x, x) && IsInRange(p.y, y)
    {
      assert p in t;
      assert ex.lo <= Key(p, XCoord) <= ex.hi;
      assert ey.lo <= Key(p, YCoord) <= ey.hi;
    }
  }

  /** Widening the running extent by a graph's extent, as `add_graph` does
      with min and max: the result contains both and is attained by one. */
  function Hull(a: Interval, b: Interval): (r: Interval)
    ensures r.lo <= a.lo && r.lo <= b.lo && r.hi >= a.hi && r.hi >= b.hi
    ensures (r.lo == a.lo || r.lo == b.lo) && (r.hi == a.hi || r.hi == b.hi)
  {
    Interval(Min(b.lo, a.lo), Max(b.hi, a.hi))
  }

  /** The running extents after a graph whose extents are xr and yr is
      added: the first graph with samples seeds them, later graphs with
      samples widen them, a graph without samples leaves them. */
  function Absorb(dx: Option<Interval>, dy: Option<Interval>, xr: Option<Interval>, yr: Option<Interval>)
    : (Option<Interval>, Option<Interval>)
    requires dx.Some? ==> dy.Some?
  {
    if dx.None? then (xr, yr)
    else if xr.Some? && yr.Some? then (Some(Hull(dx.value, xr.value)), Some(Hull(dy.value, yr.value)))
    else (dx, dy)
  }

  /** Absorbing the extents of the samples s keeps the running extents
      proper pairs, covers every sample of a reordering of s, and never
      drops a value the old extents contained. */
  lemma AbsorbKeepsExtents(dx: Option<Interval>, dy: Option<Interval>, s: seq<Point>, data: seq<Point>)
    requires dx.Some? <==> dy.Some?
    requires (dx.Some? ==> dx.value.lo <= dx.value.hi) && (dy.Some? ==> dy.value.lo <= dy.value.hi)
    requires multiset(data) == multiset(s)
    ensures var m := Absorb(dx, dy, KeyExtent(s, XCoord), KeyExtent(s, YCoord));
      (m.0.Some? <==> m.1.Some?) &&
      (m.0.Some? ==> m.0.value.lo <= m.0.value.hi) && (m.1.Some? ==> m.1.value.lo <= m.1.value.hi) &&
      Covers(data, m.0, m.1) &&
      (dx.Some? ==> IsInRange(dx.value.lo, m.0.value) && IsInRange(dx.value.hi, m.0.value)) &&
      (dy.Some? ==> IsInRange(dy.value.lo, m.1.value) && IsInRange(dy.value.hi, m.1.value))
  {
    var m := Absorb(dx, dy, KeyExtent(s, XCoord), KeyExtent(s, YCoord));
    if s != [] {
      ExtentCovers(data, s, m.0.value, m.1.value);
    }
  }

  // ------------------------------------------------------------ polyline

  /** A sample lies inside both visible ranges. */
  predicate InRanges(p: Point, rg: Ranges) {
    IsInRange(p.x, rg.x) && IsInRange(p.y, rg.y)
  }

  /** The pixel map of the chart; a range that cannot be divided by has no
      map, and the drawing raises before it would be used. */
  function PixelMap(rect: Rect, rg: Ranges): Mapping {
    if Mappable(rg) then MappingOf(rect, rg) else Mapping(Point(0.0, 0.0), 0.0, 0.0)
  }

  /** How a graph draws its samples. */
  datatype Style = Style(graphType: int, pointSize: int, showValues: bool)

  predicate ShowsPoints(st: Style) { st.graphType == GRAPH_POINTS || st.graphType == GRAPH_BOTH }
  predicate ShowsLines(st: Style) { st.graphType == GRAPH_LINES || st.graphType == GRAPH_BOTH }

  /** A y value written next to its point, at (ax + 2 * point size, ay). */
  datatype ValueLabel = ValueLabel(at: Point, value: real)

  datatype Segment = Segment(from: Point, to: Point)

  /** What `_do_draw` puts on the chart for the samples: the dots, the value
      labels, the line segments and the last drawn point. */
  datatype LineDrawing = LineDrawing(dots: seq<Point>, values: seq<ValueLabel>,
                                     segments: seq<Segment>, last: Option<Point>)

  /** The drawing of the first n samples. A sample inside both ranges gets a
      dot (and its value) when points are shown, and a segment from the
      previous sample when lines are shown and that one was inside as well. */
  function LineUpTo(m: Mapping, rg: Ranges, st: Style, data: seq<Point>, n: nat): (d: LineDrawing)
    requires n <= |data|
    ensures |d.segments| < n || n == 0
  {
    if n == 0 then LineDrawing([], [], [], None)
    else
      var d := LineUpTo(m, rg, st, data, n - 1);
      var p := data[n - 1];
      if !InRanges(p, rg) then d
      else
        var a := Apply(m, p);
        LineDrawing(
          d.dots + (if ShowsPoints(st) then [a] else []),
          d.values + (if ShowsPoints(st) && st.showValues
                      then [ValueLabel(Point(a.x + 2.0 * st.pointSize as real, a.y), p.y)] else []),
          d.segments + (if ShowsLines(st) && n >= 2 && InRanges(data[n - 2], rg)
                        then [Segment(Apply(m, data[n - 2]), a)] else []),
          Some(a))
  }

  /** Segment s joins the pixels of samples k and k + 1, both inside. */
  predicate Joins(m: Mapping, rg: Ranges, data: seq<Point>, k: int, s: Segment) {
    0 <= k < |data| - 1 && InRanges(data[k], rg) && InRanges(data[k + 1], rg) &&
    s == Segment(Apply(m, data[k]), Apply(m, data[k + 1]))
  }

  /** Every segment joins the pixels of two consecutive samples that both lie
      inside the ranges. */
  lemma {:induction false} SegmentsJoinConsecutiveSamples(m: Mapping, rg: Ranges, st: Style,
                                                          data: seq<Point>, n: nat)
    requires n <= |data|
    ensures forall s :: s in LineUpTo(m, rg, st, data, n).segments ==>
              exists k :: k < n - 1 && Joins(m, rg, data, k, s)
  {
    if n > 0 {
      SegmentsJoinConsecutiveSamples(m, rg, st, data, n - 1);
      var before := LineUpTo(m, rg, st, data, n - 1).segments;
      var after := LineUpTo(m, rg, st, data, n).segments;
      forall s | s in after
        ensures exists k :: k < n - 1 && Joins(m, rg, data, k, s)
      {
        if s !in before {
          assert Joins(m, rg, data, n - 2, s);
        }
      }
    }
  }

  /** When lines are shown, every two consecutive samples inside the ranges
      are joined: only an outside sample breaks the line. */
  lemma {:induction false} ConsecutiveSamplesAreJoined(m: Mapping, rg: Ranges, st: Style,
                                                       data: seq<Point>, n: nat)
    requires n <= |data| && ShowsLines(st)
    ensures forall k, s :: k < n - 1 && Joins(m, rg, data, k, s) ==> s in LineUpTo(m, rg, st, data, n).segments
  {
    if n > 0 {
      ConsecutiveSamplesAreJoined(m, rg, st, data, n - 1);
      var before := LineUpTo(m, rg, st, data, n - 1).segments;
      var after := LineUpTo(m, rg, st, data, n).segments;
      assert forall s :: s in before ==> s in after;
    }
  }

  /** The last drawn point is the pixel of the last sample inside the ranges,
      and there is none exactly when no sample is inside. */
  lemma {:induction false} LastIsLastSampleInside(m: Mapping, rg: Ranges, st: Style, data: seq<Point>, n: nat)
    requires n <= |data|
    ensures LineUpTo(m, rg, st, data, n).last.None? <==> forall k :: 0 <= k < n ==> !InRanges(data[k], rg)
    ensures LineUpTo(m, rg, st, data, n).last.Some? ==>
              exists k :: 0 <= k < n && InRanges(data[k], rg) &&
                          LineUpTo(m, rg, st, data, n).last == Some(Apply(m, data[k])) &&
                          forall j :: k < j < n ==> !InRanges(data[j], rg)
  {
    if n > 0 {
      LastIsLastSampleInside(m, rg, st, data, n - 1);
      if InRanges(data[n - 1], rg) {
        assert LineUpTo(m, rg, st, data, n).last == Some(Apply(m, data[n - 1]));
      }
    }
  }

  // ------------------------------------------------------------ baseline

  /** The first index at or after `from` whose sample has x inside xr, or |s|. */
  function FirstInside(s: seq<Point>, xr: Interval, from: nat): (i: nat)
    requires from <= |s|
    ensures from <= i <= |s|
    ensures forall j :: from <= j < i ==> !IsInRange(s[j].x, xr)
    ensures i < |s| ==> IsInRange(s[i].x, xr)
    decreases |s| - from
  {
    if from == |s| || IsInRange(s[from].x, xr) then from else FirstInside(s, xr, from + 1)
  }

  /** The first index at or after `from` whose sample has x outside xr, or |s|. */
  function FirstOutside(s: seq<Point>, xr: Interval, from: nat): (i: nat)
    requires from <= |s|
    ensures from <= i <= |s|
    ensures forall j :: from <= j < i ==> IsInRange(s[j].x, xr)
    ensures i < |s| ==> !IsInRange(s[i].x, xr)
    decreases |s| - from
  {
    if from == |s| || !IsInRange(s[from].x, xr) then from else FirstOutside(s, xr, from + 1)
  }

  /** The baseline of a numeric `fill_to`, stated directly: the level at the x
      of the first sample inside xr and at the x of the last sample of the run
      of inside samples that starts there. With no sample inside, the level
      at the x of the last sample. */
  function BaselineOf(s: seq<Point>, level: real, xr: Interval): (b: seq<Point>)
    ensures |b| <= 2 && (b == [] <==> s == [])
    ensures forall k :: 0 <= k < |b| ==> b[k].y == level
    ensures forall k :: 0 <= k < |b| ==> exists j :: 0 <= j < |s| && b[k].x == s[j].x
  {
    var f := FirstInside(s, xr, 0);
    if f == |s| then
      if s == [] then [] else [Point(s[|s| - 1].x, level)]
    else if f == |s| - 1 then [Point(s[f].x, level)]
    else
      var g := FirstOutside(s, xr, f + 1);
      [Point(s[f].x, level), Point(s[g - 1].x, level)]
  }

  /** The loop in `_do_draw_fill` that builds the baseline, with its break. */
  method Baseline(s: seq<Point>, level: real, xr: Interval) returns (b: seq<Point>)
    ensures b == BaselineOf(s, level, xr)
  {
    b := [];
    var prev := 0.0;
    var i := 0;
    while i < |s|
      invariant 0 <= i <= |s|
      invariant i < |s| ==> (b == [] <==> FirstInside(s, xr, 0) >= i)
      invariant i < |s| && b != [] ==>
                  var f := FirstInside(s, xr, 0);
                  f < i && b == [Point(s[f].x, level)] && FirstOutside(s, xr, f + 1) >= i
      invariant i == |s| ==> b == BaselineOf(s, level, xr)
      invariant i > 0 ==> prev == s[i - 1].x
    {
      var x := s[i].x;
      if IsInRange(x, xr) && b == [] {
        b := b + [Point(x, level)];
      } else if !IsInRange(x, xr) && |b| == 1 {
        b := b + [Point(prev, level)];
        assert FirstOutside(s, xr, FirstInside(s, xr, 0) + 1) == i;
        return;
      } else if i == |s| - 1 {
        b := b + [Point(x, level)];
      }
      prev := x;
      i := i + 1;
    }
  }

  // ------------------------------------------------------------- polygon

  /** The pixels of the samples of a whose x lies in xr, in order. */
  function Forward(m: Mapping, a: seq<Point>, xr: Interval): (r: seq<Point>)
    ensures |r| <= |a|
  {
    if a == [] then []
    else Forward(m, a[..|a| - 1], xr) +
         (if IsInRange(a[|a| - 1].x, xr) then [Apply(m, a[|a| - 1])] else [])
  }

  /** The pixels of the samples of b whose x lies in xr, last sample first. */
  function Backward(m: Mapping, b: seq<Point>, xr: Interval): (r: seq<Point>)
    ensures |r| <= |b|
  {
    if b == [] then []
    else Backward(m, b[1..], xr) + (if IsInRange(b[0].x, xr) then [Apply(m, b[0])] else [])
  }

  /** The fill polygon: forward along a, back along b, and closed at the first
      point of a, or at (0, 0) when no sample of a is inside. */
  function FillPolygonOf(m: Mapping, a: seq<Point>, b: seq<Point>, xr: Interval): (poly: seq<Point>)
    ensures |poly| == |Forward(m, a, xr)| + |Backward(m, b, xr)| + 1
    ensures poly[|poly| - 1] == (if Forward(m, a, xr) == [] then Point(0.0, 0.0) else poly[0])
  {
    var fw := Forward(m, a, xr);
    fw + Backward(m, b, xr) + [if fw == [] then Point(0.0, 0.0) else fw[0]]
  }

  /** Every vertex of the forward part is the pixel of a sample of a inside
      xr, and every vertex of the backward part that of a sample of b. */
  lemma {:induction false} ForwardVertices(m: Mapping, a: seq<Point>, xr: Interval)
    ensures forall q :: q in Forward(m, a, xr) ==>
              exists j :: 0 <= j < |a| && IsInRange(a[j].x, xr) && q == Apply(m, a[j])
  {
    if a != [] {
      ForwardVertices(m, a[..|a| - 1], xr);
    }
  }

  lemma {:induction false} BackwardVertices(m: Mapping, b: seq<Point>, xr: Interval)
    ensures forall q :: q in Backward(m, b, xr) ==>
              exists j :: 0 <= j < |b| && IsInRange(b[j].x, xr) && q == Apply(m, b[j])
  {
    if b != [] {
      BackwardVertices(m, b[1..], xr);
      forall q | q in Backward(m, b, xr)
        ensures exists j :: 0 <= j < |b| && IsInRange(b[j].x, xr) && q == Apply(m, b[j])
      {
        if q in Backward(m, b[1..], xr) {
          var j :| 0 <= j < |b[1..]| && IsInRange(b[1..][j].x, xr) && q == Apply(m, b[1..][j]);
          assert b[j + 1] == b[1..][j];
        } else {
          assert q == Apply(m, b[0]);
        }
      }
    }
  }

  /** Some sample of a has its x inside xr. */
  predicate SomeInside(a: seq<Point>, xr: Interval) {
    exists j :: 0 <= j < |a| && IsInRange(a[j].x, xr)
  }

  /** The two loops of `_do_draw_fill`. Every sample of b is mapped before
      its x is checked, so with a range that cannot be divided by, the loops
      raise as soon as a has a sample inside xr or b has any sample. */
  method TracePolygon(rect: Rect, rg: Ranges, a: seq<Point>, b: seq<Point>, xr: Interval)
    returns (r: Result<seq<Point>>)
    ensures r.Failure? <==> !Mappable(rg) && (b != [] || SomeInside(a, xr))
    ensures r.Failure? ==> r.error == ZeroDivisionError
    ensures r.Success? ==> r.value == FillPolygonOf(PixelMap(rect, rg), a, b, xr)
  {
    var m := PixelMap(rect, rg);
    var fw: seq<Point> := [];
    var i := 0;
    while i < |a|
      invariant 0 <= i <= |a|
      invariant fw == Forward(m, a[..i], xr)
      invariant !Mappable(rg) ==> forall j :: 0 <= j < i ==> !IsInRange(a[j].x, xr)
    {
      assert a[..i + 1][..i] == a[..i];
      if IsInRange(a[i].x, xr) {
        if !Mappable(rg) {
          return Failure(ZeroDivisionError);
        }
        fw := fw + [Apply(m, a[i])];
      }
      i := i + 1;
    }
    assert a[..|a|] == a;
    var start := if fw == [] then Point(0.0, 0.0) else fw[0];
    var poly := fw;
    i := 0;
    while i < |b|
      invariant 0 <= i <= |b|
      invariant poly == fw + Backward(m, b[|b| - i..], xr)
      invariant !Mappable(rg) ==> i == 0
    {
      var j := |b| - i - 1;
      if !Mappable(rg) {
        return Failure(ZeroDivisionError);
      }
      var q := Apply(m, b[j]);
      assert b[j..][1..] == b[|b| - i..];
      if IsInRange(b[j].x, xr) {
        poly := poly + [q];
      }
      i := i + 1;
    }
    assert b[|b| - |b|..] == b;
    return Success(poly + [start]);
  }

  // -------------------------------------------------------------- classes

  /** What `fill_to` is set to: no fill, a constant level, or another graph. */
  datatype FillTarget = NoFill | FillLevel(level: real) | FillGraph(other: Graph)

  /** The filled area: its colour, its opacity and its outline. */
  datatype FillDrawing = FillDrawing(color: Rgb, opacity: real, polygon: seq<Point>)

  /** Everything `Graph._do_draw` draws, in pixels; the title sits at the last
      drawn point moved by (5, text height / 3). */
  datatype GraphDrawing = GraphDrawing(color: Rgb, line: LineDrawing, fill: Option<FillDrawing>,
                                       title: Option<Point>)

  /** The settings a graph's property setters change. */
  datatype GraphSettings = GraphSettings(title: string, color: ColorSetting, graphType: int,
                                         pointSize: int, fillTo: FillTarget, fillColor: ColorSetting,
                                         fillOpacity: real, showValues: bool, showTitle: bool)

  class Graph {
    const name: string
    var title: string
    var data: seq<Point>
    var color: ColorSetting
    var graphType: int
    var pointSize: int
    var fillTo: FillTarget
    var fillColor: ColorSetting
    var fillOpacity: real
    var showValues: bool
    var showTitle: bool
    var visible: bool
    var rangeCalc: RangeCalculator?
    var redrawRequested: bool

    function CurrentSettings(): GraphSettings
      reads this
    {
      GraphSettings(title, color, graphType, pointSize, fillTo, fillColor, fillOpacity,
                    showValues, showTitle)
    }

    function CurrentStyle(): Style
      reads this
    {
      Style(graphType, pointSize, showValues)
    }

    /** A new graph: automatic colours, points and lines, point size 2, no
        fill, fill opacity 0.3, values hidden, title shown. */
    constructor (name: string, title: string, data: seq<Point>)
      ensures this.name == name && this.data == data && rangeCalc == null
      ensures CurrentSettings() == GraphSettings(title, ColorAuto, GRAPH_BOTH, 2, NoFill, ColorAuto,
                                                 0.3, false, true)
      ensures visible && !redrawRequested
    {
      this.name := name;
      this.title := title;
      this.data := data;
      color := ColorAuto;
      graphType := GRAPH_BOTH;
      pointSize := 2;
      fillTo := NoFill;
      fillColor := ColorAuto;
      fillOpacity := 0.3;
      showValues := false;
      showTitle := true;
      visible := true;
      rangeCalc := null;
      redrawRequested := false;
    }

    /** `has_something_to_draw`. */
    predicate HasSomethingToDraw()
      reads this
    {
      data != []
    }

    /** `get_x_range`: sorts the samples by x and returns the x extent. */
    method GetXRange() returns (r: Option<Interval>)
      modifies this
      ensures r == KeyExtent(old(data), XCoord)
      ensures data == SortBy(old(data), XCoord)
      ensures SortedBy(data, XCoord) && multiset(data) == multiset(old(data))
      ensures CurrentSettings() == old(CurrentSettings()) && rangeCalc == old(rangeCalc)
      ensures visible == old(visible) && redrawRequested == old(redrawRequested)
    {
      data := SortBy(data, XCoord);
      if data == [] {
        r := None;
      } else {
        r := Some(Interval(data[0].x, data[|data| - 1].x));
      }
    }

    /** `get_y_range`: sorts the samples by y and returns the y extent. */
    method GetYRange() returns (r: Option<Interval>)
      modifies this
      ensures r == KeyExtent(old(data), YCoord)
      ensures data == SortBy(old(data), YCoord)
      ensures SortedBy(data, YCoord) && multiset(data) == multiset(old(data))
      ensures CurrentSettings() == old(CurrentSettings()) && rangeCalc == old(rangeCalc)
      ensures visible == old(visible) && redrawRequested == old(redrawRequested)
    {
      data := SortBy(data, YCoord);
      if data == [] {
        r := None;
      } else {
        r := Some(Interval(data[0].y, data[|data| - 1].y));
      }
    }

    /** `set_range_calc`: the graph now takes its ranges from rc. */
    method SetRangeCalc(rc: RangeCalculator)
      modifies this
      ensures rangeCalc == rc && data == old(data) && CurrentSettings() == old(CurrentSettings())
      ensures visible == old(visible) && redrawRequested == old(redrawRequested)
    {
      rangeCalc := rc;
    }

    method SetTitle(t: string)
      modifies this
      ensures CurrentSettings() == old(CurrentSettings()).(title := t)
      ensures data == old(data) && rangeCalc == old(rangeCalc) && visible == old(visible) && redrawRequested
    {
      title := t;
      redrawRequested := true;
    }

    method SetColor(c: ColorSetting)
      modifies this
      ensures CurrentSettings() == old(CurrentSettings()).(color := c)
      ensures data == old(data) && rangeCalc == old(rangeCalc) && visible == old(visible) && redrawRequested
    {
      color := c;
      redrawRequested := true;
    }

    method SetType(t: int)
      modifies this
      ensures CurrentSettings() == old(CurrentSettings()).(graphType := t)
      ensures data == old(data) && rangeCalc == old(rangeCalc) && visible == old(visible) && redrawRequested
    {
      graphType := t;
      redrawRequested := true;
    }

    method SetPointSize(size: int)
      modifies this
      ensures CurrentSettings() == old(CurrentSettings()).(pointSize := size)
      ensures data == old(data) && rangeCalc == old(rangeCalc) && visible == old(visible) && redrawRequested
    {
      pointSize := size;
      redrawRequested := true;
    }

    method SetFillTo(f: FillTarget)
      modifies this
      ensures CurrentSettings() == old(CurrentSettings()).(fillTo := f)
      ensures data == old(data) && rangeCalc == old(rangeCalc) && visible == old(visible) && redrawRequested
    {
      fillTo := f;
      redrawRequested := true;
    }

    method SetFillColor(c: ColorSetting)
      modifies this
      ensures CurrentSettings() == old(CurrentSettings()).(fillColor := c)
      ensures data == old(data) && rangeCalc == old(rangeCalc) && visible == old(visible) && redrawRequested
    {
      fillColor := c;
      redrawRequested := true;
    }

    method SetFillOpacity(opacity: real)
      modifies this
      ensures CurrentSettings() == old(CurrentSettings()).(fillOpacity := opacity)
      ensures data == old(data) && rangeCalc == old(rangeCalc) && visible == old(visible) && redrawRequested
    {
      fillOpacity := opacity;
      redrawRequested := true;
    }

    method SetShowValues(show: bool)
      modifies this
      ensures CurrentSettings() == old(CurrentSettings()).(showValues := show)
      ensures data == old(data) && rangeCalc == old(rangeCalc) && visible == old(visible) && redrawRequested
    {
      showValues := show;
      redrawRequested := true;
    }

    method SetShowTitle(show: bool)
      modifies this
      ensures CurrentSettings() == old(CurrentSettings()).(showTitle := show)
      ensures data == old(data) && rangeCalc == old(rangeCalc) && visible == old(visible) && redrawRequested
    {
      showTitle := show;
      redrawRequested := true;
    }

    /** The samples loop of `_do_draw`: `previous` is the pixel of the last
        sample when that one was inside the ranges, and None otherwise. */
    method DrawLine(rect: Rect, rg: Ranges) returns (r: Result<LineDrawing>)
      ensures r.Failure? <==> !Mappable(rg) && exists k :: 0 <= k < |data| && InRanges(data[k], rg)
      ensures r.Failure? ==> r.error == ZeroDivisionError
      ensures r.Success? ==> r.value == LineUpTo(PixelMap(rect, rg), rg, CurrentStyle(), data, |data|)
    {
      var m := PixelMap(rect, rg);
      var st := CurrentStyle();
      var d := LineDrawing([], [], [], None);
      var previous: Option<Point> := None;
      var k := 0;
      while k < |data|
        invariant 0 <= k <= |data|
        invariant d == LineUpTo(m, rg, st, data, k)
        invariant previous == (if k > 0 && InRanges(data[k - 1], rg) then Some(Apply(m, data[k - 1])) else None)
        invariant !Mappable(rg) ==> forall j :: 0 <= j < k ==> !InRanges(data[j], rg)
      {
        var p := data[k];
        if InRanges(p, rg) {
          if !Mappable(rg) {
            return Failure(ZeroDivisionError);
          }
          var a := Apply(m, p);
          var dots := d.dots;
          var values := d.values;
          var segments := d.segments;
          if graphType == GRAPH_POINTS || graphType == GRAPH_BOTH {
            dots := dots + [a];
            if showValues {
              values := values + [ValueLabel(Point(a.x + 2.0 * pointSize as real, a.y), p.y)];
            }
          }
          if graphType == GRAPH_LINES || graphType == GRAPH_BOTH {
            if previous.Some? {
              segments := segments + [Segment(previous.value, a)];
            }
          }
          previous := Some(a);
          d := LineDrawing(dots, values, segments, Some(a));
        } else {
          previous := None;
        }
        k := k + 1;
      }
      return Success(d);
    }

    /** The objects `FillSpec` reads: this graph and the graph it fills to. */
    function FillFootprint(): set<object>
      reads this
    {
      if fillTo.FillGraph? then {this, fillTo.other} else {this}
    }

    /** What `_do_draw_fill` draws, stated on the fields: the baseline of a
        level, or the samples of the other graph with the x range cut to that
        graph's first and last x (IndexError when it has no samples); nothing
        when the other graph is hidden; the fill colour, or the graph's colour
        when the fill colour is automatic. */
    function FillSpec(rect: Rect, rg: Ranges): (r: Result<Option<FillDrawing>>)
      requires !fillTo.NoFill?
      reads this, FillFootprint()
      ensures fillTo.FillGraph? && fillTo.other.data == [] ==> r == Failure(IndexError)
      ensures fillTo.FillGraph? && fillTo.other.data != [] && !fillTo.other.visible ==> r == Success(None)
      ensures r.Success? && r.value.Some? ==>
                r.value.value.opacity == fillOpacity &&
                (fillColor.Color? ==> r.value.value.color == fillColor.rgb) &&
                (fillColor.ColorAuto? ==> color.Color? && r.value.value.color == color.rgb)
      ensures r.Failure? && r.error == TypeError ==> fillColor.ColorAuto? && color.ColorAuto?
    {
      var b := if fillTo.FillLevel? then BaselineOf(data, fillTo.level, rg.x) else fillTo.other.data;
      if fillTo.FillGraph? && b == [] then Failure(IndexError)
      else
        var xr := if fillTo.FillLevel? then rg.x else IntersectRanges(rg.x, Interval(b[0].x, b[|b| - 1].x));
        var bVisible := if fillTo.FillLevel? then true else fillTo.other.visible;
        if !bVisible then Success(None)
        else if fillColor.ColorAuto? && color.ColorAuto? then Failure(TypeError)
        else if !Mappable(rg) && (b != [] || SomeInside(data, xr)) then
          Failure(ZeroDivisionError)
        else
          var c := if fillColor.Color? then fillColor.rgb else color.rgb;
          Success(Some(FillDrawing(c, fillOpacity, FillPolygonOf(PixelMap(rect, rg), data, b, xr))))
    }

    /** `_do_draw_fill`. */
    method DrawFill(rect: Rect, rg: Ranges) returns (r: Result<Option<FillDrawing>>)
      requires !fillTo.NoFill?
      ensures r == FillSpec(rect, rg)
    {
      var b: seq<Point>;
      var xr := rg.x;
      var bVisible: bool;
      if fillTo.FillLevel? {
        b := Baseline(data, fillTo.level, xr);
        bVisible := true;
      } else {
        b := fillTo.other.data;
        if b == [] {
          return Failure(IndexError);
        }
        xr := IntersectRanges(xr, Interval(b[0].x, b[|b| - 1].x));
        bVisible := fillTo.other.visible;
      }
      if !bVisible {
        return Success(None);
      }
      var c: Rgb;
      if fillColor.Color? {
        c := fillColor.rgb;
      } else if color.Color? {
        c := color.rgb;
      } else {
        return Failure(TypeError);
      }
      var poly := TracePolygon(rect, rg, data, b, xr);
      if poly.Failure? {
        return Failure(poly.error);
      }
      return Success(Some(FillDrawing(c, fillOpacity, poly.value)));
    }

    /** What `_do_draw` draws, stated on the fields: the ranges come from
        the range calculator (AttributeError before the graph is added to a
        chart), the colour must have been chosen (TypeError for
        COLOR_AUTO), then the samples, the fill and the title are drawn in
        that order, and the first error met is the result. */
    function DrawSpec(rect: Rect, titleHeight: real): (r: Result<GraphDrawing>)
      reads this, rangeCalc, FillFootprint()
      ensures rangeCalc == null ==> r == Failure(AttributeError)
      ensures rangeCalc != null && rangeCalc.Ranges().Failure? ==> r == Failure(rangeCalc.Ranges().error)
      ensures rangeCalc != null && rangeCalc.Ranges().Success? && color.ColorAuto? ==> r == Failure(TypeError)
      ensures rangeCalc != null && rangeCalc.Ranges().Success? && color.Color? &&
              !Mappable(rangeCalc.Ranges().value) &&
              (exists k :: 0 <= k < |data| && InRanges(data[k], rangeCalc.Ranges().value)) ==>
                r == Failure(ZeroDivisionError)
      ensures r.Success? ==>
                rangeCalc != null && rangeCalc.Ranges().Success? && color.Color? &&
                var rg := rangeCalc.Ranges().value;
                var line := LineUpTo(PixelMap(rect, rg), rg, CurrentStyle(), data, |data|);
                r.value.color == color.rgb && r.value.line == line &&
                (fillTo.NoFill? ==> r.value.fill.None?) &&
                (!fillTo.NoFill? ==> FillSpec(rect, rg) == Success(r.value.fill)) &&
                r.value.title == (if showTitle && line.last.Some?
                                  then Some(Point(line.last.value.x + 5.0, line.last.value.y + titleHeight / 3.0))
                                  else None)
    {
      if rangeCalc == null then Failure(AttributeError)
      else if rangeCalc.Ranges().Failure? then Failure(rangeCalc.Ranges().error)
      else if color.ColorAuto? then Failure(TypeError)
      else
        var rg := rangeCalc.Ranges().value;
        if !Mappable(rg) && exists k :: 0 <= k < |data| && InRanges(data[k], rg) then Failure(ZeroDivisionError)
        else
          var line := LineUpTo(PixelMap(rect, rg), rg, CurrentStyle(), data, |data|);
          var fill := if fillTo.NoFill? then Success(None) else FillSpec(rect, rg);
          if fill.Failure? then Failure(fill.error)
          else
            var title := if showTitle && line.last.Some?
                         then Some(Point(line.last.value.x + 5.0, line.last.value.y + titleHeight / 3.0))
                         else None;
            Success(GraphDrawing(color.rgb, line, fill.value, title))
    }

    /** `_do_draw`. */
    method Draw(rect: Rect, titleHeight: real) returns (r: Result<GraphDrawing>)
      ensures r == DrawSpec(rect, titleHeight)
    {
      if rangeCalc == null {
        return Failure(AttributeError);
      }
      var ranges := rangeCalc.Ranges();
      if ranges.Failure? {
        return Failure(ranges.error);
      }
      var rg := ranges.value;
      if color.ColorAuto? {
        return Failure(TypeError);
      }
      var line := DrawLine(rect, rg);
      if line.Failure? {
        return Failure(line.error);
      }
      var fill: Option<FillDrawing> := None;
      if !fillTo.NoFill? {
        var f := DrawFill(rect, rg);
        if f.Failure? {
          return Failure(f.error);
        }
        fill := f.value;
      }
      assert line.value == LineUpTo(PixelMap(rect, rg), rg, CurrentStyle(), data, |data|);
      var title: Option<Point> := None;
      if showTitle && line.value.last.Some? {
        var last := line.value.last.value;
        title := Some(Point(last.x + 5.0, last.y + titleHeight / 3.0));
      }
      return Success(GraphDrawing(color.rgb, line.value, fill, title));
    }
  }

  /** The first error `prepare_tics` runs into: that of the ranges, of the x
      ticks, then of the y ticks. */
  function TicsError(rect: Rect, ranges: Result<Ranges>, log10: real -> real): (e: Option<PyError>)
    ensures e.None? <==> ranges.Success? && TicsOf(rect, ranges.value, XAxis, log10).Success? &&
                         TicsOf(rect, ranges.value, YAxis, log10).Success?
    ensures e.None? ==> Mappable(ranges.value)
  {
    if ranges.Failure? then Some(ranges.error)
    else if TicsOf(rect, ranges.value, XAxis, log10).Failure? then Some(TicsOf(rect, ranges.value, XAxis, log10).error)
    else if TicsOf(rect, ranges.value, YAxis, log10).Failure? then Some(TicsOf(rect, ranges.value, YAxis, log10).error)
    else None
  }

  /** The part of RangeCalculator that holds state: the data extent of all
      graphs added so far, the range settings and the cached ticks. */
  class RangeCalculator {
    var dataX: Option<Interval>
    var dataY: Option<Interval>
    var xRange: AxisRange
    var yRange: AxisRange
    var cachedXTics: seq<Tick>
    var cachedYTics: seq<Tick>

    /** Both extents are computed together, and each is a proper pair. */
    predicate Valid()
      reads this
    {
      (dataX.Some? <==> dataY.Some?) &&
      (dataX.Some? ==> dataX.value.lo <= dataX.value.hi) &&
      (dataY.Some? ==> dataY.value.lo <= dataY.value.hi)
    }

    constructor ()
      ensures dataX == None && dataY == None && xRange == Auto && yRange == Auto
      ensures cachedXTics == [] && cachedYTics == [] && Valid()
    {
      dataX := None;
      dataY := None;
      xRange := Auto;
      yRange := Auto;
      cachedXTics := [];
      cachedYTics := [];
    }

    /** `get_ranges`: TypeError exactly when an automatic axis has no data
        extent yet; a range set with `set_xrange`/`set_yrange` comes back as
        set, and an automatic one starts at the extent, covers it and is
        never empty. */
    function Ranges(): (r: Result<Ranges>)
      reads this
      ensures r.Failure? <==> (xRange.Auto? && dataX.None?) || (yRange.Auto? && dataY.None?)
      ensures r.Failure? ==> r.error == TypeError
      ensures r.Success? && xRange.Fixed? ==> r.value.x == xRange.range
      ensures r.Success? && yRange.Fixed? ==> r.value.y == yRange.range
      ensures r.Success? && xRange.Auto? && dataX.value.lo <= dataX.value.hi ==>
                r.value.x.lo == dataX.value.lo && dataX.value.hi <= r.value.x.hi && r.value.x.lo < r.value.x.hi
      ensures r.Success? && yRange.Auto? && dataY.value.lo <= dataY.value.hi ==>
                r.value.y.lo == dataY.value.lo && dataY.value.hi <= r.value.y.hi && r.value.y.lo < r.value.y.hi
    {
      GetRanges(xRange, yRange, dataX, dataY)
    }

    /** `add_graph`: the first graph with samples seeds the extent; later
        graphs with samples widen it. `get_y_range` and then `get_x_range`
        sort the graph's samples, so it is left ordered by x, and by y
        among equal x. */
    method AddGraph(g: Graph)
      requires Valid()
      modifies this, g
      ensures Valid()
      ensures g.data == SortBy(SortBy(old(g.data), YCoord), XCoord)
      ensures SortedBy(g.data, XCoord) && XYOrdered(g.data) && multiset(g.data) == multiset(old(g.data))
      ensures g.CurrentSettings() == old(g.CurrentSettings()) && g.rangeCalc == old(g.rangeCalc)
      ensures g.visible == old(g.visible) && g.redrawRequested == old(g.redrawRequested)
      ensures (dataX, dataY) == Absorb(old(dataX), old(dataY), KeyExtent(old(g.data), XCoord), KeyExtent(old(g.data), YCoord))
      ensures Covers(g.data, dataX, dataY)
      ensures old(dataX).Some? ==> IsInRange(old(dataX).value.lo, dataX.value) && IsInRange(old(dataX).value.hi, dataX.value)
      ensures old(dataY).Some? ==> IsInRange(old(dataY).value.lo, dataY.value) && IsInRange(old(dataY).value.hi, dataY.value)
      ensures xRange == old(xRange) && yRange == old(yRange)
      ensures cachedXTics == old(cachedXTics) && cachedYTics == old(cachedYTics)
    {
      ghost var samples := g.data;
      var yr := g.GetYRange();
      ghost var sortedByY := g.data;
      var xr := g.GetXRange();
      SortByYThenX(samples);
      KeyExtentIgnoresOrder(sortedByY, samples, XCoord);
      AbsorbKeepsExtents(dataX, dataY, samples, g.data);
      var merged := Absorb(dataX, dataY, xr, yr);
      dataX, dataY := merged.0, merged.1;
    }

    /** `set_xrange`: the x setting, and nothing else, changes. */
    method SetXRange(setting: AxisRange)
      modifies this
      ensures xRange == setting && yRange == old(yRange)
      ensures dataX == old(dataX) && dataY == old(dataY)
      ensures cachedXTics == old(cachedXTics) && cachedYTics == old(cachedYTics)
    {
      xRange := setting;
    }

    /** `set_yrange`: the y setting, and nothing else, changes. */
    method SetYRange(setting: AxisRange)
      modifies this
      ensures yRange == setting && xRange == old(xRange)
      ensures dataX == old(dataX) && dataY == old(dataY)
      ensures cachedXTics == old(cachedXTics) && cachedYTics == old(cachedYTics)
    {
      yRange := setting;
    }

    /** `prepare_tics`: the x ticks are computed and stored, then the y
        ticks. An error leaves the ticks not yet computed as they were; an
        error in the y ticks comes after the x ticks were stored. */
    method PrepareTics(rect: Rect, log10: real -> real) returns (err: Option<PyError>)
      modifies this
      ensures err == TicsError(rect, Ranges(), log10)
      ensures dataX == old(dataX) && dataY == old(dataY) && xRange == old(xRange) && yRange == old(yRange)
      ensures Ranges().Failure? ==>
                err == Some(Ranges().error) &&
                cachedXTics == old(cachedXTics) && cachedYTics == old(cachedYTics)
      ensures Ranges().Success? ==>
                var xt := TicsOf(rect, Ranges().value, XAxis, log10);
                var yt := TicsOf(rect, Ranges().value, YAxis, log10);
                (xt.Failure? ==>
                   err == Some(xt.error) && cachedXTics == old(cachedXTics) && cachedYTics == old(cachedYTics)) &&
                (xt.Success? && yt.Failure? ==>
                   err == Some(yt.error) && cachedXTics == xt.value && cachedYTics == old(cachedYTics)) &&
                (xt.Success? && yt.Success? ==>
                   err == None && cachedXTics == xt.value && cachedYTics == yt.value)
    {
      var ranges := Ranges();
      if ranges.Failure? {
        return Some(ranges.error);
      }
      var xt := ComputeTics(rect, ranges.value, XAxis, log10);
      if xt.Failure? {
        return Some(xt.error);
      }
      cachedXTics := xt.value;
      var yt := ComputeTics(rect, ranges.value, YAxis, log10);
      if yt.Failure? {
        return Some(yt.error);
      }
      cachedYTics := yt.value;
      return None;
    }
  }
}

=== FILE: line_mapping.dfy ===
/** The range and pixel arithmetic of the line chart (the pure part of
    RangeCalculator in line_chart.py): which data range each axis shows,
    the affine map from data to pixels with a padding of 1/15 on each side,
    and the tick marks laid out on a power-of-ten grid. */
module LineMapping {
  import opened Wrappers
  import opened Basics

  /** The relative padding around the plot area. */
  const GRAPH_PADDING: real := 1.0 / 15.0

  /** The range setting of one axis: RANGE_AUTO or a fixed (min, max) pair. */
  datatype AxisRange = Auto | Fixed(range: Interval)

  /** The ranges `get_ranges` hands out, x first. */
  datatype Ranges = Ranges(x: Interval, y: Interval)

  /** The automatic range of an axis: the data extent, widened by 0.1 when
      all data share one value. */
  function AutoRange(data: Interval): (r: Interval)
    ensures r.lo == data.lo
    ensures data.lo <= data.hi ==> r.lo < r.hi
    ensures data.lo != data.hi ==> r == data
    ensures data.lo == data.hi ==> r.hi == data.lo + 0.1
  {
    if data.lo == data.hi then Interval(data.lo, data.lo + 0.1) else data
  }

  /** The range one axis shows: a fixed range as given; an automatic one from
      the data, which raises TypeError when no data extent was ever computed. */
  function EffectiveRange(setting: AxisRange, data: Option<Interval>): (r: Result<Interval>)
    ensures setting.Fixed? ==> r == Success(setting.range)
    ensures setting.Auto? ==> (r.Failure? <==> data.None?)
    ensures r.Failure? ==> r.error == TypeError
    ensures setting.Auto? && data.Some? ==> r == Success(AutoRange(data.value))
  {
    match setting
    case Fixed(range) => Success(range)
    case Auto => if data.None? then Failure(TypeError) else Success(AutoRange(data.value))
  }

  /** `get_ranges`: the x range, then the y range. */
  function GetRanges(xSetting: AxisRange, ySetting: AxisRange,
                     dataX: Option<Interval>, dataY: Option<Interval>): (r: Result<Ranges>)
    ensures r.Success? <==> EffectiveRange(xSetting, dataX).Success? && EffectiveRange(ySetting, dataY).Success?
    ensures r.Success? ==> r.value == Ranges(EffectiveRange(xSetting, dataX).value,
                                             EffectiveRange(ySetting, dataY).value)
  {
    var x := EffectiveRange(xSetting, dataX);
    var y := EffectiveRange(ySetting, dataY);
    if x.Failure? then Failure(x.error)
    else if y.Failure? then Failure(y.error)
    else Success(Ranges(x.value, y.value))
  }

  /** Auto ranges computed from data with min <= max are never degenerate,
      and an axis's range depends only on that axis's own setting. */
  lemma AutoRangesAreProper(xSetting: AxisRange, ySetting: AxisRange, dataX: Interval, dataY: Interval)
    requires dataX.lo <= dataX.hi && dataY.lo <= dataY.hi
    ensures var r := GetRanges(xSetting, ySetting, Some(dataX), Some(dataY));
      r.Success? &&
      (xSetting.Auto? ==> r.value.x.lo < r.value.x.hi) &&
      (ySetting.Auto? ==> r.value.y.lo < r.value.y.hi)
  {
  }

  /** The padded band [size * P, size * (1 - P)] inside which the plot lies. */
  function Band(size: int): (b: Interval)
    ensures b.hi - b.lo == size as real * (1.0 - 2.0 * GRAPH_PADDING)
  {
    Interval(size as real * GRAPH_PADDING, size as real * (1.0 - GRAPH_PADDING))
  }

  /** Pixels per data unit along an axis of `size` pixels showing `r`. */
  function Factor(size: int, r: Interval): real
    requires r.lo != r.hi
  {
    (size as real * (1.0 - 2.0 * GRAPH_PADDING)) / (r.hi - r.lo)
  }

  /** Both ranges can be divided by: `get_absolute_zero` raises
      ZeroDivisionError otherwise. */
  predicate Mappable(rg: Ranges) {
    rg.x.lo != rg.x.hi && rg.y.lo != rg.y.hi
  }

  /** `get_absolute_zero`: the pixel of the data origin. */
  function AbsoluteZero(rect: Rect, rg: Ranges): Point
    requires Mappable(rg)
  {
    var xf := Factor(rect.width, rg.x);
    var yf := Factor(rect.height, rg.y);
    Point(rect.width as real * GRAPH_PADDING - rg.x.lo * xf,
          rect.height as real - (rect.height as real * GRAPH_PADDING - rg.y.lo * yf))
  }

  /** The numbers `get_absolute_point` works with: the pixel of the data
      origin and the two factors. */
  datatype Mapping = Mapping(zero: Point, xFactor: real, yFactor: real)

  function MappingOf(rect: Rect, rg: Ranges): Mapping
    requires Mappable(rg)
  {
    Mapping(AbsoluteZero(rect, rg), Factor(rect.width, rg.x), Factor(rect.height, rg.y))
  }

  /** The pixel of data point p: x grows to the right, y upwards. */
  function Apply(m: Mapping, p: Point): Point {
    Point(m.zero.x + p.x * m.xFactor, m.zero.y - p.y * m.yFactor)
  }

  /** `get_absolute_point`: the pixel of the data point p. */
  function AbsolutePoint(rect: Rect, rg: Ranges, p: Point): Point
    requires Mappable(rg)
  {
    Apply(MappingOf(rect, rg), p)
  }

  /** The one-dimensional form of the map: the band's low end plus the
      distance from the range's low end, scaled. */
  function Scale(size: int, r: Interval, v: real): real
    requires r.lo != r.hi
  {
    Band(size).lo + (v - r.lo) * Factor(size, r)
  }

  lemma Distribute(a: real, b: real, f: real)
    ensures a * f - b * f == (a - b) * f
  {
  }

  /** The map is affine in each coordinate: x is scaled from the left band
      edge, y from the bottom band edge upwards. */
  lemma {:induction false} AbsolutePointIsAffine(rect: Rect, rg: Ranges, p: Point)
    requires Mappable(rg)
    ensures AbsolutePoint(rect, rg, p).x == Scale(rect.width, rg.x, p.x)
    ensures AbsolutePoint(rect, rg, p).y == rect.height as real - Scale(rect.height, rg.y, p.y)
  {
    Distribute(p.x, rg.x.lo, Factor(rect.width, rg.x));
    Distribute(p.y, rg.y.lo, Factor(rect.height, rg.y));
  }

  lemma QuotientTimes(c: real, d: real)
    requires d != 0.0
    ensures d * (c / d) == c
  {
  }

  /** The range's ends land on the band's ends. */
  lemma {:induction false} ScaleEndpoints(size: int, r: Interval)
    requires r.lo != r.hi
    ensures Scale(size, r, r.lo) == Band(size).lo
    ensures Scale(size, r, r.hi) == Band(size).hi
  {
    QuotientTimes(size as real * (1.0 - 2.0 * GRAPH_PADDING), r.hi - r.lo);
  }

  lemma FactorPositive(size: int, r: Interval)
    requires size > 0 && r.lo < r.hi
    ensures Factor(size, r) > 0.0
  {
  }

  lemma MulLess(a: real, b: real, f: real)
    requires a < b && f > 0.0
    ensures a * f < b * f
  {
  }

  lemma MulLeIff(a: real, b: real, f: real)
    requires f > 0.0
    ensures a * f <= b * f <==> a <= b
  {
    if a <= b {
      assert (b - a) * f >= 0.0;
    } else {
      MulLess(b, a, f);
    }
  }

  /** On a proper range the map is strictly increasing. */
  lemma {:induction false} ScaleIncreasing(size: int, r: Interval, v1: real, v2: real)
    requires size > 0 && r.lo < r.hi && v1 < v2
    ensures Scale(size, r, v1) < Scale(size, r, v2)
  {
    FactorPositive(size, r);
    MulLess(v1 - r.lo, v2 - r.lo, Factor(size, r));
  }

  /** On a proper range a value lies in the band exactly when it lies in the
      range. */
  lemma {:induction false} ScaleInBandIff(size: int, r: Interval, v: real)
    requires size > 0 && r.lo < r.hi
    ensures IsInRange(Scale(size, r, v), Band(size)) <==> IsInRange(v, r)
  {
    var f := Factor(size, r);
    FactorPositive(size, r);
    MulLeIff(0.0, v - r.lo, f);
    MulLeIff(v - r.lo, r.hi - r.lo, f);
    QuotientTimes(size as real * (1.0 - 2.0 * GRAPH_PADDING), r.hi - r.lo);
    assert (r.hi - r.lo) * f == Band(size).hi - Band(size).lo;
  }

  /** `get_absolute_point` sends (xmin, ymin) to the bottom-left band corner
      (w * P, h * (1 - P)) and (xmax, ymax) to the top-right one
      (w * (1 - P), h * P). */
  lemma {:induction false} AbsolutePointCorners(rect: Rect, rg: Ranges)
    requires Mappable(rg)
    ensures AbsolutePoint(rect, rg, Point(rg.x.lo, rg.y.lo))
         == Point(Band(rect.width).lo, Band(rect.height).hi)
    ensures AbsolutePoint(rect, rg, Point(rg.x.hi, rg.y.hi))
         == Point(Band(rect.width).hi, Band(rect.height).lo)
  {
    AbsolutePointIsAffine(rect, rg, Point(rg.x.lo, rg.y.lo));
    AbsolutePointIsAffine(rect, rg, Point(rg.x.hi, rg.y.hi));
    ScaleEndpoints(rect.width, rg.x);
    ScaleEndpoints(rect.height, rg.y);
  }

  /** On proper ranges larger x moves right and larger y moves up (to a
      smaller pixel row). */
  lemma {:induction false} AbsolutePointMonotone(rect: Rect, rg: Ranges, p: Point, q: Point)
    requires rect.width > 0 && rect.height > 0 && rg.x.lo < rg.x.hi && rg.y.lo < rg.y.hi
    ensures p.x < q.x ==> AbsolutePoint(rect, rg, p).x < AbsolutePoint(rect, rg, q).x
    ensures p.y < q.y ==> AbsolutePoint(rect, rg, p).y > AbsolutePoint(rect, rg, q).y
  {
    AbsolutePointIsAffine(rect, rg, p);
    AbsolutePointIsAffine(rect, rg, q);
    if p.x < q.x {
      ScaleIncreasing(rect.width, rg.x, p.x, q.x);
    }
    if p.y < q.y {
      ScaleIncreasing(rect.height, rg.y, p.y, q.y);
    }
  }

  /** On proper ranges a data point maps into the padded plot area exactly
      when it lies inside both ranges. */
  lemma {:induction false} AbsolutePointInBandIff(rect: Rect, rg: Ranges, p: Point)
    requires rect.width > 0 && rect.height > 0 && rg.x.lo < rg.x.hi && rg.y.lo < rg.y.hi
    ensures IsInRange(AbsolutePoint(rect, rg, p).x, Band(rect.width)) <==> IsInRange(p.x, rg.x)
    ensures IsInRange(AbsolutePoint(rect, rg, p).y, Band(rect.height)) <==> IsInRange(p.y, rg.y)
  {
    AbsolutePointIsAffine(rect, rg, p);
    ScaleInBandIff(rect.width, rg.x, p.x);
    ScaleInBandIff(rect.height, rg.y, p.y);
  }

  // ---------------------------------------------------------------- ticks

  datatype Axis = XAxis | YAxis

  /** A tick: its pixel and the data value it marks. */
  datatype Tick = Tick(pos: Point, num: real)

  /** The step and the multipliers `_get_xtics` / `_get_ytics` walk: tick i
      marks i * 10 ** exp for first <= i <= last, every divideBy-th one. */
  datatype TicLayout = TicLayout(exp: int, first: int, last: int, divideBy: int)

  function Pow10Nat(n: nat): (p: nat)
    ensures p >= 1
  {
    if n == 0 then 1 else 10 * Pow10Nat(n - 1)
  }

  /** `10 ** exp` for an integer exponent of either sign. */
  function Pow10(e: int): (p: real)
    ensures p > 0.0
    ensures e >= 0 ==> p >= 1.0
  {
    if e >= 0 then Pow10Nat(e) as real else 1.0 / Pow10Nat(-e) as real
  }

  function RangeOf(rg: Ranges, axis: Axis): Interval {
    if axis == XAxis then rg.x else rg.y
  }

  function SizeOf(rect: Rect, axis: Axis): int {
    if axis == XAxis then rect.width else rect.height
  }

  lemma DivLess(a: real, b: real, p: real)
    requires a < b && p > 0.0
    ensures a / p < b / p
  {
  }

  lemma DivNonNegative(n: real, s: real)
    requires n >= 0.0 && s > 0.0
    ensures n / s >= 0.0
  {
  }

  /** The tick grid of one axis. The map's divisions come first (a degenerate
      range of either axis raises ZeroDivisionError), then log10 of the
      axis's extent (ValueError when it is not positive), then the division
      by size / 50 (ZeroDivisionError for an empty axis). log10 is a parameter. */
  function TicLayoutOf(rect: Rect, rg: Ranges, axis: Axis, log10: real -> real): (r: Result<TicLayout>)
    ensures !Mappable(rg) ==> r == Failure(ZeroDivisionError)
    ensures Mappable(rg) && RangeOf(rg, axis).hi < RangeOf(rg, axis).lo ==> r == Failure(ValueError)
    ensures Mappable(rg) && RangeOf(rg, axis).lo < RangeOf(rg, axis).hi && SizeOf(rect, axis) == 0 ==>
              r == Failure(ZeroDivisionError)
    ensures r.Success? ==> Mappable(rg) && RangeOf(rg, axis).lo < RangeOf(rg, axis).hi && SizeOf(rect, axis) > 0
    ensures r.Success? ==> r.value.divideBy >= 1 && r.value.first <= r.value.last
    ensures r.Success? ==> (r.value.first == Trunc(RangeOf(rg, axis).lo / Pow10(r.value.exp)) &&
                            r.value.last == Trunc(RangeOf(rg, axis).hi / Pow10(r.value.exp)))
  {
    if !Mappable(rg) then Failure(ZeroDivisionError)
    else
      var range := RangeOf(rg, axis);
      var delta := range.hi - range.lo;
      if delta <= 0.0 then Failure(ValueError)
      else
        var exp := Trunc(log10(delta)) - 1;
        var p := Pow10(exp);
        var first := Trunc(range.lo / p);
        var last := Trunc(range.hi / p);
        DivLess(range.lo, range.hi, p);
        TruncMonotone(range.lo / p, range.hi / p);
        var n := last - first;
        var size := SizeOf(rect, axis);
        if size == 0 then Failure(ZeroDivisionError)
        else
          DivNonNegative(n as real, size as real / 50.0);
          var q := Trunc(n as real / (size as real / 50.0));
          Success(TicLayout(exp, first, last, if q == 0 then 1 else q))
  }

  /** The pixel of the tick for data value num: on the x axis the point
      (num, 0), on the y axis (0, num). */
  function TicPoint(m: Mapping, axis: Axis, num: real): Point {
    if axis == XAxis then Apply(m, Point(num, 0.0)) else Apply(m, Point(0.0, num))
  }

  /** The pixel coordinate along the axis. */
  function Along(axis: Axis, p: Point): real {
    if axis == XAxis then p.x else p.y
  }

  /** The data value of multiplier i: i * 10 ** exp. */
  function TickNum(L: TicLayout, i: int): real {
    i as real * Pow10(L.exp)
  }

  function MakeTick(m: Mapping, axis: Axis, L: TicLayout, i: int): Tick {
    Tick(TicPoint(m, axis, TickNum(L, i)), TickNum(L, i))
  }

  /** Multiplier i yields a tick when the divisor divides it and its pixel
      lies in the padded band. */
  predicate Emits(m: Mapping, band: Interval, axis: Axis, L: TicLayout, i: int)
    requires L.divideBy >= 1
  {
    i % L.divideBy == 0 && IsInRange(Along(axis, MakeTick(m, axis, L, i).pos), band)
  }

  /** The multipliers in [first, end) that yield ticks, in order. */
  function Multipliers(m: Mapping, band: Interval, axis: Axis, L: TicLayout, end: int): seq<int>
    requires L.divideBy >= 1
    decreases end - L.first
  {
    if end <= L.first then []
    else Multipliers(m, band, axis, L, end - 1) +
         (if Emits(m, band, axis, L, end - 1) then [end - 1] else [])
  }

  /** The ticks of a list of multipliers, in the same order. */
  function MakeTicks(m: Mapping, axis: Axis, L: TicLayout, ms: seq<int>): (ts: seq<Tick>)
    ensures |ts| == |ms|
  {
    if ms == [] then []
    else MakeTicks(m, axis, L, ms[..|ms| - 1]) + [MakeTick(m, axis, L, ms[|ms| - 1])]
  }

  /** Tick j is the tick of multiplier j. */
  lemma {:induction false} MakeTicksIndexing(m: Mapping, axis: Axis, L: TicLayout, ms: seq<int>)
    ensures forall j :: 0 <= j < |ms| ==> MakeTicks(m, axis, L, ms)[j] == MakeTick(m, axis, L, ms[j])
  {
    if ms != [] {
      MakeTicksIndexing(m, axis, L, ms[..|ms| - 1]);
    }
  }

  predicate StrictlyIncreasing(ms: seq<int>) {
    forall j, k :: 0 <= j < k < |ms| ==> ms[j] < ms[k]
  }

  /** The multipliers are strictly increasing, lie in [first, end), are
      multiples of the divisor with a pixel in the band, and every such
      multiplier is among them. */
  lemma {:induction false} MultipliersSpec(m: Mapping, band: Interval, axis: Axis, L: TicLayout, end: int, ms: seq<int>)
    requires L.divideBy >= 1
    requires ms == Multipliers(m, band, axis, L, end)
    ensures forall j :: 0 <= j < |ms| ==> L.first <= ms[j] < end && Emits(m, band, axis, L, ms[j])
    ensures StrictlyIncreasing(ms)
    ensures forall i :: L.first <= i < end && Emits(m, band, axis, L, i) ==> i in ms
    decreases end - L.first
  {
    if end > L.first {
      MultipliersSpec(m, band, axis, L, end - 1, Multipliers(m, band, axis, L, end - 1));
    }
  }

  /** Larger multipliers mark larger values. */
  lemma TickNumIncreasing(L: TicLayout, a: int, b: int)
    requires a < b
    ensures TickNum(L, a) < TickNum(L, b)
  {
    MulLess(a as real, b as real, Pow10(L.exp));
  }

  /** Ticks made from increasing multipliers have increasing values. */
  lemma {:induction false} TicksAscend(m: Mapping, axis: Axis, L: TicLayout, ms: seq<int>, ts: seq<Tick>)
    requires StrictlyIncreasing(ms) && ts == MakeTicks(m, axis, L, ms)
    ensures forall j, k :: 0 <= j < k < |ts| ==> ts[j].num < ts[k].num
  {
    MakeTicksIndexing(m, axis, L, ms);
    forall j, k | 0 <= j < k < |ts|
      ensures ts[j].num < ts[k].num
    {
      TickNumIncreasing(L, ms[j], ms[k]);
    }
  }

  /** The band is symmetric: it is the same seen from either edge. */
  lemma BandSymmetric(size: int, v: real)
    ensures IsInRange(size as real - v, Band(size)) <==> IsInRange(v, Band(size))
  {
  }

  /** On a proper range of a non-empty axis, multiplier i yields a tick
      exactly when the divisor divides it and its value lies inside the
      axis's range. */
  lemma {:induction false} EmitsIff(rect: Rect, rg: Ranges, axis: Axis, L: TicLayout, i: int)
    requires L.divideBy >= 1 && Mappable(rg)
    requires SizeOf(rect, axis) > 0 && RangeOf(rg, axis).lo < RangeOf(rg, axis).hi
    ensures Emits(MappingOf(rect, rg), Band(SizeOf(rect, axis)), axis, L, i) <==>
              i % L.divideBy == 0 && IsInRange(TickNum(L, i), RangeOf(rg, axis))
  {
    var num := TickNum(L, i);
    if axis == XAxis {
      AbsolutePointIsAffine(rect, rg, Point(num, 0.0));
      ScaleInBandIff(rect.width, rg.x, num);
    } else {
      AbsolutePointIsAffine(rect, rg, Point(0.0, num));
      ScaleInBandIff(rect.height, rg.y, num);
      BandSymmetric(rect.height, Scale(rect.height, rg.y, num));
    }
  }

  /** What `_get_xtics` / `_get_ytics` promise: every tick lies in the padded
      band, marks a value inside the axis's range that is a multiple i of
      10 ** exp with the divisor dividing i, and the values strictly
      increase. */
  lemma {:induction false} TicsOfSpec(rect: Rect, rg: Ranges, axis: Axis, log10: real -> real)
    requires TicsOf(rect, rg, axis, log10).Success?
    ensures var ts := TicsOf(rect, rg, axis, log10).value;
            var L := TicLayoutOf(rect, rg, axis, log10).value;
            (forall j :: 0 <= j < |ts| ==>
               IsInRange(Along(axis, ts[j].pos), Band(SizeOf(rect, axis))) &&
               IsInRange(ts[j].num, RangeOf(rg, axis)) &&
               exists i :: i % L.divideBy == 0 && ts[j].num == TickNum(L, i)) &&
            (forall j, k :: 0 <= j < k < |ts| ==> ts[j].num < ts[k].num)
  {
    var L := TicLayoutOf(rect, rg, axis, log10).value;
    var m := MappingOf(rect, rg);
    var band := Band(SizeOf(rect, axis));
    var ms := Multipliers(m, band, axis, L, L.last + 1);
    var ts := TicsOf(rect, rg, axis, log10).value;
    assert ts == MakeTicks(m, axis, L, ms);
    MakeTicksIndexing(m, axis, L, ms);
    MultipliersSpec(m, band, axis, L, L.last + 1, ms);
    forall j | 0 <= j < |ts|
      ensures IsInRange(Along(axis, ts[j].pos), band) && IsInRange(ts[j].num, RangeOf(rg, axis))
      ensures exists i :: i % L.divideBy == 0 && ts[j].num == TickNum(L, i)
    {
      assert Emits(m, band, axis, L, ms[j]);
      EmitsIff(rect, rg, axis, L, ms[j]);
      assert ts[j].num == TickNum(L, ms[j]);
    }
    TicksAscend(m, axis, L, ms, ts);
  }

  /** One more multiplier adds its tick exactly when it yields one: the
      ticks up to i + 1 are those up to i, followed by i's tick if it
      yields one. */
  lemma MakeTicksStep(m: Mapping, band: Interval, axis: Axis, L: TicLayout, i: int, tics: seq<Tick>)
    requires L.divideBy >= 1 && L.first <= i
    requires tics == MakeTicks(m, axis, L, Multipliers(m, band, axis, L, i))
    ensures Emits(m, band, axis, L, i) ==>
              MakeTicks(m, axis, L, Multipliers(m, band, axis, L, i + 1)) == tics + [MakeTick(m, axis, L, i)]
    ensures !Emits(m, band, axis, L, i) ==>
              MakeTicks(m, axis, L, Multipliers(m, band, axis, L, i + 1)) == tics
  {
    var before := Multipliers(m, band, axis, L, i);
    if Emits(m, band, axis, L, i) {
      var ms := before + [i];
      assert Multipliers(m, band, axis, L, i + 1) == ms;
      assert ms[..|ms| - 1] == before && ms[|ms| - 1] == i;
      assert MakeTicks(m, axis, L, ms) == MakeTicks(m, axis, L, before) + [MakeTick(m, axis, L, i)];
    } else {
      assert Multipliers(m, band, axis, L, i + 1) == before + [];
      assert before + [] == before;
    }
  }

  /** The ticks of one axis as `_get_xtics` / `_get_ytics` return them: the
      layout's error, or the ticks of the multipliers first..last that yield
      one, in increasing order. */
  function TicsOf(rect: Rect, rg: Ranges, axis: Axis, log10: real -> real): (r: Result<seq<Tick>>)
    ensures TicLayoutOf(rect, rg, axis, log10).Failure? ==>
              r == Failure(TicLayoutOf(rect, rg, axis, log10).error)
    ensures r.Success? ==> TicLayoutOf(rect, rg, axis, log10).Success?
  {
    match TicLayoutOf(rect, rg, axis, log10)
    case Failure(e) => Failure(e)
    case Success(L) =>
      var m := MappingOf(rect, rg);
      Success(MakeTicks(m, axis, L, Multipliers(m, Band(SizeOf(rect, axis)), axis, L, L.last + 1)))
  }

  /** One turn of the loop of `_get_xtics` / `_get_ytics`: multiplier i's
      tick is kept exactly when it yields one. */
  method KeepTick(m: Mapping, band: Interval, axis: Axis, L: TicLayout, i: int, tics: seq<Tick>)
    returns (kept: seq<Tick>)
    requires L.divideBy >= 1 && L.first <= i
    requires tics == MakeTicks(m, axis, L, Multipliers(m, band, axis, L, i))
    ensures kept == MakeTicks(m, axis, L, Multipliers(m, band, axis, L, i + 1))
  {
    MakeTicksStep(m, band, axis, L, i, tics);
    if Emits(m, band, axis, L, i) {
      kept := tics + [MakeTick(m, axis, L, i)];
    } else {
      kept := tics;
    }
  }

  /** The loop of `_get_xtics` / `_get_ytics`: walk the multipliers from
      first to last and keep, in order, the ticks of those that yield one. */
  method CollectTicks(m: Mapping, band: Interval, axis: Axis, L: TicLayout) returns (tics: seq<Tick>)
    requires L.divideBy >= 1 && L.first <= L.last
    ensures tics == MakeTicks(m, axis, L, Multipliers(m, band, axis, L, L.last + 1))
  {
    tics := [];
    var i := L.first;
    while i <= L.last
      invariant L.first <= i <= L.last + 1
      invariant tics == MakeTicks(m, axis, L, Multipliers(m, band, axis, L, i))
    {
      tics := KeepTick(m, band, axis, L, i, tics);
      i := i + 1;
    }
  }

  /** `_get_xtics` / `_get_ytics`: the layout's error, or the ticks the walk
      over the multipliers collects. */
  method ComputeTics(rect: Rect, rg: Ranges, axis: Axis, log10: real -> real) returns (r: Result<seq<Tick>>)
    ensures r == TicsOf(rect, rg, axis, log10)
  {
    var layout := TicLayoutOf(rect, rg, axis, log10);
    if layout.Failure? {
      return Failure(layout.error);
    }
    var L := layout.value;
    var tics := CollectTicks(MappingOf(rect, rg), Band(SizeOf(rect, axis)), axis, L);
    return Success(tics);
  }
}

=== FILE: multi_bar_charts.dfy ===
/** The grouped bar chart of multi_bar_chart.py: groups of bars laid out
    left to right in vertical mode, every bar the same width, standing on
    the bottom of the plot area; each drawn bar registers a sensitive area
    keyed by its (group, bar) position, and mouse events are answered from
    that registry. */
module MultiBarCharts {
  import opened Wrappers
  import opened Basics

  /** `BarGroup._bar_padding`: pixels between two bars of a group. */
  const BAR_PADDING: int := 2
  /** The default `MultiBarChart._group_padding`. */
  const GROUP_PADDING: int := 16

  /** A bar of a group: name, value, title and colour. */
  datatype Bar = Bar(name: string, value: real, title: string, color: ColorSetting)

  /** A sensitive area: the rectangle a bar was drawn in, and the
      (group, bar) key it was registered with. */
  datatype Area = Area(x: int, y: real, width: int, height: real, key: (nat, nat))

  /** The closed rectangle of the area holds the point. */
  predicate Contains(a: Area, px: real, py: real) {
    a.x as real <= px <= (a.x + a.width) as real && a.y <= py <= a.y + a.height
  }

  /** `get_sensitive_areas(x, y)`: the keys of the registered areas holding
      the point, in the order they were registered. */
  function ActiveKeys(areas: seq<Area>, px: real, py: real): (ks: seq<(nat, nat)>)
    ensures |ks| <= |areas|
    ensures forall k :: k in ks <==> exists a :: a in areas && Contains(a, px, py) && a.key == k
  {
    if areas == [] then []
    else
      var init := areas[..|areas| - 1];
      var last := areas[|areas| - 1];
      assert areas == init + [last];
      ActiveKeys(init, px, py) + (if Contains(last, px, py) then [last.key] else [])
  }

  // ------------------------------------------------------------ values

  /** The largest of a non-empty list of values. */
  function MaxOf(vs: seq<real>): (m: real)
    requires vs != []
    ensures forall j :: 0 <= j < |vs| ==> vs[j] <= m
    ensures exists j :: 0 <= j < |vs| && vs[j] == m
  {
    if |vs| == 1 then vs[0]
    else
      var m := MaxOf(vs[..|vs| - 1]);
      assert forall j :: 0 <= j < |vs| - 1 ==> vs[..|vs| - 1][j] == vs[j];
      if vs[|vs| - 1] > m then vs[|vs| - 1] else m
  }

  /** `BarGroup.get_maximum_value`: max() of the bar values, which raises
      ValueError for a group without bars. */
  function GroupMaximum(vs: seq<real>): (r: Result<real>)
    ensures r.Failure? <==> vs == []
    ensures r.Failure? ==> r.error == ValueError
    ensures r.Success? ==> (forall j :: 0 <= j < |vs| ==> vs[j] <= r.value) &&
                           exists j :: 0 <= j < |vs| && vs[j] == r.value
  {
    if vs == [] then Failure(ValueError) else Success(MaxOf(vs))
  }

  /** The maximum over the first m groups' maxima; the first group without
      bars raises. */
  function MaxOverGroups(vs: seq<seq<real>>, m: nat): Result<real>
    requires 0 < m <= |vs|
  {
    var here := GroupMaximum(vs[m - 1]);
    if m == 1 then here
    else
      var before := MaxOverGroups(vs, m - 1);
      if before.Failure? then before
      else if here.Failure? then here
      else if here.value > before.value then here
      else before
  }

  /** `max(group.get_maximum_value() for group in self._groups)`: ValueError
      without groups. */
  function ChartMaximum(vs: seq<seq<real>>): Result<real> {
    if vs == [] then Failure(ValueError) else MaxOverGroups(vs, |vs|)
  }

  /** The chart maximum exists exactly when there are groups and none is
      empty; then it bounds every bar and is the value of one of them. */
  lemma {:induction false} MaxOverGroupsSpec(vs: seq<seq<real>>, m: nat)
    requires 0 < m <= |vs|
    ensures MaxOverGroups(vs, m).Failure? <==> exists i :: 0 <= i < m && vs[i] == []
    ensures MaxOverGroups(vs, m).Failure? ==> MaxOverGroups(vs, m).error == ValueError
    ensures MaxOverGroups(vs, m).Success? ==>
              (forall i, j :: 0 <= i < m && 0 <= j < |vs[i]| ==> vs[i][j] <= MaxOverGroups(vs, m).value) &&
              exists i, j :: 0 <= i < m && 0 <= j < |vs[i]| && vs[i][j] == MaxOverGroups(vs, m).value
  {
    var here := GroupMaximum(vs[m - 1]);
    if m > 1 {
      MaxOverGroupsSpec(vs, m - 1);
      var before := MaxOverGroups(vs, m - 1);
      if before.Success? && here.Success? {
        var i, j :| 0 <= i < m - 1 && 0 <= j < |vs[i]| && vs[i][j] == before.value;
        var l :| 0 <= l < |vs[m - 1]| && vs[m - 1][l] == here.value;
        if here.value > before.value {
          assert vs[m - 1][l] == MaxOverGroups(vs, m).value;
        } else {
          assert vs[i][j] == MaxOverGroups(vs, m).value;
        }
      }
    } else if here.Success? {
      var l :| 0 <= l < |vs[0]| && vs[0][l] == here.value;
      assert vs[0][l] == MaxOverGroups(vs, m).value;
    }
  }

  /** The number of bars in the first m groups. */
  function BarsBefore(vs: seq<seq<real>>, m: nat): nat
    requires m <= |vs|
  {
    if m == 0 then 0 else BarsBefore(vs, m - 1) + |vs[m - 1]|
  }

  /** There are no bars before group m exactly when those groups are all
      empty. */
  lemma {:induction false} NoBarsBefore(vs: seq<seq<real>>, m: nat)
    requires m <= |vs|
    ensures BarsBefore(vs, m) == 0 <==> forall i :: 0 <= i < m ==> vs[i] == []
  {
    if m > 0 {
      NoBarsBefore(vs, m - 1);
    }
  }

  /** `bar_count`: the number of bars of all groups. */
  function BarCount(vs: seq<seq<real>>): nat {
    BarsBefore(vs, |vs|)
  }

  // ------------------------------------------------------------ layout

  /** `bar_width` in `_do_draw_multi_vertical`: the plot width less the
      padding between the bars of each group and between groups, shared by
      all bars (integer division). */
  function BarWidth(rect: Rect, barCount: int, n: int, groupPadding: int): int
    requires barCount > 0
  {
    (rect.width - (barCount - n) * BAR_PADDING - (n - 1) * groupPadding) / barCount
  }

  /** `bar_x`: bar j of a group starting at groupStart. */
  function BarX(groupStart: int, j: int, bw: int): int {
    groupStart + j * (bw + BAR_PADDING)
  }

  /** The sensitive area of bar j of group i: height h * v / max, standing
      on the bottom of the plot area. */
  function BarArea(rect: Rect, groupStart: int, bw: int, maxValue: real, i: nat, j: nat, v: real): Area
    requires maxValue != 0.0
  {
    var h := rect.height as real * v / maxValue;
    Area(BarX(groupStart, j, bw), rect.y as real + rect.height as real - h, bw, h, (i, j))
  }

  /** The areas of the first k bars of group i. */
  function GroupAreas(rect: Rect, groupStart: int, bw: int, maxValue: real, i: nat, vs: seq<real>, k: nat): seq<Area>
    requires maxValue != 0.0 && k <= |vs|
  {
    if k == 0 then []
    else GroupAreas(rect, groupStart, bw, maxValue, i, vs, k - 1) + [BarArea(rect, groupStart, bw, maxValue, i, k - 1, vs[k - 1])]
  }

  /** `BarGroup._do_draw`'s result: the right edge of its last bar, or its
      start when it has none, plus the group padding. */
  function GroupEnd(groupStart: int, bw: int, count: nat, groupPadding: int): int {
    (if count == 0 then groupStart else BarX(groupStart, count - 1, bw) + bw) + groupPadding
  }

  /** The `group_end` handed to group i: the plot's left edge, then each
      group's end. */
  function GroupStart(rect: Rect, vs: seq<seq<real>>, bw: int, groupPadding: int, i: nat): int
    requires i <= |vs|
  {
    if i == 0 then rect.x
    else GroupEnd(GroupStart(rect, vs, bw, groupPadding, i - 1), bw, |vs[i - 1]|, groupPadding)
  }

  /** The areas the first m groups register, group after group. */
  function ChartAreas(rect: Rect, vs: seq<seq<real>>, bw: int, maxValue: real, groupPadding: int, m: nat): seq<Area>
    requires maxValue != 0.0 && m <= |vs|
  {
    if m == 0 then []
    else ChartAreas(rect, vs, bw, maxValue, groupPadding, m - 1) +
         GroupAreas(rect, GroupStart(rect, vs, bw, groupPadding, m - 1), bw, maxValue, m - 1, vs[m - 1], |vs[m - 1]|)
  }

  /** Drawing group m continues the registry and the group chain. */
  lemma ChartStep(rect: Rect, vs: seq<seq<real>>, bw: int, maxValue: real, groupPadding: int, m: nat)
    requires maxValue != 0.0 && m < |vs|
    ensures ChartAreas(rect, vs, bw, maxValue, groupPadding, m + 1) ==
            ChartAreas(rect, vs, bw, maxValue, groupPadding, m) +
            GroupAreas(rect, GroupStart(rect, vs, bw, groupPadding, m), bw, maxValue, m, vs[m], |vs[m]|)
    ensures GroupStart(rect, vs, bw, groupPadding, m + 1) ==
            GroupEnd(GroupStart(rect, vs, bw, groupPadding, m), bw, |vs[m]|, groupPadding)
  {
  }

  /** A group registers one area per bar, bar j at position j. */
  lemma {:induction false} GroupAreasIndexing(rect: Rect, groupStart: int, bw: int, maxValue: real, i: nat, vs: seq<real>, k: nat)
    requires maxValue != 0.0 && k <= |vs|
    ensures |GroupAreas(rect, groupStart, bw, maxValue, i, vs, k)| == k
    ensures forall j :: 0 <= j < k ==>
              GroupAreas(rect, groupStart, bw, maxValue, i, vs, k)[j] == BarArea(rect, groupStart, bw, maxValue, i, j, vs[j])
  {
    if k > 0 {
      GroupAreasIndexing(rect, groupStart, bw, maxValue, i, vs, k - 1);
    }
  }

  /** The registry after the first m groups holds one area per bar. */
  lemma {:induction false} ChartAreasLength(rect: Rect, vs: seq<seq<real>>, bw: int, maxValue: real, groupPadding: int, m: nat)
    requires maxValue != 0.0 && m <= |vs|
    ensures |ChartAreas(rect, vs, bw, maxValue, groupPadding, m)| == BarsBefore(vs, m)
  {
    if m > 0 {
      ChartAreasLength(rect, vs, bw, maxValue, groupPadding, m - 1);
      GroupAreasIndexing(rect, GroupStart(rect, vs, bw, groupPadding, m - 1), bw, maxValue, m - 1, vs[m - 1], |vs[m - 1]|);
    }
  }

  /** Bar j of group i sits at position BarsBefore(i) + j of the registry,
      keyed (i, j), in the rectangle that starts j bar widths and paddings
      into its group. */
  lemma {:induction false} ChartAreaAt(rect: Rect, vs: seq<seq<real>>, bw: int, maxValue: real, groupPadding: int,
                                       m: nat, i: nat, j: nat)
    requires maxValue != 0.0 && i < m <= |vs| && j < |vs[i]|
    ensures BarsBefore(vs, i) + j < |ChartAreas(rect, vs, bw, maxValue, groupPadding, m)|
    ensures ChartAreas(rect, vs, bw, maxValue, groupPadding, m)[BarsBefore(vs, i) + j] ==
            BarArea(rect, GroupStart(rect, vs, bw, groupPadding, i), bw, maxValue, i, j, vs[i][j])
  {
    ChartAreasLength(rect, vs, bw, maxValue, groupPadding, m - 1);
    var start := GroupStart(rect, vs, bw, groupPadding, m - 1);
    GroupAreasIndexing(rect, start, bw, maxValue, m - 1, vs[m - 1], |vs[m - 1]|);
    var before := ChartAreas(rect, vs, bw, maxValue, groupPadding, m - 1);
    var group := GroupAreas(rect, start, bw, maxValue, m - 1, vs[m - 1], |vs[m - 1]|);
    assert ChartAreas(rect, vs, bw, maxValue, groupPadding, m) == before + group;
    if i < m - 1 {
      ChartAreaAt(rect, vs, bw, maxValue, groupPadding, m - 1, i, j);
    } else {
      assert (before + group)[BarsBefore(vs, i) + j] == group[j];
    }
  }

  /** Counting more groups never counts fewer bars. */
  lemma {:induction false} BarsBeforeGrows(vs: seq<seq<real>>, a: nat, b: nat)
    requires a <= b <= |vs|
    ensures BarsBefore(vs, a) <= BarsBefore(vs, b)
    decreases b - a
  {
    if a < b {
      BarsBeforeGrows(vs, a, b - 1);
    }
  }

  /** Every registered area has the one common bar width and stands on the
      bottom edge of the plot area. */
  lemma {:induction false} AreasShareWidthAndBottom(rect: Rect, vs: seq<seq<real>>, bw: int, maxValue: real, groupPadding: int, m: nat)
    requires maxValue != 0.0 && m <= |vs|
    ensures forall a :: a in ChartAreas(rect, vs, bw, maxValue, groupPadding, m) ==>
              a.width == bw && a.y + a.height == (rect.y + rect.height) as real
  {
    ChartAreasLength(rect, vs, bw, maxValue, groupPadding, m);
    var all := ChartAreas(rect, vs, bw, maxValue, groupPadding, m);
    forall a | a in all
      ensures a.width == bw && a.y + a.height == (rect.y + rect.height) as real
    {
      var k :| 0 <= k < |all| && all[k] == a;
      var i, j := GroupOfPosition(vs, m, k);
      ChartAreaAt(rect, vs, bw, maxValue, groupPadding, m, i, j);
    }
  }

  /** Position k among the first m groups' bars belongs to bar j of group i. */
  lemma {:induction false} GroupOfPosition(vs: seq<seq<real>>, m: nat, k: nat) returns (i: nat, j: nat)
    requires m <= |vs| && k < BarsBefore(vs, m)
    ensures i < m && j < |vs[i]| && k == BarsBefore(vs, i) + j
  {
    if k < BarsBefore(vs, m - 1) {
      i, j := GroupOfPosition(vs, m - 1, k);
    } else {
      i, j := m - 1, k - BarsBefore(vs, m - 1);
    }
  }

  /** The bar holding the maximum value spans the full plot height. */
  lemma TallestBarSpansHeight(rect: Rect, groupStart: int, bw: int, maxValue: real, i: nat, j: nat)
    requires maxValue != 0.0
    ensures BarArea(rect, groupStart, bw, maxValue, i, j, maxValue).height == rect.height as real
    ensures BarArea(rect, groupStart, bw, maxValue, i, j, maxValue).y == rect.y as real
  {
    assert rect.height as real * maxValue / maxValue == rect.height as real;
  }

  /** With a non-negative bar width and a positive group padding, every
      group starts strictly right of the one before. */
  lemma GroupStartsIncrease(rect: Rect, vs: seq<seq<real>>, bw: int, groupPadding: int, i: nat)
    requires i < |vs| && bw >= 0 && groupPadding > 0
    ensures GroupStart(rect, vs, bw, groupPadding, i) < GroupStart(rect, vs, bw, groupPadding, i + 1)
  {
    var count := |vs[i]|;
    if count > 0 {
      assert (count - 1) * (bw + BAR_PADDING) >= 0;
    }
  }

  /** When no group is empty, group i starts after all the bars, bar
      paddings and group paddings before it. */
  lemma {:induction false} GroupStartClosedForm(rect: Rect, vs: seq<seq<real>>, bw: int, groupPadding: int, i: nat)
    requires i <= |vs| && forall h :: 0 <= h < |vs| ==> vs[h] != []
    ensures GroupStart(rect, vs, bw, groupPadding, i) ==
            rect.x + BarsBefore(vs, i) * bw + (BarsBefore(vs, i) - i) * BAR_PADDING + i * groupPadding
  {
    if i > 0 {
      GroupStartClosedForm(rect, vs, bw, groupPadding, i - 1);
      ClosedFormStep(GroupStart(rect, vs, bw, groupPadding, i - 1), rect.x, BarsBefore(vs, i - 1), |vs[i - 1]|,
                     i, bw, groupPadding);
    }
  }

  /** One group of c bars moves the closed form from i - 1 groups to i. */
  lemma ClosedFormStep(s: int, x: int, b: int, c: int, i: int, bw: int, gp: int)
    requires c >= 1 && s == x + b * bw + (b - (i - 1)) * BAR_PADDING + (i - 1) * gp
    ensures BarX(s, c - 1, bw) + bw + gp == x + (b + c) * bw + (b + c - i) * BAR_PADDING + i * gp
  {
    assert (c - 1) * (bw + BAR_PADDING) == (c - 1) * bw + (c - 1) * BAR_PADDING;
    assert (c - 1) * bw + bw == c * bw;
    assert (b + c) * bw == b * bw + c * bw;
    assert (i - 1) * gp + gp == i * gp;
  }

  /** q * n is at most x when q is x / n. */
  lemma QuotientTimesDivisor(x: int, n: int)
    requires n > 0
    ensures (x / n) * n <= x
  {
    assert x == n * (x / n) + x % n;
  }

  /** With no empty group, the right edge of the last bar lies inside the
      plot area: the shared width leaves room for every padding. */
  lemma {:induction false} LastBarInsidePlot(rect: Rect, vs: seq<seq<real>>, groupPadding: int)
    requires vs != [] && forall h :: 0 <= h < |vs| ==> vs[h] != []
    ensures BarCount(vs) > 0
    ensures GroupStart(rect, vs, BarWidth(rect, BarCount(vs), |vs|, groupPadding), groupPadding, |vs|) - groupPadding
            <= rect.x + rect.width
  {
    var n := |vs|;
    var count := BarCount(vs);
    NoBarsBefore(vs, n);
    assert vs[0] != [];
    var bw := BarWidth(rect, count, n, groupPadding);
    GroupStartClosedForm(rect, vs, bw, groupPadding, n);
    QuotientTimesDivisor(rect.width - (count - n) * BAR_PADDING - (n - 1) * groupPadding, count);
    assert bw * count == count * bw;
    assert n * groupPadding - groupPadding == (n - 1) * groupPadding;
  }

  /** A click inside a drawn bar's rectangle reports that bar: its key is
      among the active keys of the registry. */
  lemma ClickedBarIsActive(rect: Rect, vs: seq<seq<real>>, bw: int, maxValue: real, groupPadding: int,
                           i: nat, j: nat, px: real, py: real)
    requires maxValue != 0.0 && i < |vs| && j < |vs[i]|
    requires Contains(BarArea(rect, GroupStart(rect, vs, bw, groupPadding, i), bw, maxValue, i, j, vs[i][j]), px, py)
    ensures (i, j) in ActiveKeys(ChartAreas(rect, vs, bw, maxValue, groupPadding, |vs|), px, py)
  {
    ChartAreaAt(rect, vs, bw, maxValue, groupPadding, |vs|, i, j);
    var all := ChartAreas(rect, vs, bw, maxValue, groupPadding, |vs|);
    assert all[BarsBefore(vs, i) + j] in all;
  }

  /** With a chart maximum, no group is empty, so there are bars to share
      the width. */
  lemma MaximumMeansBars(vs: seq<seq<real>>)
    requires ChartMaximum(vs).Success?
    ensures vs != [] && vs[0] != [] && BarCount(vs) > 0
  {
    MaxOverGroupsSpec(vs, |vs|);
    NoBarsBefore(vs, |vs|);
  }

  /** What `MultiBarChart.draw` leaves in the registry for the group values
      vs: the maximum fails first (ValueError), then the bar heights divide
      by it (ZeroDivisionError), otherwise every group registers its bars. */
  function ChartDraw(rect: Rect, vs: seq<seq<real>>, groupPadding: int): Result<seq<Area>> {
    var maximum := ChartMaximum(vs);
    if maximum.Failure? then Failure(maximum.error)
    else if maximum.value == 0.0 then Failure(ZeroDivisionError)
    else
      MaximumMeansBars(vs);
      Success(ChartAreas(rect, vs, BarWidth(rect, BarCount(vs), |vs|, groupPadding), maximum.value, groupPadding, |vs|))
  }

  /** Drawing fails with ValueError exactly when there is no group or an
      empty one, with ZeroDivisionError exactly when the maximum bar value
      is 0, and with no other error. */
  lemma ChartDrawFailures(rect: Rect, vs: seq<seq<real>>, groupPadding: int)
    ensures ChartDraw(rect, vs, groupPadding).Failure? && ChartDraw(rect, vs, groupPadding).error == ValueError
            <==> vs == [] || exists i :: 0 <= i < |vs| && vs[i] == []
    ensures ChartDraw(rect, vs, groupPadding).Failure? && ChartDraw(rect, vs, groupPadding).error == ZeroDivisionError
            <==> ChartMaximum(vs).Success? && ChartMaximum(vs).value == 0.0
    ensures ChartDraw(rect, vs, groupPadding).Failure? ==>
              ChartDraw(rect, vs, groupPadding).error in {ValueError, ZeroDivisionError}
  {
    if vs != [] {
      MaxOverGroupsSpec(vs, |vs|);
    }
  }

  /** A successful drawing registers one area per bar; bar j of group i
      is keyed (i, j) at position BarsBefore(i) + j and stands on the plot's
      bottom edge with the shared bar width. */
  lemma {:induction false} ChartDrawRegistersEveryBar(rect: Rect, vs: seq<seq<real>>, groupPadding: int, i: nat, j: nat)
    requires ChartDraw(rect, vs, groupPadding).Success? && i < |vs| && j < |vs[i]|
    ensures |ChartDraw(rect, vs, groupPadding).value| == BarCount(vs)
    ensures BarsBefore(vs, i) + j < BarCount(vs)
    ensures ChartDraw(rect, vs, groupPadding).value[BarsBefore(vs, i) + j].key == (i, j)
    ensures ChartDraw(rect, vs, groupPadding).value[BarsBefore(vs, i) + j].width ==
            BarWidth(rect, BarCount(vs), |vs|, groupPadding)
  {
    MaximumMeansBars(vs);
    var bw := BarWidth(rect, BarCount(vs), |vs|, groupPadding);
    ChartAreasLength(rect, vs, bw, ChartMaximum(vs).value, groupPadding, |vs|);
    ChartAreaAt(rect, vs, bw, ChartMaximum(vs).value, groupPadding, |vs|, i, j);
  }

  // ------------------------------------------------------------ objects

  /** The values of a group's bars, in order. */
  function ValuesOf(bars: seq<Bar>): (vs: seq<real>)
    ensures |vs| == |bars| && forall j :: 0 <= j < |bars| ==> vs[j] == bars[j].value
  {
    if bars == [] then [] else ValuesOf(bars[..|bars| - 1]) + [bars[|bars| - 1].value]
  }

  /** `BarGroup`: a named group whose bar list grows in place. */
  class BarGroup {
    const name: string
    var title: string
    var bars: seq<Bar>
    /** The colours read from the package's tango.color file. */
    const palette: seq<Rgb>

    constructor (name: string, title: string, palette: seq<Rgb>)
      requires |palette| > 0
      ensures this.name == name && this.title == title && bars == [] && this.palette == palette
    {
      this.name := name;
      this.title := title;
      bars := [];
      this.palette := palette;
    }

    /** `BarGroup.add_bar`: a bar with automatic colour gets the palette
        entry for the number of bars already in the group; the bar is
        appended. */
    method AddBar(bar: Bar)
      requires |palette| > 0
      modifies this
      ensures bars == old(bars) + [if bar.color.ColorAuto?
                                   then bar.(color := Color(palette[|old(bars)| % |palette|]))
                                   else bar]
      ensures title == old(title)
    {
      var b := bar;
      if b.color.ColorAuto? {
        b := b.(color := Color(palette[|bars| % |palette|]));
      }
      bars := bars + [b];
    }

    /** `BarGroup._do_draw` in vertical mode: the areas of this group's bars
        (bar j at groupStart + j * (width + padding)) and the end handed to
        the next group. The first bar divides by the bar count and by the
        maximum. */
    method Draw(rect: Rect, barCount: nat, n: int, i: nat, groupPadding: int, maxValue: real, groupStart: int)
      returns (r: Result<(seq<Area>, int)>)
      ensures r.Failure? <==> bars != [] && (barCount == 0 || maxValue == 0.0)
      ensures r.Failure? ==> r.error == ZeroDivisionError
      ensures r.Success? && bars != [] ==>
                barCount != 0 && maxValue != 0.0 &&
                r.value.0 == GroupAreas(rect, groupStart, BarWidth(rect, barCount, n, groupPadding), maxValue, i,
                                        ValuesOf(bars), |bars|) &&
                r.value.1 == GroupEnd(groupStart, BarWidth(rect, barCount, n, groupPadding), |bars|, groupPadding)
      ensures r.Success? && bars == [] ==> r.value == ([], groupStart + groupPadding)
    {
      var vs := ValuesOf(bars);
      var end := groupStart;
      var added: seq<Area> := [];
      var j := 0;
      while j < |bars|
        invariant 0 <= j <= |bars|
        invariant j > 0 ==> barCount != 0 && maxValue != 0.0
        invariant j > 0 ==> added == GroupAreas(rect, groupStart, BarWidth(rect, barCount, n, groupPadding), maxValue, i, vs, j)
        invariant j > 0 ==> end == BarX(groupStart, j - 1, BarWidth(rect, barCount, n, groupPadding)) +
                                   BarWidth(rect, barCount, n, groupPadding)
        invariant j == 0 ==> added == [] && end == groupStart
      {
        if barCount == 0 || maxValue == 0.0 {
          return Failure(ZeroDivisionError);
        }
        var bw := BarWidth(rect, barCount, n, groupPadding);
        var area := BarArea(rect, groupStart, bw, maxValue, i, j, bars[j].value);
        added := added + [area];
        end := area.x + area.width;
        j := j + 1;
      }
      return Success((added, end + groupPadding));
    }
  }

  /** The bar values of each group, in order. */
  function GroupValues(groups: seq<BarGroup>): (vs: seq<seq<real>>)
    reads set g | g in groups
    ensures |vs| == |groups| && forall i :: 0 <= i < |groups| ==> vs[i] == ValuesOf(groups[i].bars)
  {
    if groups == [] then []
    else GroupValues(groups[..|groups| - 1]) + [ValuesOf(groups[|groups| - 1].bars)]
  }

  /** `MultiBarChart` of multi_bar_chart.py: the groups, the group padding,
      the mouseover switch, the sensitive-area registry its drawing fills,
      and the highlight flag of every bar (row i for group i). */
  class MultiBarChart {
    var groups: seq<BarGroup>
    var groupPadding: int
    var mouseover: bool
    var areas: seq<Area>
    var highlighted: seq<seq<bool>>
    var redrawRequested: bool

    constructor ()
      ensures groups == [] && groupPadding == GROUP_PADDING && mouseover && areas == []
      ensures highlighted == [] && !redrawRequested
    {
      groups := [];
      groupPadding := GROUP_PADDING;
      mouseover := true;
      areas := [];
      highlighted := [];
      redrawRequested := false;
    }

    /** The groups' current bar values. */
    function Values(): seq<seq<real>>
      reads this`groups, set g | g in groups
    {
      GroupValues(groups)
    }

    /** `add_group`: the group is appended and a redraw requested. */
    method AddGroup(g: BarGroup)
      modifies this
      ensures groups == old(groups) + [g] && redrawRequested
      ensures areas == old(areas) && highlighted == old(highlighted) && mouseover == old(mouseover)
      ensures groupPadding == old(groupPadding)
    {
      groups := groups + [g];
      redrawRequested := true;
    }

    /** The group loop of `MultiBarChart.draw`: each group draws from the
        end of the one before, starting at the plot's left edge; the areas
        come back in registration order. */
    method DrawGroups(rect: Rect, barCount: nat, maxValue: real) returns (r: Result<seq<Area>>)
      requires groups != [] && groups[0].bars != [] && barCount > 0
      ensures r.Failure? <==> maxValue == 0.0
      ensures r.Failure? ==> r.error == ZeroDivisionError
      ensures r.Success? ==>
                r.value == ChartAreas(rect, Values(), BarWidth(rect, barCount, |groups|, groupPadding),
                                      maxValue, groupPadding, |groups|)
    {
      var vs := Values();
      var n := |groups|;
      ghost var bw := BarWidth(rect, barCount, n, groupPadding);
      var registered: seq<Area> := [];
      var groupEnd := rect.x;
      var i := 0;
      while i < n
        invariant 0 <= i <= n
        invariant maxValue != 0.0 ==>
                    groupEnd == GroupStart(rect, vs, bw, groupPadding, i) &&
                    registered == ChartAreas(rect, vs, bw, maxValue, groupPadding, i)
        invariant maxValue == 0.0 ==> i == 0
      {
        assert vs[i] == ValuesOf(groups[i].bars) && |vs[i]| == |groups[i].bars|;
        var drawn := groups[i].Draw(rect, barCount, n, i, groupPadding, maxValue, groupEnd);
        if drawn.Failure? {
          return Failure(drawn.error);
        }
        ChartStep(rect, vs, bw, maxValue, groupPadding, i);
        registered := registered + drawn.value.0;
        groupEnd := drawn.value.1;
        i := i + 1;
      }
      return Success(registered);
    }

    /** The computing part of `MultiBarChart.draw` in vertical mode on the
        plot area rect: the maximum over the groups is taken, the bars are
        counted, and the groups are drawn (see DrawGroups). */
    method PlanDraw(rect: Rect) returns (r: Result<seq<Area>>)
      ensures r == ChartDraw(rect, Values(), groupPadding)
    {
      var vs := Values();
      var n := |groups|;
      var maximum := ChartMaximum(vs);
      if maximum.Failure? {
        return Failure(maximum.error);
      }
      MaximumMeansBars(vs);
      assert |vs| == n;
      var barCount := 0;
      var i := 0;
      while i < n
        invariant 0 <= i <= n
        invariant barCount == BarsBefore(vs, i)
      {
        assert |vs[i]| == |groups[i].bars|;
        barCount := barCount + |groups[i].bars|;
        i := i + 1;
      }
      assert barCount == BarCount(vs);
      assert |vs[0]| == |groups[0].bars|;
      r := DrawGroups(rect, barCount, maximum.value);
    }

    /** `MultiBarChart.draw`: the registry of sensitive areas is cleared and
        then holds the areas the chart's values give; on an error it stays
        empty. */
    method Draw(rect: Rect) returns (r: Result<()>)
      modifies this
      ensures groups == old(groups) && Values() == old(Values()) && groupPadding == old(groupPadding)
      ensures mouseover == old(mouseover) && highlighted == old(highlighted) && redrawRequested == old(redrawRequested)
      ensures r.Failure? <==> ChartDraw(rect, Values(), groupPadding).Failure?
      ensures r.Failure? ==> areas == [] && r.error == ChartDraw(rect, Values(), groupPadding).error
      ensures r.Success? ==> areas == ChartDraw(rect, Values(), groupPadding).value
    {
      var plan := PlanDraw(rect);
      ghost var vs := Values();
      if plan.Failure? {
        areas := [];
        assert Values() == vs;
        return Failure(plan.error);
      }
      areas := plan.value;
      assert Values() == vs;
      return Success(());
    }

    /** `_cb_motion_notify`: with mouseover on, every bar's highlight flag
        says whether its key is among the active keys at the mouse, and a
        redraw is requested; with mouseover off nothing changes. */
    method MotionNotify(px: real, py: real)
      modifies this
      ensures groups == old(groups) && areas == old(areas) && mouseover == old(mouseover)
      ensures Values() == old(Values())
      ensures !mouseover ==> highlighted == old(highlighted) && redrawRequested == old(redrawRequested)
      ensures mouseover ==> redrawRequested && |highlighted| == |groups|
      ensures mouseover ==> forall i :: 0 <= i < |groups| ==>
                (|highlighted[i]| == |groups[i].bars| &&
                 forall j :: 0 <= j < |groups[i].bars| ==>
                   (highlighted[i][j] <==> (i, j) in ActiveKeys(areas, px, py)))
    {
      if !mouseover {
        return;
      }
      var active := ActiveKeys(areas, px, py);
      var flags: seq<seq<bool>> := [];
      var i := 0;
      while i < |groups|
        invariant 0 <= i <= |groups| && |flags| == i
        invariant forall h :: 0 <= h < i ==>
                    |flags[h]| == |groups[h].bars| &&
                    forall j :: 0 <= j < |groups[h].bars| ==> (flags[h][j] <==> (h, j) in active)
      {
        var row: seq<bool> := [];
        var j := 0;
        while j < |groups[i].bars|
          invariant 0 <= j <= |groups[i].bars| && |row| == j
          invariant forall l :: 0 <= l < j ==> (row[l] <==> (i, l) in active)
        {
          row := row + [(i, j) in active];
          j := j + 1;
        }
        flags := flags + [row];
        i := i + 1;
      }
      highlighted := flags;
      redrawRequested := true;
    }

    /** `_cb_button_pressed`: one "group-clicked" per active key at the
        mouse, in registry order. */
    method ButtonPressed(px: real, py: real) returns (emitted: seq<(nat, nat)>)
      ensures forall k :: k in emitted <==> exists a :: a in areas && Contains(a, px, py) && a.key == k
      ensures emitted == ActiveKeys(areas, px, py)
    {
      var active := ActiveKeys(areas, px, py);
      emitted := [];
      var k := 0;
      while k < |active|
        invariant 0 <= k <= |active| && emitted == active[..k]
      {
        emitted := emitted + [active[k]];
        k := k + 1;
      }
      assert active[..|active|] == active;
    }
  }
}

=== FILE: pie_charts.dfy ===
/** The pie chart widget (pie_chart.py): every visible area sweeps an arc
    in proportion to its value, starting at the chart's rotation; the
    mouse is mapped to an angle and a radius to find the area under it;
    the mouse wheel turns the pie; each area's label carries an optional
    value and percentage and is anchored by the quadrant it points into. */
module PieCharts {
  import opened Wrappers
  import opened Basics

  /** `math.pi`, the double closest to pi, taken as an exact real. */
  const PI: real := 3.141592653589793
  /** A full turn, `2 * math.pi`. */
  const TAU: real := 2.0 * PI
  /** One step of the mouse wheel, `360.0 / 32` degrees. */
  const SCROLL_STEP: real := 11.25

  /** A `PieArea`: its name, its value, its label text, its colour (or
      COLOR_AUTO) and whether it is shown. */
  datatype PieArea = PieArea(name: string, value: real, caption: string, color: ColorSetting, visible: bool)

  /** `PieArea(name, value, label)`: automatic colour, shown. */
  function NewPieArea(name: string, value: real, caption: string): (a: PieArea)
    ensures a.name == name && a.value == value && a.caption == caption
    ensures a.color == ColorAuto && a.visible
  {
    PieArea(name, value, caption, ColorAuto, true)
  }

  // ------------------------------------------------------------ totals

  /** The sum of the values of the visible areas among the first k. */
  function VisibleTotal(areas: seq<PieArea>, k: nat): real
    requires k <= |areas|
  {
    if k == 0 then 0.0
    else VisibleTotal(areas, k - 1) + (if areas[k - 1].visible then areas[k - 1].value else 0.0)
  }

  /** The `sum` both the drawing and the hit test divide by. */
  function Total(areas: seq<PieArea>): real {
    VisibleTotal(areas, |areas|)
  }

  /** The sum of the values of all the first k areas, shown or not. */
  function AllTotal(areas: seq<PieArea>, k: nat): real
    requires k <= |areas|
  {
    if k == 0 then 0.0 else AllTotal(areas, k - 1) + areas[k - 1].value
  }

  /** A hidden area's value does not count: changing it leaves every
      visible total as it was. */
  lemma {:induction false} HiddenValueDoesNotCount(areas: seq<PieArea>, i: nat, v: real, k: nat)
    requires i < |areas| && !areas[i].visible && k <= |areas|
    ensures VisibleTotal(areas[i := areas[i].(value := v)], k) == VisibleTotal(areas, k)
  {
    if k > 0 {
      HiddenValueDoesNotCount(areas, i, v, k - 1);
    }
  }

  /** With every area shown, the visible total is the total of all values. */
  lemma {:induction false} AllShownTotal(areas: seq<PieArea>, k: nat)
    requires k <= |areas| && forall j :: 0 <= j < |areas| ==> areas[j].visible
    ensures VisibleTotal(areas, k) == AllTotal(areas, k)
  {
    if k > 0 {
      AllShownTotal(areas, k - 1);
    }
  }

  /** The summing loop of `_get_area_at_pos` and `_do_draw_areas`. */
  method SumVisible(areas: seq<PieArea>) returns (total: real)
    ensures total == Total(areas)
  {
    total := 0.0;
    var i := 0;
    while i < |areas|
      invariant 0 <= i <= |areas|
      invariant total == VisibleTotal(areas, i)
    {
      if areas[i].visible {
        total := total + areas[i].value;
      }
      i := i + 1;
    }
  }

  // ------------------------------------------------------------ hit test

  /** `2 * math.pi * value / sum`: the angle an area's value stands for. */
  function Span(v: real, total: real): real
    requires total != 0.0
  {
    TAU * v / total
  }

  /** A sum of spans is the span of the sum. */
  lemma SpanAdds(a: real, b: real, total: real)
    requires total != 0.0
    ensures Span(a, total) + Span(b, total) == Span(a + b, total)
  {
    assert TAU * a / total + TAU * b / total == (TAU * a + TAU * b) / total;
  }

  /** Where the hit test puts area k: after the spans of ALL the areas
      before it, shown or not, counted from angle 0. */
  function HitStart(areas: seq<PieArea>, total: real, k: nat): real
    requires total != 0.0 && k <= |areas|
  {
    if k == 0 then 0.0 else HitStart(areas, total, k - 1) + Span(areas[k - 1].value, total)
  }

  /** The hit test's sweep over the first k areas is their share of the
      visible total, as a part of the full turn. */
  lemma {:induction false} HitStartIsShare(areas: seq<PieArea>, total: real, k: nat)
    requires total != 0.0 && k <= |areas|
    ensures HitStart(areas, total, k) == Span(AllTotal(areas, k), total)
  {
    if k > 0 {
      HitStartIsShare(areas, total, k - 1);
      SpanAdds(AllTotal(areas, k - 1), areas[k - 1].value, total);
    }
  }

  /** The angle lies in area k's closed interval. */
  predicate PieHits(areas: seq<PieArea>, total: real, angle: real, k: nat)
    requires total != 0.0 && k < |areas|
  {
    HitStart(areas, total, k) <= angle <= HitStart(areas, total, k) + Span(areas[k].value, total)
  }

  /** hit is the first area whose interval holds the angle, or None when
      no interval holds it. */
  predicate FirstPieHit(areas: seq<PieArea>, total: real, angle: real, hit: Option<nat>)
    requires total != 0.0
  {
    (hit.Some? ==>
       hit.value < |areas| && PieHits(areas, total, angle, hit.value) &&
       forall j :: 0 <= j < hit.value ==> !PieHits(areas, total, angle, j)) &&
    (hit.None? ==> forall j :: 0 <= j < |areas| ==> !PieHits(areas, total, angle, j))
  }

  /** An angle between 0 and the end of the sweep over the first m areas
      falls into one of them. */
  lemma {:induction false} SweepIsCovered(areas: seq<PieArea>, total: real, angle: real, m: nat) returns (k: nat)
    requires total != 0.0 && m <= |areas| && 0.0 <= angle <= HitStart(areas, total, m)
    requires m > 0
    ensures k < m && PieHits(areas, total, angle, k)
  {
    if angle >= HitStart(areas, total, m - 1) {
      k := m - 1;
    } else {
      k := SweepIsCovered(areas, total, angle, m - 1);
    }
  }

  /** With every area shown and a non-zero total, the hit test's intervals
      cover the whole turn: every angle in [0, 2 pi] finds an area. */
  lemma EveryAngleHitsWhenAllShown(areas: seq<PieArea>, angle: real) returns (k: nat)
    requires forall j :: 0 <= j < |areas| ==> areas[j].visible
    requires Total(areas) != 0.0 && 0.0 <= angle <= TAU
    ensures k < |areas| && PieHits(areas, Total(areas), angle, k)
  {
    var total := Total(areas);
    AllShownTotal(areas, |areas|);
    HitStartIsShare(areas, total, |areas|);
    assert HitStart(areas, total, |areas|) == TAU;
    k := SweepIsCovered(areas, total, angle, |areas|);
  }

  /** A hidden area still occupies its interval in the hit test: with a
      hidden area of value 1 before a shown one of value 1, the total is 1,
      the hidden area spans the full turn, and angle 0 reports it. */
  lemma HiddenAreaIsHit()
    ensures var areas := [PieArea("a", 1.0, "", Color(WHITE), false), PieArea("b", 1.0, "", Color(WHITE), true)];
            Total(areas) == 1.0 && !areas[0].visible && FirstPieHit(areas, 1.0, 0.0, Some(0))
  {
    var areas := [PieArea("a", 1.0, "", Color(WHITE), false), PieArea("b", 1.0, "", Color(WHITE), true)];
    assert VisibleTotal(areas, 1) == 0.0;
    assert HitStart(areas, 1.0, 0) == 0.0;
    assert Span(1.0, 1.0) == TAU;
  }

  /** The `while angle < 0: angle += 2 * math.pi` loop: whole turns are
      added until the angle is not negative, which leaves it below a full
      turn; a non-negative angle is kept as it is. */
  function Normalised(angle: real): (r: real)
    ensures 0.0 <= r
    ensures angle < 0.0 ==> r < TAU
    ensures 0.0 <= angle ==> r == angle
    decreases if angle < 0.0 then (-angle).Floor + 1 else 0
  {
    if angle < 0.0 then Normalised(angle + TAU) else angle
  }

  /** The normalised angle differs from the angle by whole turns. */
  lemma {:induction false} NormalisedByWholeTurns(angle: real) returns (n: nat)
    ensures Normalised(angle) == angle + n as real * TAU
    decreases if angle < 0.0 then (-angle).Floor + 1 else 0
  {
    if angle < 0.0 {
      var m := NormalisedByWholeTurns(angle + TAU);
      n := m + 1;
      assert angle + TAU + m as real * TAU == angle + n as real * TAU;
    } else {
      n := 0;
    }
  }

  /** The angle `_get_area_at_pos` looks up: atan2(x, -y) turned back by a
      quarter turn and by the rotation, then normalised. */
  function HitAngle(heading: real, rotate: int): real {
    Normalised(heading - PI / 2.0 - StartAngle(rotate))
  }

  /** For a heading in (-pi, pi] (the range of atan2) and a rotation in
      [0, 360], the angle looked up is within one turn. */
  lemma HitAngleInTurn(heading: real, rotate: int)
    requires -PI < heading <= PI && 0 <= rotate <= 360
    ensures 0.0 <= HitAngle(heading, rotate) < TAU
  {
    var a := heading - PI / 2.0 - TAU * rotate as real / 360.0;
    assert TAU * rotate as real / 360.0 >= 0.0;
    assert a < TAU;
  }

  /** `int(0.4 * min(rect.width, rect.height))`: the pie radius. */
  function PieRadius(rect: Rect): (r: nat)
    ensures r as real <= 0.4 * rect.width as real && r as real <= 0.4 * rect.height as real
    ensures 0.4 * rect.width as real < r as real + 1.0 || 0.4 * rect.height as real < r as real + 1.0
  {
    Trunc(0.4 * (if rect.width <= rect.height then rect.width else rect.height) as real)
  }

  /** The mouse relative to the centre `(width / 2, height / 2)`. */
  function Offset(rect: Rect, px: real, py: real): (d: Point)
    ensures d.x + GetCenter(rect).0 as real == px && d.y + GetCenter(rect).1 as real == py
  {
    Point(px - GetCenter(rect).0 as real, py - GetCenter(rect).1 as real)
  }

  /** The mouse is on the pie: within the radius of the centre (the
      circle included). */
  predicate InsidePie(rect: Rect, px: real, py: real) {
    var d := Offset(rect, px, py);
    d.x * d.x + d.y * d.y <= (PieRadius(rect) * PieRadius(rect)) as real
  }

  /** The angle of the mouse: atan2 is the platform's `math.atan2`. */
  function MouseAngle(rect: Rect, px: real, py: real, rotate: int, atan2: (real, real) -> real): real {
    var d := Offset(rect, px, py);
    HitAngle(atan2(d.x, -d.y), rotate)
  }

  // ------------------------------------------------------------ scrolling

  /** The scroll directions a wheel event carries. */
  datatype ScrollDirection = ScrollUp | ScrollDown | ScrollLeft | ScrollRight | ScrollOther

  /** Up and right turn forward by one step, down and left back by one,
      anything else by nothing. */
  function ScrollDelta(d: ScrollDirection): (delta: real)
    ensures delta == SCROLL_STEP <==> d == ScrollUp || d == ScrollRight
    ensures delta == -SCROLL_STEP <==> d == ScrollDown || d == ScrollLeft
    ensures delta == 0.0 <==> d == ScrollOther
  {
    match d
    case ScrollUp | ScrollRight => SCROLL_STEP
    case ScrollDown | ScrollLeft => -SCROLL_STEP
    case ScrollOther => 0.0
  }

  /** The rotation after a wheel event: the turned angle modulo 360.0,
      stored in the integer "rotate" property, which truncates it. */
  function Scrolled(rotate: int, d: ScrollDirection): (r: int)
    ensures 0 <= r < 360
  {
    Trunc(RealMod(rotate as real + ScrollDelta(d), 360.0))
  }

  /** Python's `%` by 360.0 on the three ranges one step can reach from a
      rotation in [0, 360). */
  lemma ModThreeSixty(a: real)
    requires -360.0 <= a < 720.0
    ensures a < 0.0 ==> RealMod(a, 360.0) == a + 360.0
    ensures 0.0 <= a < 360.0 ==> RealMod(a, 360.0) == a
    ensures 360.0 <= a ==> RealMod(a, 360.0) == a - 360.0
  {
    var q := a / 360.0;
    if a < 0.0 {
      assert q.Floor == -1;
    } else if a < 360.0 {
      assert q.Floor == 0;
    } else {
      assert q.Floor == 1;
    }
  }

  /** Because the property is an integer, a step forward turns by 11
      degrees and a step back by 12, not by 11.25. */
  lemma ScrollStepsInWholeDegrees(rotate: int)
    requires 0 <= rotate < 360
    ensures Scrolled(rotate, ScrollUp) == (rotate + 11) % 360
    ensures Scrolled(rotate, ScrollDown) == (rotate - 12) % 360
  {
    ScrollUpStep(rotate);
    ScrollDownStep(rotate);
  }

  /** A whole number plus a fraction below one truncates to that number. */
  lemma ScrollUpStep(rotate: int)
    requires 0 <= rotate < 360
    ensures Scrolled(rotate, ScrollUp) == (rotate + 11) % 360
  {
    var a := rotate as real + SCROLL_STEP;
    assert ScrollDelta(ScrollUp) == SCROLL_STEP;
    ModThreeSixty(a);
    if rotate < 349 {
      assert RealMod(a, 360.0) == (rotate + 11) as real + 0.25;
      TruncOfFraction(rotate + 11, 0.25);
    } else {
      assert RealMod(a, 360.0) == (rotate - 349) as real + 0.25;
      TruncOfFraction(rotate - 349, 0.25);
    }
  }

  lemma ScrollDownStep(rotate: int)
    requires 0 <= rotate < 360
    ensures Scrolled(rotate, ScrollDown) == (rotate - 12) % 360
  {
    var a := rotate as real - SCROLL_STEP;
    assert ScrollDelta(ScrollDown) == -SCROLL_STEP;
    ModThreeSixty(a);
    if rotate >= 12 {
      assert RealMod(a, 360.0) == (rotate - 12) as real + 0.75;
      TruncOfFraction(rotate - 12, 0.75);
    } else {
      assert RealMod(a, 360.0) == (rotate + 348) as real + 0.75;
      TruncOfFraction(rotate + 348, 0.75);
    }
  }

  /** A step up and a step down do not cancel: from 0 they end at 359. */
  lemma ScrollUpThenDownDrifts()
    ensures Scrolled(Scrolled(0, ScrollUp), ScrollDown) == 359
  {
    ScrollStepsInWholeDegrees(0);
    ScrollStepsInWholeDegrees(11);
  }

  // ------------------------------------------------------------ labels

  /** r is x rounded to hundredths: a whole number of hundredths at most
      half a hundredth away from x, a tie going away from zero. */
  predicate IsRound2(x: real, r: real) {
    (r * 100.0).Floor as real == r * 100.0 &&
    -0.005 <= r - x <= 0.005 &&
    (r - x == 0.005 ==> x > 0.0) &&
    (r - x == -0.005 ==> x < 0.0)
  }

  /** Python 2's `round(x, 2)`: to the nearest hundredth, halves away from
      zero. */
  function Round2(x: real): (r: real)
    ensures IsRound2(x, r)
    ensures -0.005 <= r - x <= 0.005
    ensures 0.0 <= x ==> 0.0 <= r
  {
    if x >= 0.0 then
      var n := (x * 100.0 + 0.5).Floor;
      RoundsUp(x, n);
      n as real / 100.0
    else
      var n := (-x * 100.0 + 0.5).Floor;
      RoundsUp(-x, n);
      RoundingIsSymmetric(-x, n as real / 100.0);
      -(n as real / 100.0)
  }

  /** For y >= 0, n hundredths is y rounded when n is the floor of
      100 y + 0.5. */
  lemma RoundsUp(y: real, n: int)
    requires 0.0 <= y && n as real <= y * 100.0 + 0.5 < n as real + 1.0
    ensures IsRound2(y, n as real / 100.0) && 0 <= n
  {
    RoundedIsClose(y, n);
    assert (n as real / 100.0) * 100.0 == n as real;
  }

  /** Rounding a negative number is rounding its magnitude, negated. */
  lemma RoundingIsSymmetric(y: real, q: real)
    requires 0.0 < y && IsRound2(y, q)
    ensures IsRound2(-y, -q)
  {
    assert -q * 100.0 == -(q * 100.0);
    assert (-q * 100.0).Floor == -((q * 100.0).Floor);
  }

  /** n hundredths is within half a hundredth of y when n is the floor of
      100 y + 0.5, and exactly half a hundredth above it never. */
  lemma RoundedIsClose(y: real, n: int)
    requires n as real <= y * 100.0 + 0.5 < n as real + 1.0
    ensures -0.005 <= n as real / 100.0 - y <= 0.005
    ensures n as real / 100.0 - y != -0.005
    ensures 0.0 <= y && n as real / 100.0 - y == 0.005 ==> y > 0.0
    ensures 0.0 <= y ==> 0 <= n
  {
  }

  /** Only one value is x rounded to hundredths, so `Round2` is that
      rounding. */
  lemma {:induction false} Round2IsTheRounding(x: real, r: real)
    requires IsRound2(x, r)
    ensures r == Round2(x)
  {
    var q := Round2(x);
    var a := (r * 100.0).Floor;
    var b := (q * 100.0).Floor;
    assert -1.0 <= r * 100.0 - q * 100.0 <= 1.0;
    assert -1 <= a - b <= 1;
  }

  /** What `_do_draw_areas` appends to an area's label. */
  datatype LabelExtra = NoExtra | ValueExtra(value: real) | PercentExtra(percent: real) | BothExtra(value: real, percent: real)

  /** The label suffix: the value when values are shown, the percentage
      `round(100. * value / sum, 2)` when percentages are shown, both in
      that order when both are. */
  function Extra(showPercentage: bool, showValues: bool, v: real, total: real): (e: LabelExtra)
    requires total != 0.0
    ensures e.NoExtra? <==> !showPercentage && !showValues
    ensures (e.ValueExtra? || e.BothExtra?) <==> showValues
    ensures (e.PercentExtra? || e.BothExtra?) <==> showPercentage
    ensures (e.ValueExtra? || e.BothExtra?) ==> e.value == v
    ensures (e.PercentExtra? || e.BothExtra?) ==> -0.005 <= e.percent - 100.0 * v / total <= 0.005
    ensures (e.PercentExtra? || e.BothExtra?) ==> IsRound2(100.0 * v / total, e.percent)
  {
    var p := Round2(100.0 * v / total);
    if showPercentage && !showValues then PercentExtra(p)
    else if !showPercentage && showValues then ValueExtra(v)
    else if showPercentage && showValues then BothExtra(v, p)
    else NoExtra
  }

  /** The reference point of a label from its mid-angle in [0, 2 pi)
      (cairo angles grow clockwise, y downwards): labels below the centre
      hang from their top edge, labels right of the centre start at their
      left edge. */
  function LabelAnchor(angle: real): (ref: RefPoint)
    ensures 0.0 <= angle < TAU ==> ((ref == RefTopLeft || ref == RefTopRight) <==> angle <= PI)
    ensures 0.0 <= angle < TAU ==>
              ((ref == RefTopLeft || ref == RefBottomLeft) <==> angle <= PI / 2.0 || 1.5 * PI < angle)
  {
    if 0.0 <= angle <= PI / 2.0 then RefTopLeft
    else if PI / 2.0 <= angle <= PI then RefTopRight
    else if PI <= angle <= 1.5 * PI then RefBottomRight
    else RefBottomLeft
  }

  // ------------------------------------------------------------ drawing

  /** The label switches of the chart. */
  datatype LabelFlags = LabelFlags(draw: bool, percentage: bool, values: bool)

  /** A drawn label: the text, its suffix, its reference point and whether
      it is set in italics (for the highlighted area). */
  datatype PieLabel = PieLabel(text: string, extra: LabelExtra, anchor: RefPoint, italic: bool)

  /** One drawn sector: the area's position in the list, the arc from
      start over span, the fill colour, the highlight overlay and the
      label when labels are drawn. */
  datatype PieSlice = PieSlice(index: nat, start: real, span: real, color: Rgb, highlighted: bool, caption: Option<PieLabel>)

  /** The angle swept by the shown areas among the first k. */
  function VisibleSweep(areas: seq<PieArea>, total: real, k: nat): real
    requires total != 0.0 && k <= |areas|
  {
    if k == 0 then 0.0
    else VisibleSweep(areas, total, k - 1) + (if areas[k - 1].visible then Span(areas[k - 1].value, total) else 0.0)
  }

  /** The drawing sweeps the shown areas' share of the turn. */
  lemma {:induction false} VisibleSweepIsShare(areas: seq<PieArea>, total: real, k: nat)
    requires total != 0.0 && k <= |areas|
    ensures VisibleSweep(areas, total, k) == Span(VisibleTotal(areas, k), total)
  {
    if k > 0 {
      VisibleSweepIsShare(areas, total, k - 1);
      SpanAdds(VisibleTotal(areas, k - 1), areas[k - 1].value, total);
      SpanAdds(VisibleTotal(areas, k - 1), 0.0, total);
    }
  }

  /** With the visible total as divisor, the shown areas fill exactly one
      full turn. */
  lemma SweepIsFullTurn(areas: seq<PieArea>)
    requires Total(areas) != 0.0
    ensures VisibleSweep(areas, Total(areas), |areas|) == TAU
  {
    VisibleSweepIsShare(areas, Total(areas), |areas|);
  }

  /** The sector of shown area k with fill colour c, when the sweep
      started at start. */
  function SliceOf(areas: seq<PieArea>, total: real, start: real, highlighted: Option<nat>, flags: LabelFlags,
                   k: nat, c: Rgb): PieSlice
    requires total != 0.0 && k < |areas|
  {
    var from := start + VisibleSweep(areas, total, k);
    var span := Span(areas[k].value, total);
    var lit := highlighted == Some(k);
    PieSlice(k, from, span, c, lit,
             if flags.draw
             then Some(PieLabel(areas[k].caption, Extra(flags.percentage, flags.values, areas[k].value, total),
                                LabelAnchor(RealMod(from + span / 2.0, TAU)), lit))
             else None)
  }

  /** What `_do_draw_areas` draws for the first k areas: hidden areas are
      skipped; a shown area first divides by the total (ZeroDivisionError
      when it is 0), then fills with its colour (TypeError when it is
      still COLOR_AUTO). */
  function DrawnSlices(areas: seq<PieArea>, total: real, start: real, highlighted: Option<nat>, flags: LabelFlags,
                       k: nat): Result<seq<PieSlice>>
    requires k <= |areas|
  {
    if k == 0 then Success([])
    else
      var before := DrawnSlices(areas, total, start, highlighted, flags, k - 1);
      var a := areas[k - 1];
      if before.Failure? || !a.visible then before
      else if total == 0.0 then Failure(ZeroDivisionError)
      else if a.color.ColorAuto? then Failure(TypeError)
      else Success(before.value + [SliceOf(areas, total, start, highlighted, flags, k - 1, a.color.rgb)])
  }

  /** Once drawing has failed, drawing more areas keeps the same failure. */
  lemma {:induction false} DrawFailureStays(areas: seq<PieArea>, total: real, start: real,
                                            highlighted: Option<nat>, flags: LabelFlags, k: nat, m: nat)
    requires k <= m <= |areas| && DrawnSlices(areas, total, start, highlighted, flags, k).Failure?
    ensures DrawnSlices(areas, total, start, highlighted, flags, m) == DrawnSlices(areas, total, start, highlighted, flags, k)
    decreases m - k
  {
    if k < m {
      DrawFailureStays(areas, total, start, highlighted, flags, k, m - 1);
    }
  }

  /** Some area among the first k is shown. */
  predicate AnyShown(areas: seq<PieArea>, k: nat)
    requires k <= |areas|
  {
    exists j :: 0 <= j < k && areas[j].visible
  }

  /** Drawing fails with ZeroDivisionError exactly when an area is shown
      and the total is 0, with TypeError exactly when the total is not 0
      and a shown area has no colour, and in no other way. */
  lemma {:induction false} DrawnSlicesFailures(areas: seq<PieArea>, total: real, start: real,
                                               highlighted: Option<nat>, flags: LabelFlags, k: nat)
    requires k <= |areas|
    ensures var r := DrawnSlices(areas, total, start, highlighted, flags, k);
            (r.Failure? && r.error == ZeroDivisionError <==> total == 0.0 && AnyShown(areas, k)) &&
            (r.Failure? && r.error == TypeError <==>
               total != 0.0 && exists j :: 0 <= j < k && areas[j].visible && areas[j].color.ColorAuto?) &&
            (r.Failure? ==> r.error == ZeroDivisionError || r.error == TypeError)
  {
    if k > 0 {
      DrawnSlicesFailures(areas, total, start, highlighted, flags, k - 1);
      if areas[k - 1].visible {
        assert AnyShown(areas, k);
      } else {
        assert AnyShown(areas, k) == AnyShown(areas, k - 1);
      }
    }
  }

  /** A successful drawing of the first k areas is a chain of sectors, one
      per shown area in list order: the first starts where the sweep
      starts, each ends where the next begins, and the last ends where
      the shown areas' sweep ends. */
  lemma {:induction false} DrawnSlicesChain(areas: seq<PieArea>, total: real, start: real,
                                            highlighted: Option<nat>, flags: LabelFlags, k: nat)
    requires k <= |areas| && total != 0.0
    requires DrawnSlices(areas, total, start, highlighted, flags, k).Success?
    ensures var s := DrawnSlices(areas, total, start, highlighted, flags, k).value;
            (s == [] ==> VisibleSweep(areas, total, k) == 0.0) &&
            (s != [] ==> s[0].start == start &&
                         s[|s| - 1].start + s[|s| - 1].span == start + VisibleSweep(areas, total, k)) &&
            (forall i :: 0 <= i < |s| - 1 ==> s[i].start + s[i].span == s[i + 1].start) &&
            (forall i :: 0 <= i < |s| ==> s[i].index < k && areas[s[i].index].visible)
  {
    if k > 0 {
      DrawnSlicesChain(areas, total, start, highlighted, flags, k - 1);
      var before := DrawnSlices(areas, total, start, highlighted, flags, k - 1).value;
      var a := areas[k - 1];
      if a.visible {
        var x := SliceOf(areas, total, start, highlighted, flags, k - 1, a.color.rgb);
        var s := before + [x];
        assert DrawnSlices(areas, total, start, highlighted, flags, k).value == s;
        assert x.start == start + VisibleSweep(areas, total, k - 1);
        assert x.start + x.span == start + VisibleSweep(areas, total, k);
        forall i | 0 <= i < |s| - 1
          ensures s[i].start + s[i].span == s[i + 1].start
        {
          if i + 1 < |before| {
            assert s[i] == before[i] && s[i + 1] == before[i + 1];
          } else {
            assert s[i] == before[|before| - 1] && s[i + 1] == x;
          }
        }
      }
    }
  }

  /** When drawing succeeds with a non-zero total, the sectors close the
      circle: the first starts at the rotation and the last ends one full
      turn later. */
  lemma SlicesCloseTheCircle(areas: seq<PieArea>, start: real, highlighted: Option<nat>, flags: LabelFlags)
    requires Total(areas) != 0.0
    requires DrawnSlices(areas, Total(areas), start, highlighted, flags, |areas|).Success?
    ensures var s := DrawnSlices(areas, Total(areas), start, highlighted, flags, |areas|).value;
            s != [] && s[0].start == start && s[|s| - 1].start + s[|s| - 1].span == start + TAU
  {
    DrawnSlicesChain(areas, Total(areas), start, highlighted, flags, |areas|);
    SweepIsFullTurn(areas);
  }

  // ------------------------------------------------------------ the widget

  /** One shown area extends a successful drawing by the sector that starts
      where the previous ones end. */
  lemma DrawStep(areas: seq<PieArea>, total: real, start: real, highlighted: Option<nat>, flags: LabelFlags,
                 i: nat, slices: seq<PieSlice>, position: real, c: Rgb)
    requires i < |areas| && total != 0.0 && areas[i].visible && areas[i].color == Color(c)
    requires DrawnSlices(areas, total, start, highlighted, flags, i) == Success(slices)
    requires position == start + VisibleSweep(areas, total, i)
    ensures DrawnSlices(areas, total, start, highlighted, flags, i + 1) ==
            Success(slices + [SliceOf(areas, total, start, highlighted, flags, i, c)])
    ensures var span := Span(areas[i].value, total);
            var lit := highlighted == Some(i);
            SliceOf(areas, total, start, highlighted, flags, i, c) ==
              PieSlice(i, position, span, c, lit,
                       if flags.draw
                       then Some(PieLabel(areas[i].caption, Extra(flags.percentage, flags.values, areas[i].value, total),
                                          LabelAnchor(RealMod(position + span / 2.0, TAU)), lit))
                       else None)
    ensures position + Span(areas[i].value, total) == start + VisibleSweep(areas, total, i + 1)
  {
  }

  /** The `while angle < 0` loop of `get_area_at_pos`: whole turns are added
      until the angle is not negative. */
  method NormaliseAngle(raw: real) returns (angle: real)
    ensures angle == Normalised(raw)
  {
    angle := raw;
    while angle < 0.0
      invariant Normalised(angle) == Normalised(raw)
      decreases if angle < 0.0 then (-angle).Floor + 1 else 0
    {
      angle := angle + TAU;
    }
  }

  /** The area loop of `get_area_at_pos`: the first area, shown or not,
      whose interval of the visible total holds the angle. */
  method ScanAreas(areas: seq<PieArea>, total: real, angle: real) returns (r: Result<Option<nat>>)
    ensures areas == [] ==> r == Success(None)
    ensures areas != [] ==> (r.Failure? <==> total == 0.0)
    ensures r.Failure? ==> r.error == ZeroDivisionError
    ensures r.Success? && areas != [] ==> total != 0.0 && FirstPieHit(areas, total, angle, r.value)
  {
    var position := 0.0;
    var i := 0;
    while i < |areas|
      invariant 0 <= i <= |areas|
      invariant i > 0 ==> total != 0.0
      invariant total != 0.0 ==> position == HitStart(areas, total, i)
      invariant total != 0.0 ==> forall j :: 0 <= j < i ==> !PieHits(areas, total, angle, j)
    {
      if total == 0.0 {
        return Failure(ZeroDivisionError);
      }
      var span := Span(areas[i].value, total);
      if position <= angle <= position + span {
        return Success(Some(i));
      }
      position := position + span;
      i := i + 1;
    }
    return Success(None);
  }

  /** The angle of the first sector, `2 * math.pi * rotate / 360`. */
  function StartAngle(rotate: int): real {
    TAU * rotate as real / 360.0
  }

  /** The loop of `_do_draw_areas`: each shown area becomes the sector that
      starts where the previous one ended, spanning its share of the turn
      and labelled at its middle. */
  method DrawSectors(areas: seq<PieArea>, total: real, start: real, highlighted: Option<nat>, flags: LabelFlags)
    returns (r: Result<seq<PieSlice>>)
    ensures r == DrawnSlices(areas, total, start, highlighted, flags, |areas|)
  {
    var position := start;
    var slices: seq<PieSlice> := [];
    var i := 0;
    while i < |areas|
      invariant 0 <= i <= |areas|
      invariant DrawnSlices(areas, total, start, highlighted, flags, i) == Success(slices)
      invariant total != 0.0 ==> position == start + VisibleSweep(areas, total, i)
    {
      var a := areas[i];
      if a.visible {
        if total == 0.0 {
          assert DrawnSlices(areas, total, start, highlighted, flags, i + 1) == Failure(ZeroDivisionError);
          DrawFailureStays(areas, total, start, highlighted, flags, i + 1, |areas|);
          return Failure(ZeroDivisionError);
        }
        var span := Span(a.value, total);
        if a.color.ColorAuto? {
          assert DrawnSlices(areas, total, start, highlighted, flags, i + 1) == Failure(TypeError);
          DrawFailureStays(areas, total, start, highlighted, flags, i + 1, |areas|);
          return Failure(TypeError);
        }
        var lit := highlighted == Some(i);
        var caption: Option<PieLabel> := None;
        if flags.draw {
          var extra := Extra(flags.percentage, flags.values, a.value, total);
          var mid := RealMod(position + span / 2.0, TAU);
          caption := Some(PieLabel(a.caption, extra, LabelAnchor(mid), lit));
        }
        DrawStep(areas, total, start, highlighted, flags, i, slices, position, a.color.rgb);
        slices := slices + [PieSlice(i, position, span, a.color.rgb, lit, caption)];
        position := position + span;
      }
      i := i + 1;
    }
    return Success(slices);
  }

  /** r is the first area of the list with that name, or None when no area
      has it. */
  predicate FirstNamed(areas: seq<PieArea>, name: string, r: Option<PieArea>) {
    (r.None? <==> forall i :: 0 <= i < |areas| ==> areas[i].name != name) &&
    (r.Some? ==> exists i :: 0 <= i < |areas| && areas[i] == r.value && areas[i].name == name &&
                             forall j :: 0 <= j < i ==> areas[j].name != name)
  }

  /** `PieChart`: the areas in the order they were added, the rotation in
      degrees, the drawing and interaction switches, and the highlighted
      area (by position in the list). */
  class PieChart {
    var areas: seq<PieArea>
    var rotate: int
    var drawShadow: bool
    var drawLabels: bool
    var showPercentage: bool
    var showValues: bool
    var enableScroll: bool
    var enableMouseover: bool
    var highlighted: Option<nat>
    var redrawRequested: bool
    /** The colour palette read from the package's tango.color file. */
    const palette: seq<Rgb>

    /** No areas, no rotation, shadow, labels and values on, percentages
        off, scrolling and mouseover on, nothing highlighted. */
    constructor (palette: seq<Rgb>)
      requires |palette| > 0
      ensures areas == [] && rotate == 0 && drawShadow && drawLabels && !showPercentage && showValues
      ensures enableScroll && enableMouseover && highlighted == None && !redrawRequested
      ensures this.palette == palette
    {
      areas := [];
      rotate := 0;
      drawShadow := true;
      drawLabels := true;
      showPercentage := false;
      showValues := true;
      enableScroll := true;
      enableMouseover := true;
      highlighted := None;
      redrawRequested := false;
      this.palette := palette;
    }

    /** The label switches as one value. */
    function Flags(): LabelFlags
      reads this
    {
      LabelFlags(drawLabels, showPercentage, showValues)
    }

    /** `add_area`: an area with automatic colour gets the palette entry
        for the number of areas already held; the area is appended. */
    method AddArea(area: PieArea)
      requires |palette| > 0
      modifies this
      ensures areas == old(areas) + [if area.color.ColorAuto?
                                     then area.(color := Color(palette[|old(areas)| % |palette|]))
                                     else area]
      ensures rotate == old(rotate) && highlighted == old(highlighted) && Flags() == old(Flags())
      ensures enableScroll == old(enableScroll) && enableMouseover == old(enableMouseover)
      ensures redrawRequested == old(redrawRequested)
    {
      var a := area;
      if a.color.ColorAuto? {
        a := a.(color := Color(palette[|areas| % |palette|]));
      }
      areas := areas + [a];
    }

    /** `get_pie_area`: the first area with that name, or None. */
    method GetPieArea(name: string) returns (r: Option<PieArea>)
      ensures FirstNamed(areas, name, r)
    {
      var i := 0;
      while i < |areas|
        invariant 0 <= i <= |areas|
        invariant forall j :: 0 <= j < i ==> areas[j].name != name
      {
        if areas[i].name == name {
          return Some(areas[i]);
        }
        i := i + 1;
      }
      return None;
    }

    /** `_get_area_at_pos` on the allocation rect, with the platform's
        atan2: outside the pie, or without areas, None; otherwise the first
        area whose interval holds the mouse's angle, hidden areas
        included. The first area divides by the visible total, so a total
        of 0 raises. */
    method AreaAtPos(rect: Rect, px: real, py: real, atan2: (real, real) -> real) returns (r: Result<Option<nat>>)
      ensures !InsidePie(rect, px, py) || areas == [] ==> r == Success(None)
      ensures InsidePie(rect, px, py) && areas != [] ==> (r.Failure? <==> Total(areas) == 0.0)
      ensures r.Failure? ==> r.error == ZeroDivisionError
      ensures r.Success? && InsidePie(rect, px, py) && areas != [] ==>
                Total(areas) != 0.0 && FirstPieHit(areas, Total(areas), MouseAngle(rect, px, py, rotate, atan2), r.value)
    {
      var center := GetCenter(rect);
      var x := px - center.0 as real;
      var y := py - center.1 as real;
      var angle := atan2(x, -y);
      angle := angle - PI / 2.0;
      angle := angle - StartAngle(rotate);
      angle := NormaliseAngle(angle);
      var radius := PieRadius(rect);
      if x * x + y * y <= (radius * radius) as real {
        var total := SumVisible(areas);
        r := ScanAreas(areas, total, angle);
      } else {
        r := Success(None);
      }
    }

    /** `_cb_motion_notify`: with mouseover on, the area under the mouse
        becomes the highlighted one, and a redraw is requested when it
        changed; with mouseover off nothing happens. */
    method MotionNotify(rect: Rect, px: real, py: real, atan2: (real, real) -> real) returns (err: Option<PyError>)
      modifies this
      ensures areas == old(areas) && rotate == old(rotate) && Flags() == old(Flags())
      ensures enableMouseover == old(enableMouseover) && enableScroll == old(enableScroll)
      ensures !enableMouseover ==> err == None && highlighted == old(highlighted) &&
                                   redrawRequested == old(redrawRequested)
      ensures err.Some? ==> err == Some(ZeroDivisionError) && Total(areas) == 0.0 &&
                            highlighted == old(highlighted) && redrawRequested == old(redrawRequested)
      ensures enableMouseover && err.None? ==>
                (!InsidePie(rect, px, py) || areas == [] ==> highlighted == None) &&
                (InsidePie(rect, px, py) && areas != [] ==>
                   Total(areas) != 0.0 &&
                   FirstPieHit(areas, Total(areas), MouseAngle(rect, px, py, rotate, atan2), highlighted)) &&
                redrawRequested == (old(redrawRequested) || highlighted != old(highlighted))
    {
      if !enableMouseover {
        return None;
      }
      var hit := AreaAtPos(rect, px, py, atan2);
      if hit.Failure? {
        return Some(hit.error);
      }
      if hit.value != highlighted {
        redrawRequested := true;
      }
      highlighted := hit.value;
      return None;
    }

    /** `_cb_button_pressed`: the area under the mouse, if any, is the
        one the "area-clicked" signal carries. */
    method ButtonPressed(rect: Rect, px: real, py: real, atan2: (real, real) -> real) returns (r: Result<Option<PieArea>>)
      ensures !InsidePie(rect, px, py) || areas == [] ==> r == Success(None)
      ensures InsidePie(rect, px, py) && areas != [] ==> (r.Failure? <==> Total(areas) == 0.0)
      ensures r.Success? && r.value.Some? ==>
                InsidePie(rect, px, py) && Total(areas) != 0.0 &&
                exists k :: 0 <= k < |areas| && areas[k] == r.value.value &&
                  FirstPieHit(areas, Total(areas), MouseAngle(rect, px, py, rotate, atan2), Some(k))
      ensures r.Success? && r.value.None? && InsidePie(rect, px, py) && areas != [] ==>
                FirstPieHit(areas, Total(areas), MouseAngle(rect, px, py, rotate, atan2), None)
    {
      var hit := AreaAtPos(rect, px, py, atan2);
      if hit.Failure? {
        return Failure(hit.error);
      }
      if hit.value.Some? {
        return Success(Some(areas[hit.value.value]));
      }
      return Success(None);
    }

    /** `_cb_scroll_event`: with scrolling on, the rotation turns by the
        direction's step, is kept in [0, 360) and a redraw is requested;
        with scrolling off nothing changes. */
    method ScrollEvent(d: ScrollDirection)
      modifies this
      ensures enableScroll ==> rotate == Scrolled(old(rotate), d) && redrawRequested
      ensures !enableScroll ==> rotate == old(rotate) && redrawRequested == old(redrawRequested)
      ensures 0 <= old(rotate) < 360 ==> 0 <= rotate < 360
      ensures areas == old(areas) && highlighted == old(highlighted) && Flags() == old(Flags())
      ensures enableScroll == old(enableScroll) && enableMouseover == old(enableMouseover)
    {
      if !enableScroll {
        return;
      }
      var turned := RealMod(rotate as real + ScrollDelta(d), 360.0);
      if turned < 0.0 {
        turned := turned + 360.0;
      }
      rotate := Trunc(turned);
      redrawRequested := true;
    }

    /** `_do_draw_areas`: the visible total is summed, then the shown areas
        are drawn as consecutive sectors from `2 * math.pi * rotate / 360`. */
    method DrawAreas() returns (r: Result<seq<PieSlice>>)
      ensures r == DrawnSlices(areas, Total(areas), StartAngle(rotate), highlighted, Flags(), |areas|)
    {
      var total := SumVisible(areas);
      r := DrawSectors(areas, total, StartAngle(rotate), highlighted, Flags());
    }
  }
}

=== FILE: wrappers.dfy ===
/** Option and Result types shared by every module, and the Python exceptions
    that the chart geometry can raise. */
module Wrappers {

  datatype Option<+T> = None | Some(value: T)

  /** The exceptions the modelled Python code raises on its error paths. */
  datatype PyError =
    | TypeError          // subscripting None, or using the integer COLOR_AUTO as a colour
    | ZeroDivisionError  // a division by a zero range, total or maximum
    | ValueError         // log10 of a non-positive number, max() of an empty list, bad number text
    | IndexError         // indexing an empty list or a missing column
    | AttributeError     // reading an attribute that was never assigned

  datatype Result<+T> = Success(value: T) | Failure(error: PyError)
}
